=== FILE: README.md ===
# UpdateMe work log and status reports, modelled in Dafny

UpdateMe is a desktop work-log app. The user logs short entries during the day. Each entry is categorised by keywords (achievement, blocker, progress, meeting, other). The app later produces a status update for a date range, in one of two ways:

- **From a free-form format example** (`scripts/status.js`). Date placeholders are replaced. Section headers (`<h1>`–`<h6>`, `<strong>`, `<b>`) are read from the example. For each category, the header labels are tried in scan order: all headings, then all `<strong>`, then all `<b>`. The first label that contains one of the category's synonyms is chosen. Then every header whose lower-cased label equals the chosen one, and whose following text in the example does not start with `<ul>` after trimming, gets the category's bullet list. The list is inserted behind the first occurrence of that header's markup in the report. A category with no qualifying label gets an `<h3>` section appended at the end.
- **From a stored template** (`scripts/templates.js`). Only the literal `{date_range}` is replaced. Entries go into five fixed buckets. Each bucket's labels are tried in list order. The list goes after the leftmost heading that matches the first label with any heading match. Failing that, the first label with a marker-line match is taken. Its leftmost marker-line match runs up to a `<br`, `</` or `<div` terminator, and the list goes there. As written, the list replaces the terminator (see Findings).

The model also covers the following:
- the entry and template list operations (save, update, delete) and the save/generate validation;
- the date helpers of `scripts/utils.js`;
- the reminder rule and default settings of `scripts/app.js`.

Every operation is a pure function over immutable datatypes. Stores are in-memory sequences in storage order. Dates are the (year, zero-based month, day) triple that the JavaScript `Date` getters report. A timestamp is the three readings the code takes from a stored ISO string:
- the instant in milliseconds;
- the UTC `YYYY-MM-DD` day;
- the local date.

The regular expressions are modelled as explicit scanners. A lazy `.*?` is the least position on the same line (`Text.FirstInLine`). A regex `exec` loop is a leftmost-match scan that resumes at the end of each match (`Sections.ScanWith`).

Modules, one per file:

- Wrappers (`wrappers.dfy`): `Option`, `Result`
- Seqs (`seqs.dfy`): order-preserving `Filter`, the subsequence relation
- Text (`text.dfy`): ASCII case mapping, JavaScript whitespace and `trim`, `indexOf`, first-occurrence `replace`, `<div>` stripping, string `<`, the lazy scan
- Calendar (`calendar.dfy`): `formatDate`, `getTodayDateString`, `isSameDay`, `getFiscalQuarterString`
- Categorizer (`categorizer.dfy`): the keyword categoriser
- Entries (`entries.dfy`): entry records and list operations, today's newest-first list
- Templates (`templates.dfy`): template records and list operations, save validation
- Placeholders (`placeholders.dfy`): the global date-placeholder replaces of both generators
- Sections (`sections.dfy`): the three header patterns and their scans
- StatusReport (`status_report.dfy`): `categoryToSynonyms`, `generateStatusFromExample`, grouping, the generate handler
- Substitution (`substitution.dfy`): the `$` patterns of `String.prototype.replace` (for the finding below)
- TemplateReport (`template_report.dfy`): five-bucket grouping, `replaceContentPlaceholders`, the generate handler
- Reminders (`reminders.dfy`): default settings, `"HH:MM"` parsing, `checkReminder`

## Model

| member | source | states |
|---|---|---|
| `Text.Lower` | scripts/status.js:101 | `toLowerCase` keeps the length and maps each character by the ASCII rule |
| `Text.Capitalize` | scripts/status.js:154 | the first character is upper-cased and the rest kept; the empty string stays empty |
| `Text.TrimStart` | scripts/status.js:31 | only leading whitespace is removed, and the result does not start with whitespace |
| `Text.TrimEnd` | scripts/status.js:31 | only trailing whitespace is removed, and the result does not end with whitespace |
| `Text.Trim` | scripts/status.js:31 | `trim()` is a slice of the text with only whitespace cut off on either side, and it neither starts nor ends with whitespace |
| `Text.BlankIffAllSpace` | scripts/status.js:31 | `!s.trim()` holds exactly when every character is whitespace |
| `Text.IndexOf` | scripts/status.js:147 | the result is an occurrence at or after the start, no earlier one exists, and `None` means none exists at all |
| `Text.Contains` | scripts/status.js:119 | `includes` never finds a text longer than the string, and always finds the empty text |
| `Text.ContainsIffIndexOf` | scripts/status.js:119 | `includes` holds exactly when `indexOf` finds an occurrence |
| `Text.ReplaceFirst` | scripts/status.js:147 | with a literal replacement, exactly the first occurrence is replaced; text without an occurrence is unchanged |
| `Text.InsertAfterFirst` | scripts/status.js:147 | `replace(m, m + b)` with `b` taken literally inserts `b` right after the first occurrence of `m`, keeps the original as a subsequence, and changes nothing when `m` is absent |
| `Text.InsertAt` | scripts/templates.js:415 | the inserted text sits at the given position and the rest of the text is unchanged around it |
| `Text.StripDivTags` | scripts/status.js:130 | removing `<div>`/`</div>` only deletes characters, and the content is unchanged exactly when it holds no such tag |
| `Text.StringLessAppend` | scripts/status.js:40 | when the leading parts of two strings have equal lengths, string `<` is decided by those parts unless they are equal |
| `Text.StringLessTotal` | scripts/status.js:40 | string `<` is irreflexive, and of two different strings one is smaller |
| `Text.FirstInLine` | scripts/status.js:89 | a lazy `.*?` stops at the least position that satisfies the test with no line terminator before it; `None` means no such position on the line |
| `Seqs.Filter` | scripts/status.js:38-41 | `filter` keeps exactly the elements that satisfy the test, each of them, and nothing else |
| `Seqs.FilterCounts` | scripts/status.js:38-41 | each element that passes the test is kept as often as it occurs, and every other element is dropped entirely |
| `Seqs.FilterIsSubsequence` | scripts/status.js:38-41 | filtering keeps the surviving elements in their original order |
| `Seqs.FilterAppend` | scripts/status.js:52-57 | filtering distributes over concatenation |
| `Categorizer.FirstRow` | scripts/entries.js:52-57 | the first table row whose keywords occur wins; no earlier row occurs |
| `Categorizer.Categorize` | scripts/entries.js:40-57 | the result is one of the five labels; it is `other` exactly when no row's keyword occurs in the lower-cased content; otherwise it is the first row that hits |
| `Categorizer.PriorityWins` | scripts/entries.js:52-56 | a keyword of row `k` makes the category row `k` or an earlier row |
| `Categorizer.FixedTheLoginBug` | scripts/entries.js:45-46 | "Fixed the login bug" contains `fix` and `bug` and is categorised `achievement` |
| `Entries.CreateEntry` | scripts/entries.js:60-65 | a new entry carries the given id, content and time, no update time, and the keyword category |
| `Entries.SaveEntry` | scripts/entries.js:116-125 | the new entry goes last and the earlier entries are unchanged and in order; afterwards `findIndex` finds a fresh id at the end and an existing id where it already was |
| `Entries.FindIndex` | scripts/entries.js:79 | `findIndex` returns the first position with the id; `None` exactly when no entry has it |
| `Entries.UpdateEntry` | scripts/entries.js:74-114 | a missing id is refused; otherwise only the first entry with the id changes: content, update time and recomputed category; every other entry and the length are unchanged |
| `Entries.UpdateCategorisesLikeCreate` | scripts/entries.js:91-110 | the category an edit assigns equals the one a fresh entry with that content gets |
| `Entries.DeleteEntry` | scripts/entries.js:230 | no entry with the id remains; every other entry remains with its multiplicity, in order; nothing new appears; an absent id changes nothing |
| `Entries.SaveThenDelete` | scripts/entries.js:116-125 | deleting an entry just saved under a fresh id gives back the earlier list |
| `Entries.SubmitEntry` | scripts/entries.js:10-32 | blank content is ignored; with an edit in progress the entry is updated, otherwise a new one is created and saved |
| `Entries.InsertNewest` | scripts/entries.js:145 | inserting into a newest-first list keeps it newest first and adds exactly that entry |
| `Entries.SortNewestFirst` | scripts/entries.js:145 | the result is newest first and a permutation of the input |
| `Entries.SortIsStable` | scripts/entries.js:145 | entries with equal timestamps keep their storage order |
| `Entries.InsertNewestStable` | scripts/entries.js:145 | inserting an entry keeps the storage order among equal timestamps, placing the new one ahead of the stored entries with the same timestamp |
| `Entries.TodayEntries` | scripts/entries.js:133-145 | the list shows exactly the entries of the local day, each once, newest first |
| `Entries.InRangeIsChronological` | scripts/status.js:38-41 | for four-digit years the inclusive `YYYY-MM-DD` string filter keeps exactly the entries dated from the first to the last day, chronologically |
| `Entries.InRange` | scripts/status.js:38-41 | the inclusive string test with equal start and end dates keeps exactly the entries logged on that UTC day |
| `Entries.FilterPush` | scripts/status.js:52-57 | logging one more entry adds it to its own category's entries only |
| `Entries.ListItems` | scripts/status.js:129-131 | the `<li>` markup is empty exactly for no entries; otherwise it opens with `<li>` and closes with `</li>`, at least nine characters per entry |
| `Entries.ListItemsAppend` | scripts/status.js:129-131 | the `<li>` markup of consecutive runs of entries concatenates in entry order |
| `Entries.ListItemsSingle` | scripts/status.js:129-131 | one entry is a single `<li>` holding its content with `<div>` and `</div>` removed |
| `Entries.ListItemsVerbatim` | scripts/status.js:129-131 | an entry without `<div>` tags is listed verbatim between `<li>` and `</li>` |
| `Calendar.NatToString` | scripts/utils.js:8-10 | `String(n)` is a digit string that denotes `n`, with no leading zero |
| `Calendar.TwoDigits` | scripts/utils.js:8-9 | below 100, `padStart(2, '0')` gives exactly two digits that denote the number |
| `Calendar.IntToString` | scripts/utils.js:29 | `String(i)` of a negative number is a minus sign followed by the numeral of its magnitude |
| `Calendar.FormatDate` | scripts/utils.js:6-12 | `MM/DD/YYYY`: a two-digit month one above the zero-based month, a two-digit day, then the year |
| `Calendar.FormatDateRoundTrip` | scripts/utils.js:6-12 | the formatted date reads back as the same date |
| `Calendar.DayString` | scripts/utils.js:24-30 | `YYYY-MM-DD` with the year, then the two-digit month and day |
| `Calendar.DayStringRoundTrip` | scripts/utils.js:24-30 | the day text reads back as the same date |
| `Calendar.DayStringOrder` | scripts/status.js:40 | for valid dates with four-digit years, string `<` on day texts is chronological order |
| `Calendar.DayStringLeq` | scripts/status.js:40 | for the same dates, the inclusive string test is "on or before" |
| `Calendar.DigitsLess` | scripts/status.js:40 | on equal-length numerals, string order is numeric order |
| `Calendar.DateRangeLabel` | scripts/status.js:62 | the date-range label has no braces, so it cannot form a placeholder, and is at least 17 characters long |
| `Calendar.IsSameDay` | scripts/utils.js:33-42 | two dates are the same day exactly when they are equal |
| `Calendar.IsSameDayIsEquivalence` | scripts/utils.js:33-42 | `isSameDay` is reflexive, symmetric and transitive |
| `Calendar.FiscalYearOf` | scripts/utils.js:84-87 | the fiscal year is the calendar year or the one before, with the date on or after that year's fiscal start and before the next |
| `Calendar.FiscalQuarter` | scripts/utils.js:90-94 | the quarter is whole months since the start month, mod 12, divided by 3, plus 1, and lies in 1..4 |
| `Calendar.JsRem` | scripts/utils.js:99 | JavaScript `%` as ECMAScript defines it: the result has the dividend's sign, is below the divisor in magnitude, and differs from the dividend by a multiple of the divisor |
| `Calendar.JsRemUnique` | scripts/utils.js:99 | those three properties single out the remainder, so the model is the truncated remainder and not Dafny's Euclidean one |
| `Calendar.FiscalYearText` | scripts/utils.js:97-104 | the three known formats give `FY-` + two digits, `FY-` + year, `FY` + two digits; any other format gives nothing (`undefined`) |
| `Calendar.ShortFiscalYearDigits` | scripts/utils.js:99-103 | for a non-negative fiscal year the short formats carry exactly its last two digits |
| `Calendar.FiscalQuarterString` | scripts/utils.js:78-107 | the label always ends `-Q<quarter>`, preceded by the fiscal-year text or `undefined`; an omitted format means `FY-YY` |
| `Calendar.DefaultFiscalStartIsCalendar` | scripts/utils.js:84-94 | a January 1st start gives the calendar year and the calendar quarter |
| `Calendar.AsWrittenPeriodGoesBackwards` | scripts/utils.js:90-94 | with a start of April 15th, March 20th is labelled FY-23-Q4 but the later April 10th FY-23-Q1 |
| `Calendar.FiscalQuarterCorrected` | scripts/utils.js:90-94 | the corrected quarter counts months from the same day-aware offset that the fiscal year uses and lies in 1..4 |
| `Calendar.CorrectedPeriodIsElapsedQuarters` | scripts/utils.js:84-94 | with the corrected quarter, the (year, quarter) period is the elapsed fiscal months divided by 3 |
| `Calendar.CorrectedPeriodIsMonotone` | scripts/utils.js:84-94 | with the corrected quarter, a later date never gets an earlier period |
| `Templates.SaveTemplate` | scripts/templates.js:82-91 | the template goes last and the earlier ones are unchanged; afterwards `find` returns it for a fresh id and the earlier template for an existing id |
| `Templates.TemplateIndex` | scripts/templates.js:98 | `findIndex` returns the first position with the id; `None` exactly when there is none |
| `Templates.FindTemplate` | scripts/templates.js:338 | `find` returns the first template with the id, or nothing exactly when none has it |
| `Templates.UpdateTemplate` | scripts/templates.js:93-112 | a missing id is refused; otherwise only name, content and update time of the first match change and all else is kept |
| `Templates.UpdateThenFind` | scripts/templates.js:93-112 | after an update, looking the id up gives the new name, content and time and the old creation time |
| `Templates.DeleteTemplate` | scripts/templates.js:267-276 | no template with the id remains; the others remain with their multiplicity, in order; an absent id changes nothing |
| `Templates.SaveThenDeleteTemplate` | scripts/templates.js:267-276 | deleting a template just saved under a fresh id gives back the earlier list |
| `Templates.SubmitTemplate` | scripts/templates.js:34-66 | a blank trimmed name or blank content is refused, in that order; then the template is updated or a new one is appended with the trimmed name |
| `Placeholders.ReplaceToken` | scripts/status.js:80 | text without the placeholder is unchanged by the global replace; with `Placeholders.FirstTokenReplaced` this fixes the result on every input |
| `Placeholders.FirstTokenReplaced` | scripts/status.js:80-82 | the first occurrence of the placeholder becomes the date-range text, the text before it is kept, and the global replace continues behind it |
| `Placeholders.PlaceholderBecomesRep` | scripts/templates.js:386 | a placeholder between two brace-free texts is replaced by the date range, and both texts are kept |
| `Placeholders.TokenKindsExclusive` | scripts/status.js:80-82 | no text matches two of the three status placeholder patterns at the same place |
| `Placeholders.ReplaceIsComplete` | scripts/status.js:80-82 | after the global replace by a brace-free, long enough text, no occurrence of the placeholder remains |
| `Placeholders.NoTokenAfterReplace` | scripts/status.js:80-82 | a later replace never creates an occurrence of a placeholder already removed |
| `Placeholders.ReplaceDatePlaceholders` | scripts/status.js:80-82 | after the three replaces none of `{date_range}`, `{date}`, `{period}` remains (for a brace-free date range of at least 11 characters) |
| `Placeholders.DateRangeTakesPlaceholder` | scripts/status.js:80-82 | any spelling of `{date_range}`, `{date}` or `{period}` that the patterns accept, between brace-free texts, becomes the date range with the texts around it kept |
| `Placeholders.DateRangeInText` | scripts/status.js:80 | `Report {Date_Range}.` becomes `Report 01/01/2024 - 01/14/2024.` |
| `Placeholders.ReplaceDatePlaceholdersIdempotent` | scripts/status.js:80-82 | replacing the date placeholders twice is the same as once |
| `Placeholders.StatusPlaceholdersIgnoreCase` | scripts/status.js:80-82 | `{Date Range}`, `{DATE}` and `{Period}` are all replaced |
| `Placeholders.TemplatePlaceholderIsExact` | scripts/templates.js:386 | `{date_range}` is replaced but `{DATE_RANGE}` and `{date range}` are kept |
| `Sections.LabelStartIsOpeningTag` | scripts/status.js:89-91 | the opening tag is `<h1`..`<h6` up to the first `>`, or `<strong>`/`<b>` in any case |
| `Sections.MatchAt` | scripts/status.js:89-91 | a match found at an offset starts there, has the pattern's kind and fits in the text; `Sections.MatchAtIsLazyMatch` gives its shape |
| `Sections.MatchAtIsLazyMatch` | scripts/status.js:89-91 | a reported header is the opening tag, the shortest one-line inner text up to the first closing tag, and that tag; its label is the lower-cased inner text |
| `Sections.NoMatchIffNoClose` | scripts/status.js:89-91 | there is no match at an offset exactly when no closing tag is reachable on the line after the opening tag |
| `Sections.ScanIsOrdered` | scripts/status.js:98-103 | the `exec` loop reports non-overlapping matches in text order |
| `Sections.ScanIsComplete` | scripts/status.js:98-103 | every offset where the pattern matches lies inside a reported match |
| `Sections.ScanFindsLeftmost` | scripts/status.js:100 | each `exec` returns the leftmost match from where the scan stands |
| `Sections.ScanReportsEveryMatch` | scripts/status.js:98-103 | a pattern's scan of the example is ordered and covers every match |
| `Sections.AllSections` | scripts/status.js:88-103 | every candidate section is a match of its own pattern at its own offset |
| `Sections.AllSectionsInPatternOrder` | scripts/status.js:88-103 | the candidates are all headings, then all `<strong>`, then all `<b>` |
| `Sections.LabelsInPatternOrder` | scripts/status.js:98-103 | the candidate labels are the lower-cased inner texts in that order, duplicates kept |
| `StatusReport.Synonyms` | scripts/status.js:167-184 | the table row of the lower-cased category, or that category alone; never empty |
| `StatusReport.SynonymsIgnoreCase` | scripts/status.js:178-183 | `Meeting` gets the meeting row; `achievement`, not a key, gets itself |
| `StatusReport.FirstQualifying` | scripts/status.js:116-125 | the first candidate that contains a synonym; no earlier candidate does |
| `StatusReport.MatchedSection` | scripts/status.js:116-125 | there is a match exactly when some candidate contains a synonym |
| `StatusReport.MatchSection` | scripts/status.js:116-127 | the nested loops with their breaks pick the first qualifying candidate; an empty label counts as no match |
| `StatusReport.CandidateOrderWins` | scripts/status.js:117-124 | candidate order beats synonym order |
| `StatusReport.BulletList` | scripts/status.js:128-133 | `<ul>`, then the `<li>` items of the entries in order, then `</ul>`, and nothing else |
| `StatusReport.InsertLists` | scripts/status.js:136-151 | inserting lists only adds text, and nothing changes when no header occurrence qualifies |
| `StatusReport.ReceiverMarkups` | scripts/status.js:136-151 | the markups of the header occurrences that receive the list, in scan order; empty exactly when no occurrence receives it |
| `StatusReport.InsertListsIsInsertEach` | scripts/status.js:136-151 | the second pass inserts the list once behind the first occurrence of each receiving markup, in scan order |
| `StatusReport.OnlyReceiverGetsList` | scripts/status.js:136-151 | when exactly one header occurrence receives the list, it lands right behind the first occurrence of that markup in the current result, and nowhere else |
| `StatusReport.FirstReceiverGetsList` | scripts/status.js:139-148 | a qualifying header gets the list right after the first occurrence of its markup in the current result |
| `StatusReport.Appendix` | scripts/status.js:152-159 | an unmatched category appends `<h3>`, the capitalised category and `</h3>`, then `<ul>`, its items and `</ul>`, and nothing else |
| `StatusReport.CategoryStep` | scripts/status.js:106-160 | an empty group adds nothing; an unmatched category appends exactly `<h3>Category</h3><ul>…</ul>` to the result; a matched category with no receiving header occurrence changes nothing; in every case text is only added |
| `StatusReport.MatchedCategoryFillsReceiver` | scripts/status.js:127-151 | a matched category with exactly one receiving header occurrence puts `<ul>…</ul>` right behind the first occurrence of that header in the result |
| `StatusReport.FirstAppearance` | scripts/status.js:52-57 | where a category first appears among the entries |
| `StatusReport.GroupEntries` | scripts/status.js:50-57 | at most one group per entry, at least one when there are entries, and no group is empty |
| `StatusReport.GroupEntriesIsGrouping` | scripts/status.js:50-57 | grouping gives one non-empty group per category present, each holding that category's entries in order, with groups in order of first appearance |
| `StatusReport.FillSections` | scripts/status.js:106-161 | filling the sections only inserts text into the substituted example; groups that are all empty change nothing |
| `StatusReport.Generate` | scripts/status.js:75-164 | the result contains the placeholder-substituted example as a subsequence, and equals it when every group is empty |
| `StatusReport.NoHeadersAppendsAll` | scripts/status.js:152-160 | with no candidate header, every non-empty group is appended in group order |
| `StatusReport.UnmatchedAppendsAll` | scripts/status.js:106-160 | when no category matches a header, every non-empty group is appended as `<h3>` section in group order and nothing else changes |
| `StatusReport.GenerateWithoutHeaders` | scripts/status.js:75-164 | an example without headers becomes the substituted example followed by one `<h3>` section per non-empty group |
| `StatusReport.GenerateUnmatchedAppends` | scripts/status.js:75-164 | when no category matches a header of the example, the report is the substituted example followed by one `<h3>` section per non-empty group |
| `StatusReport.GenerateFillsMatchedHeader` | scripts/status.js:75-164 | one group matched to a header with exactly one receiving occurrence: the report is the substituted example with `<ul>…</ul>` right behind that header, and nothing appended |
| `StatusReport.GenerateStatus` | scripts/status.js:21-65 | missing dates, then a blank example, are refused; when no entry falls within the date range the result is the fixed "No entries found" markup; otherwise it is the example filled with the in-range entries grouped by category |
| `Substitution.Expand` | scripts/status.js:147 | a replacement without `$` is used as is |
| `Substitution.ReplaceFirstExpanding` | scripts/status.js:147 | `replace` as the engine performs it agrees with the literal replacement whenever the replacement has no `$` |
| `Substitution.DollarInEntryRepeatsHeader` | scripts/status.js:147 | an entry `Paid $&` under `<h3>Notes</h3>` repeats the header inside the list item, while the literal insertion shows `$&` |
| `StatusReport.PaidEntryGoesUnderNotes` | scripts/entries.js:40-57 | `Paid $&` hits no keyword and is categorised `other`, and the label `notes` qualifies for the `other` synonyms, so the `<h3>Notes</h3>` header receives the list |
| `TemplateReport.BucketOf` | scripts/templates.js:353-359 | the five bucket keys and their order; `None` exactly for any other category |
| `TemplateReport.GroupFive` | scripts/templates.js:361-363 | grouping fails exactly when some entry's category has no bucket, naming the first such category |
| `TemplateReport.GroupFiveIsBuckets` | scripts/templates.js:353-363 | grouping succeeds exactly when every category is one of the five; then bucket `k` holds exactly category `k`'s entries, in order |
| `TemplateReport.LabelThen` | scripts/templates.js:411 | a found end lies on the line after the label and satisfies the stop test; `LabelThenSound` and `LabelThenComplete` tie it to the pattern |
| `TemplateReport.LabelThenSound` | scripts/templates.js:411 | what the `.*?LABEL.*?` scan finds matches the pattern |
| `TemplateReport.LabelThenComplete` | scripts/templates.js:411 | the scan finds a match whenever one exists, ending no later than that match |
| `TemplateReport.Leftmost` | scripts/templates.js:413 | the match is at the leftmost position where the pattern matches |
| `TemplateReport.FindHeading` | scripts/templates.js:411-413 | a heading match is a non-empty span inside the content |
| `TemplateReport.HeadingEnd` | scripts/templates.js:411 | a heading match at an offset ends after it and within the content |
| `TemplateReport.HeadingEndIsMatch` | scripts/templates.js:411 | the heading pattern matches at an offset exactly when its tag opens there and a closing tag follows the label on the same line |
| `TemplateReport.FirstLabel` | scripts/templates.js:409-419 | the first label in list order that matches; none earlier does |
| `TemplateReport.HeadingPass` | scripts/templates.js:409-418 | the heading pass applies exactly when some label has a heading; then it only inserts the list |
| `TemplateReport.HeadingPassInsertsAfterMatch` | scripts/templates.js:413-415 | the list goes right after the leftmost heading match of the first label that has one |
| `TemplateReport.EmojiStop` | scripts/templates.js:424 | a marker-line match at an offset ends at a `<br`, `</` or `<div` terminator behind it |
| `TemplateReport.EmojiSite` | scripts/templates.js:423-426 | the emoji pass acts exactly when some label has a marker line, at the terminator that ends its first group |
| `TemplateReport.EmojiPassAsWritten` | scripts/templates.js:424-427 | the replacement as written applies exactly when some label has a marker line |
| `TemplateReport.EmojiPass` | scripts/templates.js:421-431 | the corrected emoji pass applies under the same condition and inserts the list before the terminator, keeping it |
| `TemplateReport.EmojiStep` | scripts/templates.js:423-431 | the as-written step writes the list over the terminator and the corrected step inserts it before the terminator; both apply exactly when some label has a marker line |
| `TemplateReport.AsWrittenEmojiPassDropsTerminator` | scripts/templates.js:424-427 | the replacement as written applies exactly when the intended one does, and then its text is the intended text minus the 2 to 4 terminator characters |
| `TemplateReport.EmojiLineExample` | scripts/templates.js:424-427 | for any marker class and any character `m` in it, on the line `m Done<br>` the code as written leaves `>` while the intended pass keeps `<br>` |
| `TemplateReport.FillCategoryDropsTerminator` | scripts/templates.js:409-431 | the as-written and corrected fills of a category differ exactly when the emoji pass is reached; then the as-written text is the corrected text with the terminator behind the list cut out |
| `TemplateReport.EmojiLineFill` | scripts/templates.js:399-433 | for any marker class and any character `m` in it, a template `m Done<br>` with one `done` entry becomes `m Done` + list + `>` as written, and `m Done` + list + `<br>` when corrected |
| `TemplateReport.AsWrittenMarkerLines` | scripts/templates.js:399-433 | with the class as the file spells it, `ü Done<br>` becomes `ü Done` + list + `>`, while `✅ Done<br>` is no marker line and stays as it is, the entry dropped |
| `TemplateReport.NoHeadingTag` | scripts/templates.js:411-413 | text without a `<h` tag has no heading match for any label |
| `TemplateReport.FillCategory` | scripts/templates.js:399-433 | an empty bucket, or no heading and no marker line for any label, leaves the content unchanged (the entries are dropped); a heading match only inserts text; at a marker line the content grows by the list, minus the terminator as written; with the terminator kept a category only adds text |
| `TemplateReport.HeadingPassFirst` | scripts/templates.js:421-422 | the emoji pass is not consulted once some label has a heading |
| `TemplateReport.FillBuckets` | scripts/templates.js:398-434 | buckets are processed in the fixed order; all-empty buckets change nothing; with the terminator kept they only add text |
| `TemplateReport.ReplaceContentPlaceholders` | scripts/templates.js:384-437 | the result equals the `{date_range}`-substituted template when every bucket is empty; with the terminator kept it contains that template as a subsequence |
| `TemplateReport.NoDateRangeLeft` | scripts/templates.js:386 | with a brace-free label of at least 11 characters, no `{date_range}` survives |
| `TemplateReport.GenerateFromTemplate` | scripts/templates.js:321-381 | no selection, a missing date and an unknown template are refused in that order; an in-range entry outside the five categories is refused exactly then; otherwise the result is the template filled, as written, with the five buckets of the in-range entries |
| `TemplateReport.InRangeBucketed` | scripts/templates.js:347-363 | every in-range entry has a bucket exactly when no entry in the date range has a category outside the five |
| `Reminders.LoadSettings` | scripts/app.js:66-78 | stored settings are used as they are; otherwise reminders are on at `"17:00"` with the weekly one, and the fiscal year starts January 1st with `FY-YY` and quarters |
| `Reminders.DefaultTimeIs1700` | scripts/app.js:69 | the default reminder time `"17:00"` is read as 1700 |
| `Reminders.ParseTwoDigits` | scripts/app.js:148 | a two-digit part such as `"05"` is read as its number |
| `Reminders.SplitOn` | scripts/app.js:148 | `split` yields at least one part and no part holds the separator |
| `Reminders.JoinSplit` | scripts/app.js:148 | joining the parts with the separator gives the text back |
| `Reminders.ParseNumber` | scripts/app.js:148 | `Number` of blank text is 0, of a digit string a non-negative value, and any value read from non-blank text ends in a digit |
| `Reminders.ParseReminderTime` | scripts/app.js:148-149 | a time without `:` reads as no number, so the daily reminder cannot fire |
| `Reminders.ParseNumberRoundTrip` | scripts/app.js:148 | `Number(String(n))` is `n` |
| `Reminders.ReminderTimeRoundTrip` | scripts/app.js:148-149 | a stored `HH:MM` is read as `HH*100 + MM` |
| `Reminders.CheckReminder` | scripts/app.js:137-163 | no settings, no reminders or disabled reminders show nothing; the daily reminder fires exactly when the stored time reads and the clock is within one unit of it; the weekly one fires exactly on Fridays at 15:00 with end-of-week set |
| `Reminders.DailyRule` | scripts/app.js:145-152 | with valid minutes, the daily rule fires exactly within one minute in the same hour; across hours the encoding differs by at least 41 |
| `Reminders.DefaultReminderExamples` | scripts/app.js:144-162 | with the defaults, 17:01 reminds, 16:59 does not, and a Friday at 15:00 shows only the weekly reminder |
| `Reminders.BothFireOnFridayAtThree` | scripts/app.js:152-161 | a reminder at 15:00 fires both notifications on a Friday at 15:00 |

## Left out

- DOM wiring, `alert`/`confirm`, the rich-text editor, tab switching, the preview modal and clipboard copy with their style-stripping replaces: these are presentation and browser APIs. A refused operation is a `Result` error naming the alert it would show.
- `localStorage` (`scripts/storage.js`) and `main.js` are not part of this model. Stores are sequences passed in and returned.
- The clock, time zones, `Date.now()` ids, ISO parsing and the default date ranges are left out. Ids, "now" and the three timestamp readings are parameters.
- The date-range label is a parameter of both generators. `Calendar.DateRangeLabel` models how the handlers build it from `formatDate`.
- `formatTime` is left out: its output depends on the locale.
- The Notification API, `setInterval` and `showNotification` are left out. `Reminders.CheckReminder` reports which notifications would be shown.
- Which of the two global `initializeStatusGenerator` definitions the page ends up using is left out. Both generators are modelled, separately.
- Text.Lower: case mapping covers ASCII letters only. JavaScript `toLowerCase` is full Unicode. The case-insensitive regex flag behaves the same for the ASCII words matched here.
- Text.Capitalize: `toUpperCase` of the first character covers ASCII letters only, for the same reason.
- Reminders.ParseNumber: `Number` is modelled for optionally signed decimal integers with surrounding whitespace only. Decimal points, exponents, hex and `Infinity` read as `NaN` here.
- TemplateReport.GroupFive: a category outside the five buckets makes the code throw at `push`, which ends the click handler. The model returns `Err(UnknownCategory)` rather than requiring that no such entry exists. `GenerateFromTemplate` passes it on as `BadCategory`.
- TemplateReport.EmojiStop: the emoji character class in the source is the UTF-8 bytes of the emoji read back as Mac Roman. Whether a character opens an emoji line is the parameter `marker`. `TemplateReport.AsWrittenMarker` is that class as the file spells it, and the generic lemmas hold for every class.
- StatusReport.GroupEntries: groups come in first-appearance order. A JavaScript object lists integer-like keys first, and prototype keys such as `constructor` misbehave. Neither occurs for the generated category names.
- TemplateReport.FillCategory: as written, the emoji pass writes the list over the terminator, so the generated report need not contain the template as a subsequence. Only the terminator-keeping variant promises that. `GenerateFromTemplate` follows the code.
- TemplateReport.HeadingPass: the replacement at templates.js:415 (and the emoji one at templates.js:427) is taken literally in the model. These replaces use a regular expression with one capture group, so an entry holding `$1`, `$01`, `$&` or another `$` pattern would get the heading or marker text spliced into its `<li>`. That expansion is not modelled: `Substitution.Expand` covers string patterns only, and only the status.js:147 case is under Findings.
- StatusReport.InsertLists: the replace at status.js:147 takes its replacement literally in the model. Its `$` patterns (a string pattern, no captures) are modelled in `Substitution` and shown under Findings. The capture-group expansion of templates.js:415/427 is not modelled (see the `TemplateReport.HeadingPass` line).
- Entries.UpdateEntry: for a missing id the code shows an alert and stores nothing. The model returns an error and leaves the list to the caller.

## Findings

| source | as written | input that shows it | evidently intended | confidence | as-written member | corrected member |
|---|---|---|---|---|---|---|
| scripts/status.js:147 | `result.replace(match[0], match[0] + bulletList)` passes entry text as a replacement string, so `$&`, `$'`, `` $` `` and `$$` in an entry are expanded | an entry `Paid $&` (categorised `other`) under the header `<h3>Notes</h3>` is shown as `Paid <h3>Notes</h3>` | the entry text inserted literally after the header | not executed | `Substitution.DollarInEntryRepeatsHeader` | `Text.InsertAfterFirst` |
| scripts/templates.js:424-427 | the emoji pattern consumes the terminator `<br`, `</` or `<div`, and the replacement `$1\n<ul>…</ul>` does not restore it | with the class as the file spells it (`ü` is one of its characters), a marker line `ü Done<br>` becomes `ü Done\n<ul>…</ul>>`; with the class decoded as the intended emoji the same holds for `✅ Done<br>` | the list inserted before the terminator, which is kept (`ü Done\n<ul>…</ul><br>`) | not executed | `TemplateReport.AsWrittenEmojiPassDropsTerminator` | `TemplateReport.EmojiPass` |
| scripts/utils.js:90-94 | the quarter counts whole months from the start month and ignores the start day, while the fiscal year uses the day | with a fiscal start of April 15th, March 20th 2024 is `FY-23-Q4` but April 10th 2024 is `FY-23-Q1` | the quarter counted from the same day-aware start, so labels never go back in time | not executed | `Calendar.AsWrittenPeriodGoesBackwards` | `Calendar.CorrectedPeriodIsMonotone` |

=== FILE: calendar.dfy ===
/**
 * Calendar formatting and fiscal-quarter arithmetic (`scripts/utils.js`).
 * A date is the triple the JavaScript `Date` getters report; how such a
 * triple is obtained from an instant (clock, time zone) is not modelled.
 */
module Calendar {
  import opened Wrappers
  import opened Text

  /** `getFullYear()`, zero-based `getMonth()` and `getDate()` of a JavaScript `Date`. */
  datatype Date = Date(year: int, month: nat, day: nat)
  {
    /** The ranges the `getMonth()` and `getDate()` getters can return. */
    predicate Valid()
    {
      month <= 11 && 1 <= day <= 31
    }
  }

  /** Chronological order of dates: year, then month, then day. */
  predicate DateLess(a: Date, b: Date)
  {
    a.year < b.year
    || (a.year == b.year && a.month < b.month)
    || (a.year == b.year && a.month == b.month && a.day < b.day)
  }

  predicate DateLeq(a: Date, b: Date)
  {
    a == b || DateLess(a, b)
  }

  // ------------------------------------------------------------- digits

  predicate IsDigit(c: char)
  {
    '0' <= c <= '9'
  }

  predicate AllDigits(s: string)
  {
    forall i :: 0 <= i < |s| ==> IsDigit(s[i])
  }

  function DigitChar(n: nat): (c: char)
    requires n < 10
    ensures IsDigit(c) && c as int - '0' as int == n
  {
    ('0' as int + n) as char
  }

  /** The number a string of decimal digits denotes (leading zeros allowed). */
  function DigitsValue(s: string): nat
    requires AllDigits(s)
  {
    if |s| == 0 then 0
    else DigitsValue(s[..|s| - 1]) * 10 + (s[|s| - 1] as int - '0' as int)
  }

  function Pow10(k: nat): (r: nat)
    ensures r >= 1
  {
    if k == 0 then 1 else 10 * Pow10(k - 1)
  }

  /** `String(n)` for a non-negative integer: shortest decimal digits, no leading zero. */
  function NatToString(n: nat): (r: string)
    ensures |r| > 0 && AllDigits(r)
    ensures DigitsValue(r) == n
    ensures n < Pow10(|r|)
    ensures |r| > 1 ==> Pow10(|r| - 1) <= n
  {
    if n < 10 then
      [DigitChar(n)]
    else
      var h := NatToString(n / 10);
      var r := h + [DigitChar(n % 10)];
      assert r[..|r| - 1] == h;
      r
  }

  /** `String(i)` for any integer: a minus sign before the digits of a negative number. */
  function IntToString(i: int): (r: string)
    ensures DateChars(r)
    ensures i >= 0 ==> r == NatToString(i)
    ensures i < 0 ==> r == "-" + NatToString(-i)
  {
    if i < 0 then
      DateCharsAppend("-", NatToString(-i));
      "-" + NatToString(-i)
    else NatToString(i)
  }

  /** `s.padStart(2, '0')`. */
  function PadTwo(s: string): (r: string)
    ensures |s| >= 2 ==> r == s
    ensures |s| < 2 ==> |r| == 2 && r[2 - |s|..] == s && forall i :: 0 <= i < 2 - |s| ==> r[i] == '0'
  {
    if |s| == 0 then "00" else if |s| == 1 then "0" + s else s
  }

  /** `String(n).padStart(2, '0')`: exactly two digits denoting `n` when `n < 100`. */
  function TwoDigits(n: nat): (r: string)
    ensures n < 100 ==> |r| == 2 && AllDigits(r) && DigitsValue(r) == n
  {
    var s := NatToString(n);
    if n < 10 then
      assert |s| == 1;
      var r := PadTwo(s);
      assert r == ['0', s[0]];
      assert r[..1] == "0";
      r
    else
      TwoDigitsLength(n);
      PadTwo(s)
  }

  lemma TwoDigitsLength(n: nat)
    requires 10 <= n
    ensures n < 100 ==> |NatToString(n)| == 2
  {
    var s := NatToString(n);
    if n < 100 {
      assert Pow10(2) == 100;
      if |s| > 2 {
        Pow10Mono(2, |s| - 1);
      }
    }
  }

  lemma Pow10Mono(a: nat, b: nat)
    requires a <= b
    ensures Pow10(a) <= Pow10(b)
  {
  }

  // --------------------------------------------------------- formatting

  /** `formatDate`: `MM/DD/YYYY`, the month being one more than the zero-based month. */
  function FormatDate(d: Date): (r: string)
    ensures d.Valid() ==> |r| >= 7 && r[2] == '/' && r[5] == '/'
    ensures d.Valid() ==> AllDigits(r[..2]) && DigitsValue(r[..2]) == d.month + 1
    ensures d.Valid() ==> AllDigits(r[3..5]) && DigitsValue(r[3..5]) == d.day
    ensures d.Valid() ==> r[6..] == IntToString(d.year)
    ensures DateChars(r)
  {
    var mm := TwoDigits(d.month + 1);
    var dd := TwoDigits(d.day);
    var y := IntToString(d.year);
    DateCharsJoin(mm, dd, y);
    if d.Valid() then
      SlashedParts(mm, dd, y);
      mm + "/" + dd + "/" + y
    else
      mm + "/" + dd + "/" + y
  }

  predicate DateChars(s: string)
  {
    forall i :: 0 <= i < |s| ==> IsDigit(s[i]) || s[i] == '/' || s[i] == '-'
  }

  /** `mm/dd/y` is made of digits, slashes and minus signs. */
  lemma DateCharsJoin(mm: string, dd: string, y: string)
    requires AllDigits(mm) && AllDigits(dd) && DateChars(y)
    ensures DateChars(mm + "/" + dd + "/" + y)
  {
    DateCharsAppend(mm, "/");
    DateCharsAppend(mm + "/", dd);
    DateCharsAppend(mm + "/" + dd, "/");
    DateCharsAppend(mm + "/" + dd + "/", y);
  }

  lemma DateCharsAppend(a: string, b: string)
    requires DateChars(a) && DateChars(b)
    ensures DateChars(a + b)
  {
    forall i | 0 <= i < |a + b| ensures IsDigit((a + b)[i]) || (a + b)[i] == '/' || (a + b)[i] == '-' {
      if i >= |a| {
        assert (a + b)[i] == b[i - |a|];
      }
    }
  }

  /** Where the parts of `mm/dd/y` sit when both of the first two have two characters. */
  lemma SlashedParts(mm: string, dd: string, y: string)
    requires |mm| == 2 && |dd| == 2
    ensures var r := mm + "/" + dd + "/" + y;
      |r| == |y| + 6 && r[2] == '/' && r[5] == '/' && r[..2] == mm && r[3..5] == dd && r[6..] == y
  {
  }

  /** Reads back a `MM/DD/YYYY` string with a non-negative year; the inverse of `FormatDate`. */
  function ParseUsDate(s: string): Option<Date>
  {
    if |s| >= 7 && s[2] == '/' && s[5] == '/'
       && AllDigits(s[..2]) && AllDigits(s[3..5]) && AllDigits(s[6..])
       && DigitsValue(s[..2]) >= 1
    then Some(Date(DigitsValue(s[6..]), DigitsValue(s[..2]) - 1, DigitsValue(s[3..5])))
    else None
  }

  lemma FormatDateRoundTrip(d: Date)
    requires d.Valid() && d.year >= 0
    ensures ParseUsDate(FormatDate(d)) == Some(d)
  {
    var r := FormatDate(d);
    assert r[6..] == NatToString(d.year);
  }

  /** The date part of `getTodayDateString`: `YYYY-MM-DD` from the date's own getters. */
  function DayString(d: Date): (r: string)
    ensures d.Valid() ==> |r| >= 7 && r[|r| - 6] == '-' && r[|r| - 3] == '-'
    ensures d.Valid() ==> r[..|r| - 6] == IntToString(d.year)
    ensures d.Valid() ==> AllDigits(r[|r| - 5..|r| - 3]) && DigitsValue(r[|r| - 5..|r| - 3]) == d.month + 1
    ensures d.Valid() ==> AllDigits(r[|r| - 2..]) && DigitsValue(r[|r| - 2..]) == d.day
  {
    var y := IntToString(d.year);
    var mm := TwoDigits(d.month + 1);
    var dd := TwoDigits(d.day);
    if d.Valid() then
      DashedParts(y, mm, dd);
      y + "-" + mm + "-" + dd
    else
      y + "-" + mm + "-" + dd
  }

  /** Where the parts of `y-mm-dd` sit when the last two have two characters. */
  lemma DashedParts(y: string, mm: string, dd: string)
    requires |mm| == 2 && |dd| == 2
    ensures var r := y + "-" + mm + "-" + dd;
      |r| == |y| + 6 && r[|r| - 6] == '-' && r[|r| - 3] == '-'
      && r[..|r| - 6] == y && r[|r| - 5..|r| - 3] == mm && r[|r| - 2..] == dd
  {
  }

  /** Reads back a `YYYY-MM-DD` string with a non-negative year; the inverse of `DayString`. */
  function ParseDayString(s: string): Option<Date>
  {
    var n := |s|;
    if n >= 7 && s[n - 6] == '-' && s[n - 3] == '-'
       && AllDigits(s[..n - 6]) && AllDigits(s[n - 5..n - 3]) && AllDigits(s[n - 2..])
       && DigitsValue(s[n - 5..n - 3]) >= 1
    then Some(Date(DigitsValue(s[..n - 6]), DigitsValue(s[n - 5..n - 3]) - 1, DigitsValue(s[n - 2..])))
    else None
  }

  lemma DayStringRoundTrip(d: Date)
    requires d.Valid() && d.year >= 0
    ensures ParseDayString(DayString(d)) == Some(d)
  {
    var r := DayString(d);
    assert r[..|r| - 6] == NatToString(d.year);
  }

  // ------------------------------------------------------ day-string order

  /** A year written with exactly four digits, as date inputs and ISO timestamps carry it. */
  predicate FourDigitYear(d: Date)
  {
    1000 <= d.year <= 9999
  }

  /** The leading digit of a numeral weighs a power of ten. */
  lemma {:induction false} DigitsValueFront(s: string)
    requires AllDigits(s) && |s| > 0
    ensures DigitsValue(s) == (s[0] as int - '0' as int) * Pow10(|s| - 1) + DigitsValue(s[1..])
    decreases |s|
  {
    if |s| > 1 {
      var init := s[..|s| - 1];
      var t := s[1..];
      var last := s[|s| - 1] as int - '0' as int;
      DigitsValueFront(init);
      assert init[1..] == t[..|t| - 1];
      assert t[|t| - 1] == s[|s| - 1] && init[0] == s[0];
      assert DigitsValue(t) == DigitsValue(init[1..]) * 10 + last;
      ShiftDigit(s[0] as int - '0' as int, Pow10(|s| - 2), DigitsValue(init[1..]), last);
    } else {
      assert s[..0] == "" && s[1..] == "";
    }
  }

  /** Appending a digit to `d` followed by `r`, where `d` weighs `p`. */
  lemma ShiftDigit(d: int, p: int, r: int, last: int)
    ensures (d * p + r) * 10 + last == d * (10 * p) + (r * 10 + last)
  {
  }

  /** A numeral of `n` digits denotes less than `10^n`. */
  lemma {:induction false} DigitsValueBound(s: string)
    requires AllDigits(s)
    ensures DigitsValue(s) < Pow10(|s|)
    decreases |s|
  {
    if |s| > 0 {
      DigitsValueBound(s[..|s| - 1]);
    }
  }

  /** On numerals of equal length, string order is numeric order. */
  lemma {:induction false} DigitsLess(a: string, b: string)
    requires AllDigits(a) && AllDigits(b) && |a| == |b|
    ensures StringLess(a, b) <==> DigitsValue(a) < DigitsValue(b)
    decreases |a|
  {
    if |a| > 0 {
      DigitsValueFront(a);
      DigitsValueFront(b);
      DigitsValueBound(a[1..]);
      DigitsValueBound(b[1..]);
      DigitsLess(a[1..], b[1..]);
      var x := a[0] as int - '0' as int;
      var y := b[0] as int - '0' as int;
      var p := Pow10(|a| - 1);
      if x < y {
        MulStep(x, y, p);
      } else if y < x {
        MulStep(y, x, p);
      }
    }
  }

  lemma MulStep(x: int, y: int, p: nat)
    requires x < y
    ensures x * p + p <= y * p
  {
    var k := y - x;
    assert y * p == x * p + k * p;
    assert k * p >= p by {
      assert k * p == (k - 1) * p + p;
    }
  }

  /** A year from 1000 to 9999 is written with four digits. */
  lemma FourDigits(n: int)
    requires 1000 <= n <= 9999
    ensures |IntToString(n)| == 4 && AllDigits(IntToString(n)) && DigitsValue(IntToString(n)) == n
  {
    var r := NatToString(n);
    assert Pow10(3) == 1000 && Pow10(4) == 10000;
    if |r| < 4 {
      Pow10Mono(|r|, 3);
    } else if |r| > 4 {
      Pow10Mono(4, |r| - 1);
    }
  }

  /** `y-m-d` as the concatenation the order lemmas take apart. */
  lemma DayStringSplit(d: Date)
    ensures DayString(d) == IntToString(d.year) + ("-" + (TwoDigits(d.month + 1) + ("-" + TwoDigits(d.day))))
  {
  }

  /** A common first character does not decide. */
  lemma DashLess(x: string, y: string)
    ensures StringLess("-" + x, "-" + y) <==> StringLess(x, y)
  {
    assert ("-" + x)[1..] == x && ("-" + y)[1..] == y;
  }

  /** After the year, `-MM-DD` texts compare by month, then by day. */
  lemma TailLess(m1: string, d1: string, m2: string, d2: string)
    requires |m1| == |m2|
    ensures StringLess("-" + (m1 + ("-" + d1)), "-" + (m2 + ("-" + d2))) <==>
      StringLess(m1, m2) || (m1 == m2 && StringLess(d1, d2))
  {
    DashLess(m1 + ("-" + d1), m2 + ("-" + d2));
    StringLessAppend(m1, "-" + d1, m2, "-" + d2);
    DashLess(d1, d2);
  }

  /**
   * For valid dates with four-digit years, comparing the `YYYY-MM-DD`
   * texts as strings is comparing the dates chronologically.
   */
  lemma DayStringOrder(a: Date, b: Date)
    requires a.Valid() && b.Valid() && FourDigitYear(a) && FourDigitYear(b)
    ensures StringLess(DayString(a), DayString(b)) <==> DateLess(a, b)
  {
    var ya, ma, da := IntToString(a.year), TwoDigits(a.month + 1), TwoDigits(a.day);
    var yb, mb, db := IntToString(b.year), TwoDigits(b.month + 1), TwoDigits(b.day);
    FourDigits(a.year);
    FourDigits(b.year);
    DayStringSplit(a);
    DayStringSplit(b);
    StringLessAppend(ya, "-" + (ma + ("-" + da)), yb, "-" + (mb + ("-" + db)));
    TailLess(ma, da, mb, db);
    DigitsLess(ya, yb);
    DigitsLess(ma, mb);
    DigitsLess(da, db);
    assert ya == yb <==> a.year == b.year;
    assert ma == mb <==> a.month == b.month;
  }

  /** The inclusive string comparison `a <= b` on day texts is `a` on or before `b`. */
  lemma DayStringLeq(a: Date, b: Date)
    requires a.Valid() && b.Valid() && FourDigitYear(a) && FourDigitYear(b)
    ensures !StringLess(DayString(b), DayString(a)) <==> DateLeq(a, b)
  {
    DayStringOrder(b, a);
  }

  /** `formatDate(start) + " - " + formatDate(end)`: the label both generators substitute for date placeholders. */
  function DateRangeLabel(start: Date, end: Date): (r: string)
    ensures '{' !in r && '}' !in r
    ensures start.Valid() && end.Valid() ==> |r| >= 17
  {
    var a := FormatDate(start);
    var b := FormatDate(end);
    JoinedLabel(a, b);
    a + " - " + b
  }

  lemma JoinedLabel(a: string, b: string)
    requires DateChars(a) && DateChars(b)
    ensures '{' !in a + " - " + b && '}' !in a + " - " + b
    ensures |a + " - " + b| == |a| + |b| + 3
  {
    BraceFree(a);
    BraceFree(b);
  }

  lemma BraceFree(s: string)
    requires DateChars(s)
    ensures '{' !in s && '}' !in s
  {
  }

  /** `isSameDay`: the two dates agree on year, month and day. */
  function IsSameDay(a: Date, b: Date): (r: bool)
    ensures r <==> a == b
  {
    a.year == b.year && a.month == b.month && a.day == b.day
  }

  lemma IsSameDayIsEquivalence(a: Date, b: Date, c: Date)
    ensures IsSameDay(a, a)
    ensures IsSameDay(a, b) ==> IsSameDay(b, a)
    ensures IsSameDay(a, b) && IsSameDay(b, c) ==> IsSameDay(a, c)
  {
  }

  // ------------------------------------------------------ fiscal quarter

  /** The `{month, day}` at which the fiscal year begins (month zero-based). */
  datatype FiscalStart = FiscalStart(month: nat, day: nat)

  /**
   * The fiscal year a date falls in: the calendar year of the latest
   * fiscal start on or before it.
   */
  function FiscalYearOf(d: Date, start: FiscalStart): (fy: int)
    ensures fy == d.year || fy == d.year - 1
    ensures DateLeq(Date(fy, start.month, start.day), d)
    ensures DateLess(d, Date(fy + 1, start.month, start.day))
  {
    if d.month < start.month || (d.month == start.month && d.day < start.day) then d.year - 1
    else d.year
  }

  /**
   * The quarter as `getFiscalQuarterString` computes it: whole months
   * since the fiscal start month (wrapped once by 12), divided by three.
   */
  function FiscalQuarter(d: Date, start: FiscalStart): (q: int)
    ensures start.month <= 11 && d.month <= 11 ==> 1 <= q <= 4 && q == (d.month - start.month) % 12 / 3 + 1
  {
    var months := d.month - start.month;
    var wrapped := if months < 0 then months + 12 else months;
    Floor(wrapped, 3) + 1
  }

  /** `Math.floor(a / b)` for a positive divisor. */
  function Floor(a: int, b: int): (r: int)
    requires b > 0
    ensures b * r <= a < b * r + b
  {
    a / b
  }

  /**
   * The JavaScript remainder `a % b` for `b > 0`: `a` minus `b` times the
   * quotient truncated toward zero, so it takes the sign of `a`.
   */
  function JsRem(a: int, b: int): (r: int)
    requires b > 0
    ensures a >= 0 ==> 0 <= r < b
    ensures a < 0 ==> -b < r <= 0
    ensures (a - r) % b == 0
  {
    if a >= 0 then
      NonNegativeRemainder(a, b);
      a % b
    else
      NegativeRemainder(a, b);
      -((-a) % b)
  }

  /**
   * The ECMAScript remainder is the one value with the dividend's sign,
   * below `b` in magnitude, that differs from `a` by a multiple of `b`.
   */
  lemma JsRemUnique(a: int, b: int, r: int)
    requires b > 0
    requires a >= 0 ==> 0 <= r < b
    requires a < 0 ==> -b < r <= 0
    requires (a - r) % b == 0
    ensures r == JsRem(a, b)
  {
    var s := JsRem(a, b);
    var k1, k2 := (a - r) / b, (a - s) / b;
    NoRemainderIsMultiple(a - r, b);
    NoRemainderIsMultiple(a - s, b);
    DifferenceOfMultiples(a - r, a - s, b, k1, k2);
    if s >= r {
      OnlyZeroBelow(b, k1 - k2);
    } else {
      OnlyZeroBelow(b, k2 - k1);
    }
  }

  lemma NoRemainderIsMultiple(x: int, b: int)
    requires b > 0 && x % b == 0
    ensures x == b * (x / b)
  {
  }

  lemma DifferenceOfMultiples(x: int, y: int, b: int, k1: int, k2: int)
    requires x == b * k1 && y == b * k2
    ensures x - y == b * (k1 - k2) && y - x == b * (k2 - k1)
  {
  }

  /** A multiple of `b` has no Euclidean remainder. */
  lemma MultipleHasNoRemainder(x: int, b: int, k: int)
    requires b > 0 && x == b * k
    ensures x % b == 0
  {
    var q := x / b;
    assert b * (k - q) == x % b;
    OnlyZeroBelow(b, k - q);
  }

  /** The only multiple of `b` in `[0, b)` is zero. */
  lemma OnlyZeroBelow(b: int, t: int)
    requires b > 0 && 0 <= b * t < b
    ensures t == 0
  {
    if t >= 1 {
      AtLeastOnce(b, t);
    } else if t <= -1 {
      AtLeastOnce(b, -t);
    }
  }

  lemma {:induction false} AtLeastOnce(b: int, t: int)
    requires b > 0 && t >= 1
    ensures b * t >= b
    decreases t
  {
    if t > 1 {
      AtLeastOnce(b, t - 1);
      assert b * t == b * (t - 1) + b;
    }
  }

  /** A non-negative dividend differs from its remainder by a multiple of `b`. */
  lemma NonNegativeRemainder(a: int, b: int)
    requires b > 0 && a >= 0
    ensures (a - a % b) % b == 0
  {
    MultipleHasNoRemainder(a - a % b, b, a / b);
  }

  /** A negative dividend differs from its truncated remainder by a multiple of `b`. */
  lemma NegativeRemainder(a: int, b: int)
    requires b > 0 && a < 0
    ensures (a - -((-a) % b)) % b == 0
  {
    var q := (-a) / b;
    assert -a == b * q + (-a) % b;
    MultipleHasNoRemainder(a + (-a) % b, b, -q);
  }

  /** The fiscal-year part of the label for one of the three known formats; `None` is JavaScript's `undefined`. */
  function FiscalYearText(fy: int, format: string): (r: Option<string>)
    ensures format == "FY-YY" ==> r == Some("FY-" + PadTwo(IntToString(JsRem(fy, 100))))
    ensures format == "FY-YYYY" ==> r == Some("FY-" + IntToString(fy))
    ensures format == "FYXX" ==> r == Some("FY" + PadTwo(IntToString(JsRem(fy, 100))))
    ensures r.None? <==> format !in {"FY-YY", "FY-YYYY", "FYXX"}
  {
    if format == "FY-YY" then Some("FY-" + PadTwo(IntToString(JsRem(fy, 100))))
    else if format == "FY-YYYY" then Some("FY-" + IntToString(fy))
    else if format == "FYXX" then Some("FY" + PadTwo(IntToString(JsRem(fy, 100))))
    else None
  }

  /** For a non-negative fiscal year the short formats carry exactly the last two digits. */
  lemma ShortFiscalYearDigits(fy: int)
    requires fy >= 0
    ensures var t := FiscalYearText(fy, "FY-YY").value;
      |t| == 5 && t[..3] == "FY-" && AllDigits(t[3..]) && DigitsValue(t[3..]) == fy % 100
    ensures var t := FiscalYearText(fy, "FYXX").value;
      |t| == 4 && t[..2] == "FY" && AllDigits(t[2..]) && DigitsValue(t[2..]) == fy % 100
  {
    var two := PadTwo(IntToString(JsRem(fy, 100)));
    assert two == TwoDigits(fy % 100);
    assert ("FY-" + two)[3..] == two;
    assert ("FY" + two)[2..] == two;
  }

  /**
   * `getFiscalQuarterString(date, fiscalYearStart, format)`; `format`
   * `None` stands for an omitted argument, which defaults to `FY-YY`.
   */
  function FiscalQuarterString(d: Date, start: FiscalStart, format: Option<string>): (r: string)
    ensures var tail := "-Q" + IntToString(FiscalQuarter(d, start));
      |tail| <= |r| && r[|r| - |tail|..] == tail
    ensures var f := if format.None? then "FY-YY" else format.value;
      var yt := FiscalYearText(FiscalYearOf(d, start), f);
      r[..|r| - |"-Q" + IntToString(FiscalQuarter(d, start))|] == if yt.Some? then yt.value else "undefined"
  {
    var f := if format.None? then "FY-YY" else format.value;
    var yt := FiscalYearText(FiscalYearOf(d, start), f);
    var head := if yt.Some? then yt.value else "undefined";
    var tail := "-Q" + IntToString(FiscalQuarter(d, start));
    var r := head + tail;
    assert r[|r| - |tail|..] == tail && r[..|r| - |tail|] == head;
    r
  }

  /** The default fiscal start (January 1st) makes the fiscal year the calendar year and the quarter the calendar quarter. */
  lemma DefaultFiscalStartIsCalendar(d: Date)
    requires d.Valid()
    ensures FiscalYearOf(d, FiscalStart(0, 1)) == d.year
    ensures FiscalQuarter(d, FiscalStart(0, 1)) == d.month / 3 + 1
  {
  }

  // A fiscal start day later than the 1st exposes that the quarter ignores
  // the day while the fiscal year does not: the days of the start month
  // before the start day belong to the previous fiscal year but are given
  // its first quarter, so the reported period steps backwards.

  /** The period `4 * fiscal year + (quarter - 1)` the label names, as written. */
  function PeriodAsWritten(d: Date, start: FiscalStart): int
  {
    4 * FiscalYearOf(d, start) + FiscalQuarter(d, start) - 1
  }

  lemma AsWrittenPeriodGoesBackwards()
    ensures var start := FiscalStart(3, 15);
      var march20 := Date(2024, 2, 20);
      var april10 := Date(2024, 3, 10);
      DateLess(march20, april10)
      && FiscalQuarterString(march20, start, None) == "FY-23-Q4"
      && FiscalQuarterString(april10, start, None) == "FY-23-Q1"
      && PeriodAsWritten(march20, start) > PeriodAsWritten(april10, start)
  {
    var start := FiscalStart(3, 15);
    assert FiscalYearOf(Date(2024, 2, 20), start) == 2023;
    assert FiscalYearOf(Date(2024, 3, 10), start) == 2023;
    assert FiscalQuarter(Date(2024, 2, 20), start) == 4;
    assert FiscalQuarter(Date(2024, 3, 10), start) == 1;
    DefaultLabel(Date(2024, 2, 20), start, 2023, 4);
    DefaultLabel(Date(2024, 3, 10), start, 2023, 1);
    ShortYear2023();
  }

  /** The label with the default format, from its fiscal year and quarter. */
  lemma DefaultLabel(d: Date, start: FiscalStart, fy: int, q: int)
    requires FiscalYearOf(d, start) == fy && FiscalQuarter(d, start) == q
    ensures FiscalQuarterString(d, start, None) == "FY-" + PadTwo(IntToString(JsRem(fy, 100))) + "-Q" + IntToString(q)
  {
  }

  lemma ShortYear2023()
    ensures PadTwo(IntToString(JsRem(2023, 100))) == "23"
    ensures IntToString(4) == "4" && IntToString(1) == "1"
  {
    assert JsRem(2023, 100) == 23;
    assert NatToString(23) == NatToString(2) + [DigitChar(3)];
  }

  /** Whole fiscal months elapsed since month 0 of fiscal year 0, counting a month only once its start day is reached. */
  function FiscalMonthsElapsed(d: Date, start: FiscalStart): int
  {
    12 * d.year + d.month - start.month - (if d.day < start.day then 1 else 0)
  }

  /** The quarter counted from the same day-aware month offset the fiscal year uses. */
  function FiscalQuarterCorrected(d: Date, start: FiscalStart): (q: int)
    requires start.month <= 11 && d.month <= 11
    ensures 1 <= q <= 4
    ensures q == FiscalMonthsElapsed(d, start) % 12 / 3 + 1
  {
    var months := d.month - start.month - (if d.day < start.day then 1 else 0);
    var wrapped := if months < 0 then months + 12 else months;
    assert FiscalMonthsElapsed(d, start) == 12 * d.year + months;
    ModShift(months, d.year);
    Floor(wrapped, 3) + 1
  }

  lemma ModShift(k: int, y: int)
    requires -12 <= k < 12
    ensures (12 * y + k) % 12 == (if k < 0 then k + 12 else k)
    ensures (12 * y + k) / 12 == (if k < 0 then y - 1 else y)
  {
    var w := if k < 0 then k + 12 else k;
    var yy := if k < 0 then y - 1 else y;
    assert 12 * y + k == 12 * yy + w;
  }

  function PeriodCorrected(d: Date, start: FiscalStart): int
    requires start.month <= 11 && d.month <= 11
  {
    4 * FiscalYearOf(d, start) + FiscalQuarterCorrected(d, start) - 1
  }

  /** With the corrected quarter the period is the elapsed fiscal months divided by three. */
  lemma CorrectedPeriodIsElapsedQuarters(d: Date, start: FiscalStart)
    requires start.month <= 11 && d.month <= 11
    ensures PeriodCorrected(d, start) == Floor(FiscalMonthsElapsed(d, start), 3)
  {
    var m := FiscalMonthsElapsed(d, start);
    var k := d.month - start.month - (if d.day < start.day then 1 else 0);
    ModShift(k, d.year);
    var fy := FiscalYearOf(d, start);
    assert fy == m / 12;
    var w := m % 12;
    assert m == 12 * fy + w;
    var q3 := w / 3;
    assert w == 3 * q3 + w % 3;
    assert m == 3 * (4 * fy + q3) + w % 3;
    DivThreeUnique(m, 4 * fy + q3, w % 3);
  }

  lemma DivThreeUnique(a: int, q: int, r: int)
    requires 0 <= r < 3 && a == 3 * q + r
    ensures a / 3 == q
  {
  }

  /** The corrected labels never step backwards in time. */
  lemma CorrectedPeriodIsMonotone(a: Date, b: Date, start: FiscalStart)
    requires a.Valid() && b.Valid() && start.month <= 11
    requires DateLeq(a, b)
    ensures PeriodCorrected(a, start) <= PeriodCorrected(b, start)
  {
    CorrectedPeriodIsElapsedQuarters(a, start);
    CorrectedPeriodIsElapsedQuarters(b, start);
    var ma := FiscalMonthsElapsed(a, start);
    var mb := FiscalMonthsElapsed(b, start);
    assert ma <= mb;
    FloorThreeMono(ma, mb);
  }

  lemma FloorThreeMono(x: int, y: int)
    requires x <= y
    ensures Floor(x, 3) <= Floor(y, 3)
  {
  }
}

=== FILE: categorizer.dfy ===
/**
 * The keyword categoriser of `scripts/entries.js`: an entry's category is
 * the first category, in a fixed priority order, one of whose keywords
 * occurs in the lower-cased content; `other` when none does.
 */
module Categorizer {
  import opened Text

  /** The keyword table, in the order `Object.entries` visits it. */
  const KeywordTable: seq<(string, seq<string>)> := [
    ("achievement", ["complet", "finish", "deliver", "ship", "done", "achiev", "success", "accomplish", "resolv", "fix"]),
    ("blocker", ["block", "issue", "problem", "delay", "stuck", "fail", "error", "bug", "prevent", "cannot", "broken"]),
    ("progress", ["progress", "work", "develop", "implement", "build", "creat", "draft", "start", "continu", "updat"]),
    ("meeting", ["meet", "call", "discuss", "talk", "sync", "review", "present", "demo", "interview", "conference"])
  ]

  /** The category of content no keyword matches. */
  const Fallback := "other"

  /** Every label the categoriser can produce. */
  predicate IsCategory(c: string)
  {
    c == "achievement" || c == "blocker" || c == "progress" || c == "meeting" || c == "other"
  }

  /** `words.some(word => text.includes(word))`. */
  predicate Hits(text: string, words: seq<string>)
  {
    exists k :: 0 <= k < |words| && Contains(text, words[k])
  }

  /** The category at row `k` of the table matches the lower-cased text. */
  predicate RowHits(text: string, k: int)
    requires 0 <= k < |KeywordTable|
  {
    Hits(text, KeywordTable[k].1)
  }

  /** The first table row at or after `from` whose keywords hit `text`; `|KeywordTable|` when none does. */
  function FirstRow(text: string, from: nat): (k: nat)
    requires from <= |KeywordTable|
    decreases |KeywordTable| - from
    ensures from <= k <= |KeywordTable|
    ensures k < |KeywordTable| ==> RowHits(text, k)
    ensures forall j :: from <= j < k ==> !RowHits(text, j)
  {
    if from == |KeywordTable| then from
    else if Hits(text, KeywordTable[from].1) then from
    else FirstRow(text, from + 1)
  }

  /**
   * The category `createNewEntry` and `updateExistingEntry` assign to
   * `content`: the first row that hits wins, not the row with most hits.
   */
  function Categorize(content: string): (r: string)
    ensures IsCategory(r)
    ensures r == Fallback <==> forall k :: 0 <= k < |KeywordTable| ==> !RowHits(Lower(content), k)
    ensures forall k :: 0 <= k < |KeywordTable| && r == KeywordTable[k].0 ==>
      RowHits(Lower(content), k) && forall j :: 0 <= j < k ==> !RowHits(Lower(content), j)
  {
    var k := FirstRow(Lower(content), 0);
    if k < |KeywordTable| then KeywordTable[k].0 else Fallback
  }

  /** A keyword of an earlier row beats any keyword of a later row. */
  lemma PriorityWins(content: string, k: nat, word: string)
    requires k < |KeywordTable| && word in KeywordTable[k].1
    requires Contains(Lower(content), word)
    ensures exists j :: 0 <= j <= k && Categorize(content) == KeywordTable[j].0
  {
    var i :| 0 <= i < |KeywordTable[k].1| && KeywordTable[k].1[i] == word;
    assert RowHits(Lower(content), k);
    var j := FirstRow(Lower(content), 0);
    assert j <= k;
  }

  /** "Fixed the login bug" holds the achievement keyword `fix` and the blocker keyword `bug`: achievement wins. */
  lemma FixedTheLoginBug()
    ensures Contains(Lower("Fixed the login bug"), "fix")
    ensures Contains(Lower("Fixed the login bug"), "bug")
    ensures Categorize("Fixed the login bug") == "achievement"
  {
    var t := Lower("Fixed the login bug");
    assert t[0..3] == "fix";
    assert t[16..19] == "bug";
    assert OccursAt(t, "fix", 0);
    assert OccursAt(t, "bug", 16);
    assert KeywordTable[0].1[9] == "fix";
    assert RowHits(t, 0);
  }
}

=== FILE: entries.dfy ===
/**
 * Work-log entries and the list operations of `scripts/entries.js`, with
 * the entry store modelled as an in-memory sequence in storage order.
 */
module Entries {
  import opened Wrappers
  import opened Seqs
  import opened Text
  import opened Calendar
  import opened Categorizer

  /**
   * The three readings the code takes from a stored ISO timestamp:
   * `new Date(t)` as milliseconds (sorting), the UTC calendar day
   * `toISOString().split('T')[0]` (date-range filters) and the local
   * calendar date (`isSameDay`).
   */
  datatype Stamp = Stamp(millis: int, utcDay: string, localDay: Date)

  /** A logged entry; `updated` is set by an edit only. */
  datatype Entry = Entry(id: string, content: string, category: string, timestamp: Stamp, updated: Option<string>)

  /** Why an entry operation was refused (the `alert` the handler shows). */
  datatype EntryError = EntryNotFound

  /** JavaScript truthiness of an optional string attribute: present and non-empty. */
  predicate Truthy(s: Option<string>)
  {
    s.Some? && s.value != ""
  }

  // ------------------------------------------------------------- create

  /** The entry `createNewEntry` builds; `id` and `now` stand for `Date.now()` and the current time. */
  function CreateEntry(id: string, content: string, now: Stamp): (e: Entry)
    ensures e.id == id && e.content == content && e.timestamp == now && e.updated.None?
    ensures IsCategory(e.category)
    ensures e.category == Categorize(content)
  {
    Entry(id, content, Categorize(content), now, None)
  }

  /**
   * `saveEntry`: the new entry goes last and the earlier entries keep their
   * order, so a fresh id is found at the end and an existing one where it was.
   */
  function SaveEntry(entries: seq<Entry>, e: Entry): (r: seq<Entry>)
    ensures |r| == |entries| + 1 && r[..|entries|] == entries && r[|entries|] == e
    ensures FindIndex(r, e.id) == if HasId(entries, e.id) then FindIndex(entries, e.id) else Some(|entries|)
  {
    FindIndexAppend(entries, e);
    entries + [e]
  }

  lemma {:induction false} FindIndexAppend(entries: seq<Entry>, e: Entry)
    ensures FindIndex(entries + [e], e.id) == if HasId(entries, e.id) then FindIndex(entries, e.id) else Some(|entries|)
    decreases |entries|
  {
    if |entries| > 0 {
      assert (entries + [e])[1..] == entries[1..] + [e];
      FindIndexAppend(entries[1..], e);
      if entries[0].id != e.id {
        assert HasId(entries, e.id) ==> HasId(entries[1..], e.id) by {
          if HasId(entries, e.id) {
            var k :| 0 <= k < |entries| && entries[k].id == e.id;
            assert entries[1..][k - 1].id == e.id;
          }
        }
        assert HasId(entries[1..], e.id) ==> HasId(entries, e.id) by {
          if HasId(entries[1..], e.id) {
            var k :| 0 <= k < |entries[1..]| && entries[1..][k].id == e.id;
            assert entries[k + 1].id == e.id;
          }
        }
      } else {
        assert HasId(entries, e.id) by { assert entries[0].id == e.id; }
      }
    } else {
      assert !HasId(entries, e.id);
      assert (entries + [e])[0] == e;
    }
  }

  // -------------------------------------------------------------- find

  ghost predicate HasId(entries: seq<Entry>, id: string)
  {
    exists k :: 0 <= k < |entries| && entries[k].id == id
  }

  /** `entries.findIndex(e => e.id === id)`. */
  function FindIndex(entries: seq<Entry>, id: string): (r: Option<nat>)
    ensures r.Some? ==> r.value < |entries| && entries[r.value].id == id
    ensures r.Some? ==> forall k :: 0 <= k < r.value ==> entries[k].id != id
    ensures r.None? <==> !HasId(entries, id)
  {
    if |entries| == 0 then None
    else if entries[0].id == id then Some(0)
    else match FindIndex(entries[1..], id)
      case None => None
      case Some(k) => Some(k + 1)
  }

  // ------------------------------------------------------------- update

  /**
   * `updateExistingEntry`: the first entry with `id` gets the new content,
   * the update time and the category recomputed from the new content.
   */
  function UpdateEntry(entries: seq<Entry>, id: string, content: string, now: string): (r: Result<seq<Entry>, EntryError>)
    ensures r.Err? <==> !HasId(entries, id)
    ensures r.Ok? ==> |r.value| == |entries|
    ensures r.Ok? ==> exists k :: (0 <= k < |entries| && entries[k].id == id
      && (forall j :: 0 <= j < k ==> entries[j].id != id)
      && r.value[k] == entries[k].(content := content, updated := Some(now), category := Categorize(content))
      && forall j :: 0 <= j < |entries| && j != k ==> r.value[j] == entries[j])
  {
    match FindIndex(entries, id)
    case None => Err(EntryNotFound)
    case Some(k) =>
      var e := entries[k];
      Ok(entries[k := e.(content := content, updated := Some(now), category := Categorize(content))])
  }

  /** Editing recomputes the category with the same table and rule a fresh entry gets. */
  lemma UpdateCategorisesLikeCreate(entries: seq<Entry>, id: string, content: string, now: string, k: nat, freshId: string, stamp: Stamp)
    requires UpdateEntry(entries, id, content, now).Ok?
    requires k < |entries| && entries[k].id == id && forall j :: 0 <= j < k ==> entries[j].id != id
    ensures UpdateEntry(entries, id, content, now).value[k].category == CreateEntry(freshId, content, stamp).category
    ensures UpdateEntry(entries, id, content, now).value[k].id == id
  {
    var f := FindIndex(entries, id);
    assert f == Some(k);
  }

  /** The entries of one category. */
  function CategoryIs(c: string): Entry -> bool
  {
    (e: Entry) => e.category == c
  }

  /** `entryDate >= startDate && entryDate <= endDate` on `YYYY-MM-DD` strings. */
  predicate InRange(e: Entry, startDate: string, endDate: string)
    ensures startDate == endDate ==> (InRange(e, startDate, endDate) <==> e.timestamp.utcDay == startDate)
  {
    StringLessTotal(e.timestamp.utcDay, startDate);
    !StringLess(e.timestamp.utcDay, startDate) && !StringLess(endDate, e.timestamp.utcDay)
  }

  function InRangeOf(startDate: string, endDate: string): Entry -> bool
  {
    (e: Entry) => InRange(e, startDate, endDate)
  }

  /**
   * On `YYYY-MM-DD` texts with four-digit years the inclusive string
   * comparison selects exactly the entries logged from `first` to `last`,
   * chronologically.
   */
  lemma InRangeIsChronological(e: Entry, day: Date, first: Date, last: Date)
    requires day.Valid() && first.Valid() && last.Valid()
    requires FourDigitYear(day) && FourDigitYear(first) && FourDigitYear(last)
    requires e.timestamp.utcDay == DayString(day)
    ensures InRange(e, DayString(first), DayString(last)) <==> DateLeq(first, day) && DateLeq(day, last)
  {
    DayStringLeq(first, day);
    DayStringLeq(day, last);
  }

  /** Appending one entry adds it to its category's filter only. */
  lemma FilterPush(s: seq<Entry>, e: Entry, c: string)
    ensures Filter(s + [e], CategoryIs(c)) == Filter(s, CategoryIs(c)) + (if e.category == c then [e] else [])
  {
    FilterAppend(s, [e], CategoryIs(c));
    assert [e][1..] == [];
  }

  // ------------------------------------------------------------- delete

  function IdIsNot(id: string): Entry -> bool
  {
    (e: Entry) => e.id != id
  }

  /** `entries.filter(e => e.id !== id)`. */
  function DeleteEntry(entries: seq<Entry>, id: string): (r: seq<Entry>)
    ensures forall k :: 0 <= k < |r| ==> r[k].id != id
    ensures forall e :: e in entries && e.id != id ==> e in r
    ensures forall e :: e in r ==> e in entries
    ensures forall e :: e in entries ==> multiset(r)[e] == if e.id != id then multiset(entries)[e] else 0
    ensures Subsequence(r, entries)
    ensures !HasId(entries, id) ==> r == entries
  {
    FilterIsSubsequence(entries, IdIsNot(id));
    FilterCounts(entries, IdIsNot(id));
    Filter(entries, IdIsNot(id))
  }

  /** Deleting an entry just saved under a fresh id gives back the earlier list. */
  lemma SaveThenDelete(entries: seq<Entry>, e: Entry)
    requires !HasId(entries, e.id)
    ensures DeleteEntry(SaveEntry(entries, e), e.id) == entries
  {
    FilterAppend(entries, [e], IdIsNot(e.id));
    assert Filter([e], IdIsNot(e.id)) == [];
  }

  // ------------------------------------------------------------- submit

  /**
   * The add-entry button: blank content is ignored; with an entry being
   * edited (`data-id` set) the entry is updated, otherwise a new entry is
   * created and saved.
   */
  function SubmitEntry(entries: seq<Entry>, editing: Option<string>, content: string, freshId: string, now: Stamp, nowText: string): (r: Result<seq<Entry>, EntryError>)
    ensures Trim(content) == "" ==> r == Ok(entries)
    ensures Trim(content) != "" && !Truthy(editing) ==> r == Ok(SaveEntry(entries, CreateEntry(freshId, content, now)))
    ensures Trim(content) != "" && Truthy(editing) ==> r == UpdateEntry(entries, editing.value, content, nowText)
  {
    if Trim(content) == "" then Ok(entries)
    else if Truthy(editing) then UpdateEntry(entries, editing.value, content, nowText)
    else Ok(SaveEntry(entries, CreateEntry(freshId, content, now)))
  }

  // ------------------------------------------------------- today's list

  /** Newest first: no entry is older than the one after it. */
  ghost predicate NewestFirst(s: seq<Entry>)
  {
    forall i, j :: 0 <= i < j < |s| ==> s[i].timestamp.millis >= s[j].timestamp.millis
  }

  function MillisIs(m: int): Entry -> bool
  {
    (e: Entry) => e.timestamp.millis == m
  }

  /** The entries stamped with exactly `m`, in order. */
  function WithMillis(s: seq<Entry>, m: int): seq<Entry>
  {
    Filter(s, MillisIs(m))
  }

  /** Filtering by timestamp commutes with putting one entry in front. */
  lemma WithMillisCons(x: Entry, s: seq<Entry>, m: int)
    ensures WithMillis([x] + s, m) == (if x.timestamp.millis == m then [x] else []) + WithMillis(s, m)
  {
    assert ([x] + s)[1..] == s;
  }

  /** Places `e` in front of the first entry that is not newer than it. */
  function InsertNewest(e: Entry, sorted: seq<Entry>): (r: seq<Entry>)
    requires NewestFirst(sorted)
    ensures NewestFirst(r)
    ensures multiset(r) == multiset(sorted) + multiset{e}
    ensures |r| == |sorted| + 1
    ensures r[0] == e || (|sorted| > 0 && r[0] == sorted[0])
  {
    if |sorted| == 0 then [e]
    else if sorted[0].timestamp.millis <= e.timestamp.millis then [e] + sorted
    else
      var rest := InsertNewest(e, sorted[1..]);
      assert sorted == [sorted[0]] + sorted[1..];
      HeadBoundsRest(e, sorted, rest);
      NewestFirstCons(sorted[0], rest);
      [sorted[0]] + rest
  }

  /** After inserting an entry newer than none of them, the old head still bounds everything behind it. */
  lemma HeadBoundsRest(e: Entry, sorted: seq<Entry>, rest: seq<Entry>)
    requires NewestFirst(sorted) && |sorted| > 0 && sorted[0].timestamp.millis > e.timestamp.millis
    requires multiset(rest) == multiset(sorted[1..]) + multiset{e}
    ensures forall j :: 0 <= j < |rest| ==> rest[j].timestamp.millis <= sorted[0].timestamp.millis
  {
    forall j | 0 <= j < |rest| ensures rest[j].timestamp.millis <= sorted[0].timestamp.millis {
      assert rest[j] in multiset(rest);
      if rest[j] != e {
        assert rest[j] in multiset(sorted[1..]);
        var i :| 0 <= i < |sorted[1..]| && sorted[1..][i] == rest[j];
        assert sorted[i + 1] == rest[j];
      }
    }
  }

  lemma NewestFirstCons(x: Entry, rest: seq<Entry>)
    requires NewestFirst(rest) && forall j :: 0 <= j < |rest| ==> rest[j].timestamp.millis <= x.timestamp.millis
    ensures NewestFirst([x] + rest)
  {
    var r := [x] + rest;
    assert forall j :: 1 <= j < |r| ==> r[j] == rest[j - 1];
  }

  /** Inserting `e` puts it ahead of every entry stamped with the same time. */
  lemma {:induction false} InsertNewestStable(e: Entry, sorted: seq<Entry>, m: int)
    requires NewestFirst(sorted)
    ensures WithMillis(InsertNewest(e, sorted), m) == if e.timestamp.millis == m then [e] + WithMillis(sorted, m) else WithMillis(sorted, m)
  {
    if |sorted| == 0 {
      WithMillisCons(e, [], m);
    } else if sorted[0].timestamp.millis <= e.timestamp.millis {
      WithMillisCons(e, sorted, m);
    } else {
      var rest := InsertNewest(e, sorted[1..]);
      InsertNewestStable(e, sorted[1..], m);
      WithMillisCons(sorted[0], rest, m);
      WithMillisCons(sorted[0], sorted[1..], m);
      assert sorted == [sorted[0]] + sorted[1..];
    }
  }

  /**
   * `todayEntries.sort((a, b) => new Date(b.timestamp) - new Date(a.timestamp))`,
   * newest first, as an insertion sort.
   */
  function SortNewestFirst(s: seq<Entry>): (r: seq<Entry>)
    ensures NewestFirst(r)
    ensures multiset(r) == multiset(s)
  {
    if |s| == 0 then []
    else
      assert s == [s[0]] + s[1..];
      InsertNewest(s[0], SortNewestFirst(s[1..]))
  }

  /**
   * The sort is stable, as `Array.prototype.sort` is required to be:
   * entries with equal timestamps keep their storage order.
   */
  lemma {:induction false} SortIsStable(s: seq<Entry>, m: int)
    ensures WithMillis(SortNewestFirst(s), m) == WithMillis(s, m)
  {
    if |s| > 0 {
      var tail := SortNewestFirst(s[1..]);
      assert SortNewestFirst(s) == InsertNewest(s[0], tail);
      SortIsStable(s[1..], m);
      InsertNewestStable(s[0], tail, m);
      WithMillisCons(s[0], s[1..], m);
      assert s == [s[0]] + s[1..];
    }
  }

  function OnDay(today: Date): Entry -> bool
  {
    (e: Entry) => IsSameDay(e.timestamp.localDay, today)
  }

  /** The entries `displayEntries` shows: those logged on `today` (local date), newest first. */
  function TodayEntries(entries: seq<Entry>, today: Date): (r: seq<Entry>)
    ensures NewestFirst(r)
    ensures forall k :: 0 <= k < |r| ==> r[k].timestamp.localDay == today
    ensures forall e :: e in entries && e.timestamp.localDay == today ==> e in r
    ensures multiset(r) == multiset(Filter(entries, OnDay(today)))
  {
    var f := Filter(entries, OnDay(today));
    var r := SortNewestFirst(f);
    SameMembers(r, f);
    FilteredOnDay(entries, today);
    r
  }

  /** Every entry the day filter keeps was logged on that day. */
  lemma FilteredOnDay(entries: seq<Entry>, today: Date)
    ensures forall e :: e in Filter(entries, OnDay(today)) ==> e.timestamp.localDay == today
  {
    var f := Filter(entries, OnDay(today));
    forall e | e in f
      ensures e.timestamp.localDay == today
    {
      var i :| 0 <= i < |f| && f[i] == e;
      assert OnDay(today)(f[i]);
    }
  }

  /** Sequences with equal multisets have the same members. */
  lemma SameMembers(a: seq<Entry>, b: seq<Entry>)
    requires multiset(a) == multiset(b)
    ensures forall x :: x in a <==> x in b
  {
    forall x
      ensures x in a <==> x in b
    {
      assert x in a <==> x in multiset(a);
      assert x in b <==> x in multiset(b);
    }
  }

  // ---------------------------------------------------------- markup

  /** One `<li>` per entry, in order, with `<div>` and `</div>` removed from the content. */
  function ListItems(entries: seq<Entry>): (r: string)
    ensures |r| >= 9 * |entries|
    ensures r == "" <==> |entries| == 0
    ensures |entries| > 0 ==> r[..4] == "<li>" && r[|r| - 5..] == "</li>"
  {
    if |entries| == 0 then ""
    else "<li>" + StripDivTags(entries[0].content) + "</li>" + ListItems(entries[1..])
  }

  /** The list markup of two runs of entries is the concatenation of their list markups. */
  lemma {:induction false} ListItemsAppend(a: seq<Entry>, b: seq<Entry>)
    ensures ListItems(a + b) == ListItems(a) + ListItems(b)
  {
    if |a| == 0 {
      assert a + b == b;
    } else {
      assert (a + b)[1..] == a[1..] + b;
      ListItemsAppend(a[1..], b);
    }
  }

  /** A single entry is one `<li>` holding its content with the `<div>` tags removed. */
  lemma ListItemsSingle(e: Entry)
    ensures ListItems([e]) == "<li>" + StripDivTags(e.content) + "</li>"
  {
    assert [e][1..] == [];
  }

  /** A single entry without `<div>` tags is listed verbatim. */
  lemma ListItemsVerbatim(e: Entry)
    requires forall i :: !DivTagAt(e.content, i)
    ensures ListItems([e]) == "<li>" + e.content + "</li>"
  {
    ListItemsSingle(e);
  }
}

=== FILE: placeholders.dfy ===
/**
 * The date placeholders of both status generators. `scripts/status.js`
 * replaces `{date_range}` (any case, `_` or one whitespace character
 * between the words), `{date}` and `{period}` (any case); the template
 * generator of `scripts/templates.js` replaces only the exact, lower-case
 * `{date_range}`. Each is a global regular-expression replace: a single
 * left-to-right scan replacing every non-overlapping occurrence.
 */
module Placeholders {
  import opened Text

  datatype Placeholder = DateRangeAnyCase | DateAnyCase | PeriodAnyCase | DateRangeExact

  /** Length of every text the placeholder pattern matches. */
  function TokenLength(p: Placeholder): (n: nat)
    ensures n >= 6
  {
    match p
    case DateRangeAnyCase => 12
    case DateAnyCase => 6
    case PeriodAnyCase => 8
    case DateRangeExact => 12
  }

  /** `t`, of exactly the token length, is a text the placeholder's pattern matches. */
  predicate TokenShape(p: Placeholder, t: string)
    requires |t| == TokenLength(p)
  {
    match p
    case DateRangeAnyCase =>
      t[0] == '{' && Lower(t[1..5]) == "date" && (t[5] == '_' || IsSpace(t[5]))
      && Lower(t[6..11]) == "range" && t[11] == '}'
    case DateAnyCase => t[0] == '{' && Lower(t[1..5]) == "date" && t[5] == '}'
    case PeriodAnyCase => t[0] == '{' && Lower(t[1..7]) == "period" && t[7] == '}'
    case DateRangeExact => t == "{date_range}"
  }

  /** The placeholder's pattern matches at the start of `s`. */
  predicate TokenAt(p: Placeholder, s: string)
  {
    |s| >= TokenLength(p) && TokenShape(p, s[..TokenLength(p)])
  }

  lemma TokenBraces(p: Placeholder, s: string)
    requires TokenAt(p, s)
    ensures s[0] == '{' && s[TokenLength(p) - 1] == '}'
  {
    var t := s[..TokenLength(p)];
    assert t[0] == s[0] && t[TokenLength(p) - 1] == s[TokenLength(p) - 1];
  }

  /** The pattern matches nowhere in `s`. */
  ghost predicate NoToken(p: Placeholder, s: string)
  {
    forall i :: 0 <= i <= |s| ==> !TokenAt(p, s[i..])
  }

  /** `s.replace(pattern, rep)` with the global flag and a replacement taken literally. */
  function ReplaceToken(p: Placeholder, s: string, rep: string): (r: string)
    decreases |s|
    ensures NoToken(p, s) ==> r == s
  {
    if |s| == 0 then ""
    else if TokenAt(p, s) then
      assert s[0..] == s;
      rep + ReplaceToken(p, s[TokenLength(p)..], rep)
    else
      assert NoToken(p, s) ==> NoToken(p, s[1..]) by {
        forall i | 0 <= i <= |s[1..]| ensures s[1..][i..] == s[i + 1..] { }
      }
      assert NoToken(p, s) ==> s == [s[0]] + s[1..];
      [s[0]] + ReplaceToken(p, s[1..], rep)
  }

  /**
   * While the result still ends up with a `}` within the first `m`
   * characters' span, none of those characters came from a replacement
   * (which has no `}`): they are the original characters.
   */
  lemma {:induction false} PrefixKept(p: Placeholder, u: string, rep: string, m: nat)
    requires 1 <= m <= |rep| && '}' !in rep
    requires |ReplaceToken(p, u, rep)| >= m && ReplaceToken(p, u, rep)[m - 1] == '}'
    ensures |u| >= m && ReplaceToken(p, u, rep)[..m] == u[..m]
    decreases |u|
  {
    if |u| == 0 {
    } else if TokenAt(p, u) {
      TokenStepStartsWithRep(p, u, rep, m);
      assert false;
    } else {
      CharStep(p, u, rep);
      var tail := ReplaceToken(p, u[1..], rep);
      if m > 1 {
        PrefixKept(p, u[1..], rep, m - 1);
        ConsPrefix(u[0], tail, u[1..], m);
      }
      assert u == [u[0]] + u[1..];
    }
  }

  /** Where the pattern matches, the result starts with the replacement. */
  lemma TokenStepStartsWithRep(p: Placeholder, u: string, rep: string, m: nat)
    requires TokenAt(p, u) && 1 <= m <= |rep| && '}' !in rep
    ensures ReplaceToken(p, u, rep)[m - 1] != '}'
  {
    assert ReplaceToken(p, u, rep)[m - 1] == rep[m - 1];
  }

  /** Where the pattern does not match, the first character is copied. */
  lemma CharStep(p: Placeholder, u: string, rep: string)
    requires |u| > 0 && !TokenAt(p, u)
    ensures ReplaceToken(p, u, rep) == [u[0]] + ReplaceToken(p, u[1..], rep)
  {
  }

  /**
   * Replacing placeholder `p` by a text without braces that is at least
   * one shorter than `q`'s token leaves no `q` token behind, provided there
   * was none to begin with or `q` is `p` itself.
   */
  lemma {:induction false} NoTokenAfterReplace(p: Placeholder, q: Placeholder, s: string, rep: string)
    requires '{' !in rep && '}' !in rep && |rep| >= TokenLength(q) - 1
    requires p == q || NoToken(q, s)
    ensures NoToken(q, ReplaceToken(p, s, rep))
    decreases |s|
  {
    if |s| == 0 {
      assert forall i :: 0 <= i <= 0 ==> ""[i..] == "";
    } else if TokenAt(p, s) {
      var rest := s[TokenLength(p)..];
      assert p != q ==> NoToken(q, rest) by {
        forall i | 0 <= i <= |rest| ensures rest[i..] == s[TokenLength(p) + i..] { }
      }
      NoTokenAfterReplace(p, q, rest, rep);
      NoTokenBehindReplacement(q, rep, ReplaceToken(p, rest, rep));
    } else {
      var u := s[1..];
      assert p != q ==> NoToken(q, u) by {
        forall i | 0 <= i <= |u| ensures u[i..] == s[i + 1..] { }
      }
      NoTokenAfterReplace(p, q, u, rep);
      NoTokenBehindKeptChar(p, q, s, rep);
    }
  }

  /** A brace-free replacement put in front of token-free text starts no token. */
  lemma NoTokenBehindReplacement(q: Placeholder, rep: string, rr: string)
    requires '{' !in rep && NoToken(q, rr)
    ensures NoToken(q, rep + rr)
  {
    var r := rep + rr;
    forall i | 0 <= i <= |r| ensures !TokenAt(q, r[i..]) {
      if i < |rep| {
        if TokenAt(q, r[i..]) {
          TokenBraces(q, r[i..]);
        }
      } else {
        assert r[i..] == rr[i - |rep|..];
      }
    }
  }

  /** The character the scan keeps cannot start a `q` token in the result. */
  lemma NoTokenBehindKeptChar(p: Placeholder, q: Placeholder, s: string, rep: string)
    requires |s| > 0 && !TokenAt(p, s)
    requires '}' !in rep && |rep| >= TokenLength(q) - 1
    requires p == q || NoToken(q, s)
    requires NoToken(q, ReplaceToken(p, s[1..], rep))
    ensures NoToken(q, ReplaceToken(p, s, rep))
  {
    assert s[0..] == s;
    KeptCharStartsNoToken(p, q, s, rep);
    NoTokenCons(q, s[0], ReplaceToken(p, s[1..], rep));
  }

  lemma NoTokenCons(q: Placeholder, c: char, t: string)
    requires !TokenAt(q, [c] + t) && NoToken(q, t)
    ensures NoToken(q, [c] + t)
  {
    var r := [c] + t;
    forall i | 0 <= i <= |r| ensures !TokenAt(q, r[i..]) {
      if i == 0 {
        assert r[0..] == r;
      } else {
        assert r[i..] == t[i - 1..];
      }
    }
  }

  lemma KeptCharStartsNoToken(p: Placeholder, q: Placeholder, s: string, rep: string)
    requires |s| > 0 && !TokenAt(p, s)
    requires '}' !in rep && |rep| >= TokenLength(q) - 1
    requires p == q || !TokenAt(q, s)
    ensures !TokenAt(q, ReplaceToken(p, s, rep))
  {
    var u := s[1..];
    var ru := ReplaceToken(p, u, rep);
    var r := ReplaceToken(p, s, rep);
    var n := TokenLength(q);
    assert r == [s[0]] + ru;
    if |r| >= n && r[n - 1] == '}' {
      PrefixKept(p, u, rep, n - 1);
      ConsPrefix(s[0], ru, u, n);
      assert s == [s[0]] + u;
      TokenPrefixOnly(q, r, s);
    } else if TokenAt(q, r) {
      TokenBraces(q, r);
    }
  }

  lemma ConsPrefix<T>(c: T, a: seq<T>, b: seq<T>, n: nat)
    requires 1 <= n && |a| >= n - 1 && |b| >= n - 1 && a[..n - 1] == b[..n - 1]
    ensures ([c] + a)[..n] == ([c] + b)[..n]
  {
    assert forall i :: 1 <= i < n ==> ([c] + a)[i] == a[..n - 1][i - 1];
    assert forall i :: 1 <= i < n ==> ([c] + b)[i] == b[..n - 1][i - 1];
  }

  lemma TokenPrefixOnly(q: Placeholder, a: string, b: string)
    requires |a| >= TokenLength(q) && |b| >= TokenLength(q)
    requires a[..TokenLength(q)] == b[..TokenLength(q)]
    ensures TokenAt(q, a) == TokenAt(q, b)
  {
  }

  /** After the replace no occurrence of the placeholder is left. */
  lemma ReplaceIsComplete(p: Placeholder, s: string, rep: string)
    requires '{' !in rep && '}' !in rep && |rep| >= TokenLength(p) - 1
    ensures NoToken(p, ReplaceToken(p, s, rep))
  {
    NoTokenAfterReplace(p, p, s, rep);
  }

  /** Where the pattern matches, the result starts with the replacement and the scan resumes behind the token. */
  lemma TokenStep(p: Placeholder, u: string, rep: string)
    requires TokenAt(p, u)
    ensures ReplaceToken(p, u, rep) == rep + ReplaceToken(p, u[TokenLength(p)..], rep)
  {
  }

  lemma SuffixStep(s: string, k: nat)
    requires k < |s|
    ensures s[k..][1..] == s[k + 1..] && s[k..][0] == s[k]
  {
  }

  /** One kept character in front of the kept text, the replacement and the rest. */
  lemma KeepOne(s: string, k: nat, i: nat, rep: string, whole: string, rest: string, tail: string)
    requires k < i <= |s|
    requires whole == [s[k]] + rest && rest == s[k + 1..i] + rep + tail
    ensures whole == s[k..i] + rep + tail
  {
    assert s[k..i] == [s[k]] + s[k + 1..i];
  }

  /** `CharStep` for the suffix from `k`. */
  lemma KeptCharAt(p: Placeholder, s: string, k: nat, rep: string)
    requires k < |s| && !TokenAt(p, s[k..])
    ensures ReplaceToken(p, s[k..], rep) == [s[k]] + ReplaceToken(p, s[k + 1..], rep)
  {
    CharStep(p, s[k..], rep);
    SuffixStep(s, k);
  }

  lemma SuffixDrop(s: string, i: nat, n: nat)
    requires i + n <= |s|
    ensures s[i..][n..] == s[i + n..]
  {
  }

  /**
   * Scanning from `k`, with no match before `i` and a match at `i`: the
   * characters in between are kept and the token at `i` becomes `rep`.
   */
  lemma {:induction false} FirstTokenFrom(p: Placeholder, s: string, rep: string, k: nat, i: nat)
    requires k <= i <= |s| && TokenAt(p, s[i..])
    requires forall j :: k <= j < i ==> !TokenAt(p, s[j..])
    ensures i + TokenLength(p) <= |s|
    ensures ReplaceToken(p, s[k..], rep) == s[k..i] + rep + ReplaceToken(p, s[i + TokenLength(p)..], rep)
    decreases i - k
  {
    if k == i {
      TokenStep(p, s[i..], rep);
      SuffixDrop(s, i, TokenLength(p));
      assert s[k..i] + rep == rep;
    } else {
      assert !TokenAt(p, s[k..]);
      KeptCharAt(p, s, k, rep);
      FirstTokenFrom(p, s, rep, k + 1, i);
      KeepOne(s, k, i, rep, ReplaceToken(p, s[k..], rep), ReplaceToken(p, s[k + 1..], rep),
        ReplaceToken(p, s[i + TokenLength(p)..], rep));
    }
  }

  /**
   * The first occurrence of the placeholder, at `i`, becomes `rep`: the text
   * before it is kept as it is, and the scan goes on behind the token. With
   * `ReplaceToken`'s own ensures for token-free text this pins the value of
   * the global replace on every input.
   */
  lemma FirstTokenReplaced(p: Placeholder, s: string, rep: string, i: nat)
    requires i <= |s| && TokenAt(p, s[i..]) && forall j :: 0 <= j < i ==> !TokenAt(p, s[j..])
    ensures ReplaceToken(p, s, rep) == s[..i] + rep + ReplaceToken(p, s[i + TokenLength(p)..], rep)
  {
    FirstTokenFrom(p, s, rep, 0, i);
    assert s[0..] == s && s[0..i] == s[..i];
  }

  /** Every token opens with `{`, so text without one holds no token. */
  lemma BraceFreeNoToken(p: Placeholder, s: string)
    requires '{' !in s
    ensures NoToken(p, s)
  {
    forall i | 0 <= i <= |s| ensures !TokenAt(p, s[i..]) {
      if TokenAt(p, s[i..]) {
        TokenBraces(p, s[i..]);
      }
    }
  }

  /**
   * A placeholder standing between two brace-free texts is replaced by
   * `rep`, and the texts around it are kept.
   */
  lemma PlaceholderBecomesRep(p: Placeholder, a: string, t: string, b: string, rep: string)
    requires '{' !in a && '{' !in b
    requires |t| == TokenLength(p) && TokenShape(p, t)
    ensures ReplaceToken(p, a + t + b, rep) == a + rep + b
  {
    var s := a + t + b;
    assert s[|a|..][..TokenLength(p)] == t;
    forall j | 0 <= j < |a| ensures !TokenAt(p, s[j..]) {
      assert s[j] == a[j];
      if TokenAt(p, s[j..]) {
        TokenBraces(p, s[j..]);
      }
    }
    FirstTokenReplaced(p, s, rep, |a|);
    assert s[..|a|] == a;
    assert s[|a| + TokenLength(p)..] == b;
    BraceFreeNoToken(p, b);
  }

  /** The three status placeholders cannot match at the same place. */
  lemma TokenKindsExclusive(p: Placeholder, q: Placeholder, s: string)
    requires p != q && p != DateRangeExact && q != DateRangeExact && TokenAt(p, s)
    ensures !TokenAt(q, s)
  {
    var tp := s[..TokenLength(p)];
    assert tp[1] == s[1] && tp[5] == s[5];
    if |s| >= TokenLength(q) {
      var tq := s[..TokenLength(q)];
      assert tq[1] == s[1] && tq[5] == s[5];
    }
  }

  /**
   * Text holding one `{`, at `i`, where the placeholder does not match holds
   * no token of the placeholder at all.
   */
  lemma OneBraceNoToken(q: Placeholder, s: string, i: nat)
    requires i < |s| && !TokenAt(q, s[i..])
    requires forall j :: 0 <= j < |s| && j != i ==> s[j] != '{'
    ensures NoToken(q, s)
  {
    forall j | 0 <= j <= |s| ensures !TokenAt(q, s[j..]) {
      if j != i && TokenAt(q, s[j..]) {
        TokenBraces(q, s[j..]);
      }
    }
  }

  /** The three replaces at the start of `generateStatusFromExample`, in order. */
  function ReplaceDatePlaceholders(example: string, dateRange: string): (r: string)
    ensures '{' !in dateRange && '}' !in dateRange && |dateRange| >= 11 ==>
      NoToken(DateRangeAnyCase, r) && NoToken(DateAnyCase, r) && NoToken(PeriodAnyCase, r)
  {
    var a := ReplaceToken(DateRangeAnyCase, example, dateRange);
    var b := ReplaceToken(DateAnyCase, a, dateRange);
    var c := ReplaceToken(PeriodAnyCase, b, dateRange);
    if '{' !in dateRange && '}' !in dateRange && |dateRange| >= 11 then
      NoTokenAfterReplace(DateRangeAnyCase, DateRangeAnyCase, example, dateRange);
      NoTokenAfterReplace(DateAnyCase, DateRangeAnyCase, a, dateRange);
      NoTokenAfterReplace(DateAnyCase, DateAnyCase, a, dateRange);
      NoTokenAfterReplace(PeriodAnyCase, DateRangeAnyCase, b, dateRange);
      NoTokenAfterReplace(PeriodAnyCase, DateAnyCase, b, dateRange);
      NoTokenAfterReplace(PeriodAnyCase, PeriodAnyCase, b, dateRange);
      c
    else c
  }

  /** Running the placeholder replacement a second time changes nothing. */
  lemma ReplaceDatePlaceholdersIdempotent(example: string, dateRange: string)
    requires '{' !in dateRange && '}' !in dateRange && |dateRange| >= 11
    ensures ReplaceDatePlaceholders(ReplaceDatePlaceholders(example, dateRange), dateRange)
      == ReplaceDatePlaceholders(example, dateRange)
  {
  }

  /** An occurrence of any of the three status placeholders, in any case, is replaced. */
  lemma StatusPlaceholdersIgnoreCase()
    ensures ReplaceToken(DateRangeAnyCase, "{Date Range}", "x") == "x"
    ensures ReplaceToken(DateAnyCase, "{DATE}", "x") == "x"
    ensures ReplaceToken(PeriodAnyCase, "{Period}", "x") == "x"
  {
    LowerWord("Date", "date");
    LowerWord("Range", "range");
    LowerWord("DATE", "date");
    LowerWord("Period", "period");
    assert "{Date Range}"[..12] == "{Date Range}";
    assert "{Date Range}"[1..5] == "Date" && "{Date Range}"[6..11] == "Range";
    assert TokenAt(DateRangeAnyCase, "{Date Range}");
    assert "{Date Range}"[12..] == "";
    assert "{DATE}"[..6][1..5] == "DATE";
    assert TokenAt(DateAnyCase, "{DATE}");
    assert "{DATE}"[6..] == "";
    assert "{Period}"[..8][1..7] == "Period";
    assert TokenAt(PeriodAnyCase, "{Period}");
    assert "{Period}"[8..] == "";
  }

  lemma LowerWord(w: string, l: string)
    requires |w| == |l| && forall i :: 0 <= i < |w| ==> LowerChar(w[i]) == l[i]
    ensures Lower(w) == l
  {
  }

  /** The template generator's `{date_range}` is case-sensitive and needs the underscore. */
  lemma TemplatePlaceholderIsExact()
    ensures ReplaceToken(DateRangeExact, "{date_range}", "x") == "x"
    ensures ReplaceToken(DateRangeExact, "{DATE_RANGE}", "x") == "{DATE_RANGE}"
    ensures ReplaceToken(DateRangeExact, "{date range}", "x") == "{date range}"
  {
    ExactTokenReplaced();
    UpperTokenKept();
    SpacedTokenKept();
  }

  lemma ExactTokenReplaced()
    ensures ReplaceToken(DateRangeExact, "{date_range}", "x") == "x"
  {
    assert "{date_range}"[..12] == "{date_range}";
    WholeToken(DateRangeExact, "{date_range}", "x");
  }

  lemma UpperTokenKept()
    ensures ReplaceToken(DateRangeExact, "{DATE_RANGE}", "x") == "{DATE_RANGE}"
  {
    assert "{DATE_RANGE}"[1] != "{date_range}"[1];
    NotAToken(DateRangeExact, "{DATE_RANGE}");
  }

  lemma SpacedTokenKept()
    ensures ReplaceToken(DateRangeExact, "{date range}", "x") == "{date range}"
  {
    assert "{date range}"[5] != "{date_range}"[5];
    NotAToken(DateRangeExact, "{date range}");
  }

  /** A text that is exactly one token is replaced as a whole. */
  lemma WholeToken(p: Placeholder, s: string, rep: string)
    requires |s| == TokenLength(p) && TokenAt(p, s)
    ensures ReplaceToken(p, s, rep) == rep
  {
    assert s[TokenLength(p)..] == "";
  }

  /** A text of token length that does not have the token's shape holds no token at all. */
  lemma NotAToken(p: Placeholder, s: string)
    requires |s| == TokenLength(p) && !TokenShape(p, s)
    ensures ReplaceToken(p, s, "x") == s
  {
    assert s[..TokenLength(p)] == s;
    assert NoToken(p, s) by {
      forall i | 0 <= i <= |s| ensures !TokenAt(p, s[i..]) {
        if i == 0 {
          assert s[0..] == s;
        }
      }
    }
  }

  /**
   * A status placeholder of any of the three kinds, in any spelling the
   * pattern accepts, between brace-free texts becomes the date range, and
   * the texts around it are kept.
   */
  lemma DateRangeTakesPlaceholder(p: Placeholder, a: string, t: string, b: string, dateRange: string)
    requires p != DateRangeExact
    requires '{' !in a && '{' !in b && '{' !in dateRange
    requires |t| == TokenLength(p) && TokenShape(p, t)
    ensures ReplaceDatePlaceholders(a + t + b, dateRange) == a + dateRange + b
  {
    var s := a + t + b;
    var done := a + dateRange + b;
    OtherKindsKeep(p, DateRangeAnyCase, a, t, b, dateRange);
    OtherKindsKeep(p, DateAnyCase, a, t, b, dateRange);
    OtherKindsKeep(p, PeriodAnyCase, a, t, b, dateRange);
    PlaceholderBecomesRep(p, a, t, b, dateRange);
    assert '{' !in done;
    BraceFreeNoToken(DateRangeAnyCase, done);
    BraceFreeNoToken(DateAnyCase, done);
    BraceFreeNoToken(PeriodAnyCase, done);
  }

  /** A status placeholder of another kind leaves text holding a token of `p` unchanged. */
  lemma OtherKindsKeep(p: Placeholder, q: Placeholder, a: string, t: string, b: string, rep: string)
    requires p != DateRangeExact && q != DateRangeExact
    requires '{' !in a && '{' !in b
    requires |t| == TokenLength(p) && TokenShape(p, t)
    ensures q != p ==> ReplaceToken(q, a + t + b, rep) == a + t + b
  {
    if q != p {
      var s := a + t + b;
      assert s[|a|..][..TokenLength(p)] == t;
      TokenKindsExclusive(p, q, s[|a|..]);
      OnlyOpeningBrace(p, t);
      OneBraceAround(a, t, b);
      OneBraceNoToken(q, s, |a|);
    }
  }

  /** A token holds no `{` but its first character. */
  lemma OnlyOpeningBrace(p: Placeholder, t: string)
    requires |t| == TokenLength(p) && TokenShape(p, t)
    ensures forall j :: 0 < j < |t| ==> t[j] != '{'
  {
    forall j | 0 < j < |t| ensures t[j] != '{' {
      if p == DateRangeAnyCase && 1 <= j < 5 {
        assert Lower(t[1..5])[j - 1] == LowerChar(t[j]);
      } else if p == DateRangeAnyCase && 6 <= j < 11 {
        assert Lower(t[6..11])[j - 6] == LowerChar(t[j]);
      } else if p == DateAnyCase && 1 <= j < 5 {
        assert Lower(t[1..5])[j - 1] == LowerChar(t[j]);
      } else if p == PeriodAnyCase && 1 <= j < 7 {
        assert Lower(t[1..7])[j - 1] == LowerChar(t[j]);
      }
    }
  }

  lemma OneBraceAround(a: string, t: string, b: string)
    requires '{' !in a && '{' !in b && forall j :: 0 < j < |t| ==> t[j] != '{'
    ensures forall j :: 0 <= j < |a + t + b| && j != |a| ==> (a + t + b)[j] != '{'
  {
    var s := a + t + b;
    forall j | 0 <= j < |s| && j != |a| ensures s[j] != '{' {
      if j < |a| {
        assert s[j] == a[j];
      } else if j < |a| + |t| {
        assert s[j] == t[j - |a|];
      } else {
        assert s[j] == b[j - |a| - |t|];
      }
    }
  }

  /** `{Date_Range}` inside text becomes the date range, the surrounding text kept. */
  lemma DateRangeInText()
    ensures ReplaceDatePlaceholders("Report {Date_Range}.", "01/01/2024 - 01/14/2024") == "Report 01/01/2024 - 01/14/2024."
  {
    var a, t, b, dr := "Report ", "{Date_Range}", ".", "01/01/2024 - 01/14/2024";
    MixedCaseDateRange();
    assert '{' !in a && '{' !in b && '{' !in dr;
    DateRangeTakesPlaceholder(DateRangeAnyCase, a, t, b, dr);
    ReportSpelled();
  }

  lemma ReportSpelled()
    ensures "Report " + "{Date_Range}" + "." == "Report {Date_Range}."
    ensures "Report " + "01/01/2024 - 01/14/2024" + "." == "Report 01/01/2024 - 01/14/2024."
  {
  }

  lemma MixedCaseDateRange()
    ensures TokenShape(DateRangeAnyCase, "{Date_Range}")
  {
    LowerWord("Date", "date");
    LowerWord("Range", "range");
    assert "{Date_Range}"[1..5] == "Date" && "{Date_Range}"[6..11] == "Range";
  }
}

=== FILE: reminders.dfy ===
/**
 * The settings record and the reminder rule of `scripts/app.js`: the
 * defaults `loadSettings` falls back to and the decision `checkReminder`
 * takes once a minute. The clock is a parameter; showing a notification
 * is reported as a flag.
 */
module Reminders {
  import opened Wrappers
  import opened Text
  import opened Calendar

  datatype ReminderSettings = ReminderSettings(enabled: bool, time: string, endOfWeek: bool)

  datatype FiscalSettings = FiscalSettings(start: FiscalStart, format: string, useQuarters: bool)

  /** The stored settings object; `reminders` may be absent from it. */
  datatype Settings = Settings(reminders: Option<ReminderSettings>, fiscalYear: FiscalSettings)

  /** The object `loadSettings` uses when nothing is stored. */
  const DefaultSettings := Settings(
    Some(ReminderSettings(true, "17:00", true)),
    FiscalSettings(FiscalStart(0, 1), "FY-YY", true))

  /** `Storage.get('settings') || { … }`. */
  function LoadSettings(stored: Option<Settings>): (r: Settings)
    ensures stored.Some? ==> r == stored.value
    ensures stored.None? ==> r.reminders.Some? && r.reminders.value.enabled && r.reminders.value.endOfWeek
    ensures stored.None? ==> r.reminders.Some? && r.reminders.value.time == "17:00"
    ensures stored.None? ==> r.fiscalYear.start == FiscalStart(0, 1) && r.fiscalYear.format == "FY-YY" && r.fiscalYear.useQuarters
  {
    if stored.Some? then stored.value else DefaultSettings
  }

  // ---------------------------------------------------------- `split(':')`

  /** `s.split(c)` for a one-character separator. */
  function SplitOn(s: string, c: char): (r: seq<string>)
    ensures |r| >= 1
    ensures forall k :: 0 <= k < |r| ==> forall j :: 0 <= j < |r[k]| ==> r[k][j] != c
  {
    if |s| == 0 then [""]
    else
      var rest := SplitOn(s[1..], c);
      if s[0] == c then [""] + rest
      else [[s[0]] + rest[0]] + rest[1..]
  }

  /** `parts.join(c)`. */
  function JoinWith(parts: seq<string>, c: char): string
    requires |parts| >= 1
  {
    if |parts| == 1 then parts[0] else parts[0] + [c] + JoinWith(parts[1..], c)
  }

  /** Splitting and joining again gives the text back. */
  lemma {:induction false} JoinSplit(s: string, c: char)
    ensures JoinWith(SplitOn(s, c), c) == s
  {
    if |s| > 0 {
      var rest := SplitOn(s[1..], c);
      JoinSplit(s[1..], c);
      if s[0] == c {
        assert [""] + rest == [""] + rest;
        assert ([""] + rest)[1..] == rest;
        assert s == [c] + s[1..];
      } else {
        var r := [[s[0]] + rest[0]] + rest[1..];
        if |rest| == 1 {
          assert s == [s[0]] + rest[0];
        } else {
          assert r[1..] == rest[1..];
          assert JoinWith(rest, c) == rest[0] + [c] + JoinWith(rest[1..], c);
          assert s == [s[0]] + s[1..];
        }
      }
    }
  }

  /** A separator-free text splits into itself. */
  lemma {:induction false} SplitWithout(s: string, c: char)
    requires c !in s
    ensures SplitOn(s, c) == [s]
  {
    if |s| > 0 {
      SplitWithout(s[1..], c);
      assert s == [s[0]] + s[1..];
    }
  }

  lemma SplitWithoutSeparator(s: string, c: char)
    ensures c !in s ==> SplitOn(s, c) == [s]
  {
    if c !in s {
      SplitWithout(s, c);
    }
  }

  /** A separator-free head ends the first part at the first separator. */
  lemma {:induction false} SplitAtSeparator(x: string, c: char, y: string)
    requires c !in x
    ensures SplitOn(x + [c] + y, c) == [x] + SplitOn(y, c)
  {
    if |x| == 0 {
      assert x + [c] + y == [c] + y;
      assert ([c] + y)[1..] == y;
    } else {
      assert (x + [c] + y)[1..] == x[1..] + [c] + y;
      SplitAtSeparator(x[1..], c, y);
      assert x == [x[0]] + x[1..];
    }
  }

  // ---------------------------------------------------------------- Number

  /** The result of `Number(s)`: a value or `NaN`. */
  datatype Num = NaN | Val(v: int)

  /**
   * `Number(s)` for decimal integers: surrounding whitespace is ignored,
   * blank text is 0, an optional sign may precede the digits; anything
   * else is `NaN`.
   */
  function ParseNumber(s: string): (r: Num)
    ensures Trim(s) == "" ==> r == Val(0)
    ensures AllDigits(Trim(s)) ==> r.Val? && r.v >= 0
    ensures r.Val? && Trim(s) != "" ==> IsDigit(Trim(s)[|Trim(s)| - 1])
  {
    var t := Trim(s);
    if AllDigits(t) then Val(if t == "" then 0 else DigitsValue(t))
    else if |t| >= 2 && t[0] == '+' && AllDigits(t[1..]) then Val(DigitsValue(t[1..]))
    else if |t| >= 2 && t[0] == '-' && AllDigits(t[1..]) then Val(-(DigitsValue(t[1..]) as int))
    else NaN
  }

  /** `String(n)` reads back as `n`. */
  lemma ParseNumberRoundTrip(n: nat)
    ensures ParseNumber(NatToString(n)) == Val(n)
  {
    var s := NatToString(n);
    TrimUntouched(s);
  }

  /** Hours and minutes as the single number `h*100 + m` the rule compares. */
  function Encode(h: int, m: int): int
  {
    h * 100 + m
  }

  /** The reminder time `h*100 + m` of an `"HH:MM"` setting; `None` where the code computes `NaN`. */
  function ParseReminderTime(time: string): (r: Option<int>)
    ensures ':' !in time ==> r.None?
  {
    SplitWithoutSeparator(time, ':');
    var parts := SplitOn(time, ':');
    if |parts| < 2 then None
    else
      var h := ParseNumber(parts[0]);
      var m := ParseNumber(parts[1]);
      if h.Val? && m.Val? then Some(Encode(h.v, m.v)) else None
  }

  /** What the time input stores, `HH:MM`, is read back as `HH*100 + MM`. */
  lemma ReminderTimeRoundTrip(h: nat, m: nat)
    requires h < 100 && m < 100
    ensures ParseReminderTime(TwoDigits(h) + ":" + TwoDigits(m)) == Some(Encode(h, m))
  {
    var a := TwoDigits(h);
    var b := TwoDigits(m);
    SplitPair(a, b);
    ParseTwoDigits(h);
    ParseTwoDigits(m);
    ParseParts(a + ":" + b, a, b, h, m);
  }

  lemma ParseParts(time: string, a: string, b: string, h: int, m: int)
    requires SplitOn(time, ':') == [a, b] && ParseNumber(a) == Val(h) && ParseNumber(b) == Val(m)
    ensures ParseReminderTime(time) == Some(Encode(h, m))
  {
    var parts := SplitOn(time, ':');
    assert parts[0] == a && parts[1] == b;
  }

  lemma SplitPair(a: string, b: string)
    requires AllDigits(a) && AllDigits(b)
    ensures SplitOn(a + ":" + b, ':') == [a, b]
  {
    assert ':' !in a && ':' !in b;
    SplitAtSeparator(a, ':', b);
    SplitWithout(b, ':');
    assert a + ":" + b == a + [':'] + b;
  }

  lemma ParseTwoDigits(n: nat)
    requires n < 100
    ensures ParseNumber(TwoDigits(n)) == Val(n)
  {
    var a := TwoDigits(n);
    assert !IsSpace(a[0]) && !IsSpace(a[1]);
    TrimUntouched(a);
  }

  // ----------------------------------------------------------- the rule

  /** The parts of `new Date()` the rule reads; `weekday` 0 is Sunday. */
  datatype Clock = Clock(hours: nat, minutes: nat, weekday: nat)

  /** Which notifications one tick shows. */
  datatype Notifications = Notifications(daily: bool, weekly: bool)

  function Abs(x: int): nat
  {
    if x < 0 then -x else x
  }

  /**
   * `checkReminder`: nothing without settings, reminders, or with
   * reminders disabled; otherwise the daily reminder within one unit of
   * the `h*100+m` encoding, and the weekly one on Fridays at 15:00.
   */
  function CheckReminder(settings: Option<Settings>, now: Clock): (r: Notifications)
    ensures (settings.None? || settings.value.reminders.None? || !settings.value.reminders.value.enabled) ==>
      r == Notifications(false, false)
    ensures r.daily <==> (settings.Some? && settings.value.reminders.Some? && settings.value.reminders.value.enabled
      && ParseReminderTime(settings.value.reminders.value.time).Some?
      && Abs(now.hours * 100 + now.minutes - ParseReminderTime(settings.value.reminders.value.time).value) <= 1)
    ensures r.weekly <==> (settings.Some? && settings.value.reminders.Some? && settings.value.reminders.value.enabled
      && settings.value.reminders.value.endOfWeek && now.weekday == 5 && now.hours == 15 && now.minutes == 0)
  {
    if settings.None? || settings.value.reminders.None? || !settings.value.reminders.value.enabled then
      Notifications(false, false)
    else
      var rem := settings.value.reminders.value;
      var current := now.hours * 100 + now.minutes;
      var daily := match ParseReminderTime(rem.time)
        case None => false
        case Some(t) => Abs(current - t) <= 1;
      Notifications(daily, rem.endOfWeek && now.weekday == 5 && now.hours == 15 && now.minutes == 0)
  }

  /**
   * With minutes below 60 on both sides, the daily rule fires exactly in
   * the reminder's hour, within one minute of it: across an hour the
   * encoding jumps by at least 41.
   */
  lemma DailyRule(h: int, m: int, rh: int, rm: int)
    requires 0 <= m < 60 && 0 <= rm < 60
    ensures Abs((h * 100 + m) - (rh * 100 + rm)) <= 1 <==> h == rh && Abs(m - rm) <= 1
    ensures h != rh ==> Abs((h * 100 + m) - (rh * 100 + rm)) >= 41
  {
    if h > rh {
      assert h * 100 >= rh * 100 + 100;
    } else if h < rh {
      assert rh * 100 >= h * 100 + 100;
    }
  }

  /** The stored defaults: 17:01 reminds, 16:59 does not; on a Friday at 15:00 only the weekly one fires. */
  lemma DefaultReminderExamples()
    ensures CheckReminder(Some(DefaultSettings), Clock(17, 1, 2)) == Notifications(true, false)
    ensures CheckReminder(Some(DefaultSettings), Clock(16, 59, 2)) == Notifications(false, false)
    ensures CheckReminder(Some(DefaultSettings), Clock(15, 0, 5)) == Notifications(false, true)
  {
    DefaultTimeIs1700();
  }

  lemma DefaultTimeIs1700()
    ensures ParseReminderTime("17:00") == Some(1700)
  {
    ReminderTimeRoundTrip(17, 0);
    TimeText(17, '1', '7');
  }

  /** A reminder set for 15:00 fires both notifications on a Friday at 15:00. */
  lemma BothFireOnFridayAtThree()
    ensures CheckReminder(Some(Settings(Some(ReminderSettings(true, "15:00", true)), DefaultSettings.fiscalYear)), Clock(15, 0, 5))
      == Notifications(true, true)
  {
    ReminderTimeRoundTrip(15, 0);
    TimeText(15, '1', '5');
  }

  /** The time input's text for a full hour from 10 to 23, as its two digit characters. */
  lemma TimeText(h: nat, c1: char, c2: char)
    requires 10 <= h < 24 && c1 as int == '0' as int + h / 10 && c2 as int == '0' as int + h % 10
    ensures TwoDigits(h) + ":" + TwoDigits(0) == [c1, c2, ':', '0', '0']
  {
    OnTheHour(h);
  }

  /** The time input's text for a full hour from 10 to 23. */
  lemma OnTheHour(h: nat)
    requires 10 <= h < 24
    ensures TwoDigits(h) + ":" + TwoDigits(0) == [DigitChar(h / 10), DigitChar(h % 10), ':', '0', '0']
  {
    TwoDigitsOf(h);
    assert TwoDigits(0) == "00";
  }

  /** The two digits of a number from 10 to 99. */
  lemma TwoDigitsOf(n: nat)
    requires 10 <= n < 100
    ensures TwoDigits(n) == [DigitChar(n / 10), DigitChar(n % 10)]
  {
    TwoDigitsLength(n);
    assert NatToString(n / 10) == [DigitChar(n / 10)];
  }
}

=== FILE: sections.dfy ===
/**
 * The section headers `generateStatusFromExample` looks for in a format
 * example, as explicit scanners for its three global patterns: a heading
 * `<h1>`..`<h6>` (any attributes, any closing level), `<strong>` and `<b>`,
 * each case-insensitive, with the shortest one-line inner text.
 */
module Sections {
  import opened Wrappers
  import opened Text

  datatype Kind = Heading | Strong | Bold

  /** One header match: its pattern, lower-cased inner text, offset in the example and full markup. */
  datatype Section = Section(kind: Kind, title: string, start: nat, markup: string)

  /** `s[k..]` starts with `word` up to ASCII case (`word` is lower-case). */
  predicate CiAt(s: string, k: nat, word: string)
  {
    k <= |s| && StartsWithCi(s[k..], word)
  }

  predicate IsLevel(c: char)
  {
    '1' <= c <= '6'
  }

  /** `<h[1-6]` at `i`. */
  predicate HeadingOpenAt(s: string, i: nat)
  {
    i + 3 <= |s| && s[i] == '<' && LowerChar(s[i + 1]) == 'h' && IsLevel(s[i + 2])
  }

  /** `<\/h[1-6]>` at `k`. */
  predicate HeadingCloseAt(s: string, k: nat)
  {
    k + 5 <= |s| && CiAt(s, k, "</h") && IsLevel(s[k + 3]) && s[k + 4] == '>'
  }

  function CloseLength(kind: Kind): (n: nat)
    ensures n >= 4
  {
    match kind
    case Heading => 5
    case Strong => 9
    case Bold => 4
  }

  /** The closing tag of `kind` at `k`. */
  predicate CloseAt(kind: Kind, s: string, k: nat)
    ensures CloseAt(kind, s, k) ==> k + CloseLength(kind) <= |s|
  {
    match kind
    case Heading => HeadingCloseAt(s, k)
    case Strong => k + 9 <= |s| && CiAt(s, k, "</strong>")
    case Bold => k + 4 <= |s| && CiAt(s, k, "</b>")
  }

  /**
   * Where the inner text begins when the opening tag of `kind` starts at
   * `i`. For a heading, `[^>]*>` can only end at the first `>` after the
   * level digit, so the inner text starts right after that `>`.
   */
  function LabelStart(kind: Kind, s: string, i: nat): (r: Option<nat>)
    ensures r.Some? ==> i + 3 <= r.value <= |s|
  {
    match kind
    case Heading =>
      if HeadingOpenAt(s, i) then
        match IndexOf(s, ">", i + 3)
        case None => None
        case Some(g) => Some(g + 1)
      else None
    case Strong =>
      if CiAt(s, i, "<strong>") then Some(i + 8) else None
    case Bold =>
      if CiAt(s, i, "<b>") then Some(i + 3) else None
  }

  /** The opening tag: for a heading, `<h[1-6]` and everything up to the first `>` after it. */
  lemma LabelStartIsOpeningTag(kind: Kind, s: string, i: nat)
    ensures LabelStart(kind, s, i).Some? ==> s[LabelStart(kind, s, i).value - 1] == '>'
    ensures kind == Heading ==> (LabelStart(kind, s, i).Some? <==> HeadingOpenAt(s, i) && exists g :: i + 3 <= g < |s| && s[g] == '>')
    ensures kind == Heading && LabelStart(kind, s, i).Some? ==> forall t :: i + 3 <= t < LabelStart(kind, s, i).value - 1 ==> s[t] != '>'
    ensures kind == Strong ==> (LabelStart(kind, s, i).Some? <==> CiAt(s, i, "<strong>")) && (LabelStart(kind, s, i).Some? ==> LabelStart(kind, s, i).value == i + 8)
    ensures kind == Bold ==> (LabelStart(kind, s, i).Some? <==> CiAt(s, i, "<b>")) && (LabelStart(kind, s, i).Some? ==> LabelStart(kind, s, i).value == i + 3)
  {
    match kind
    case Heading =>
      if HeadingOpenAt(s, i) {
        match IndexOf(s, ">", i + 3)
        case None =>
          forall g | i + 3 <= g < |s| ensures s[g] != '>' {
            OccursSingle(s, g, '>');
          }
        case Some(g) =>
          OccursSingle(s, g, '>');
          forall t | i + 3 <= t < g ensures s[t] != '>' {
            OccursSingle(s, t, '>');
          }
      }
    case Strong =>
      if CiAt(s, i, "<strong>") {
        assert s[i..][..8][7] == s[i + 7];
        LowerCharFixed(s[i + 7]);
      }
    case Bold =>
      if CiAt(s, i, "<b>") {
        assert s[i..][..3][2] == s[i + 2];
        LowerCharFixed(s[i + 2]);
      }
  }

  lemma OccursSingle(s: string, t: nat, c: char)
    requires t < |s|
    ensures OccursAt(s, [c], t) <==> s[t] == c
  {
    assert s[t..t + 1] == [s[t]];
  }

  /** Only `>` lower-cases to `>`. */
  lemma LowerCharFixed(c: char)
    requires LowerChar(c) == '>'
    ensures c == '>'
  {
  }

  /** The closing-tag test the lazy scan stops at. */
  function Closer(kind: Kind, s: string): (p: nat -> bool)
    ensures forall k: nat :: p(k) == CloseAt(kind, s, k)
  {
    (k: nat) => CloseAt(kind, s, k)
  }

  /**
   * The match of `kind`'s pattern at offset `i`, if any: the opening tag,
   * the shortest inner text free of line terminators, the closing tag.
   */
  function MatchAt(kind: Kind, s: string, i: nat): (r: Option<Section>)
    ensures r.Some? ==> (r.value.kind == kind && r.value.start == i
      && |r.value.markup| > CloseLength(kind) + 2 && i + |r.value.markup| <= |s|)
  {
    match LabelStart(kind, s, i)
    case None => None
    case Some(a) =>
      match FirstInLine(s, a, Closer(kind, s))
      case None => None
      case Some(k) =>
        Some(Section(kind, Lower(s[a..k]), i, s[i..k + CloseLength(kind)]))
  }

  /**
   * The pattern of `kind` matches at `i` with inner text `s[a..k]`: the
   * opening tag ends at `a`, the closing tag starts at `k`, no line
   * terminator lies between, and no earlier closing tag does (the lazy `.*?`).
   */
  ghost predicate LazyMatch(kind: Kind, s: string, i: nat, a: nat, k: nat)
  {
    LabelStart(kind, s, i) == Some(a) && FirstClose(kind, s, a, k)
  }

  /** `k` is the first closing tag of `kind` at or after `a` on the same line. */
  ghost predicate FirstClose(kind: Kind, s: string, a: nat, k: nat)
  {
    a <= k <= |s| && CloseAt(kind, s, k) && LineFree(s, a, k) && forall t :: a <= t < k ==> !CloseAt(kind, s, t)
  }

  /** A match `MatchAt` reports is the regular-expression match at `i`, with the shortest inner text. */
  lemma MatchAtIsLazyMatch(kind: Kind, s: string, i: nat, m: Section)
    requires MatchAt(kind, s, i) == Some(m)
    ensures LabelStart(kind, s, i).Some?
    ensures exists k: nat :: (LazyMatch(kind, s, i, LabelStart(kind, s, i).value, k) && k + CloseLength(kind) <= |s|
      && m.title == Lower(s[LabelStart(kind, s, i).value..k]) && m.markup == s[i..k + CloseLength(kind)])
  {
    var a, k := MatchParts(kind, s, i);
    MatchAtValue(kind, s, i, a, k);
    FirstCloseIsLazy(kind, s, i, a, k);
  }

  /** A match has an opening tag ending at `a` and a first closing tag at `k`. */
  lemma MatchParts(kind: Kind, s: string, i: nat) returns (a: nat, k: nat)
    requires MatchAt(kind, s, i).Some?
    ensures LabelStart(kind, s, i) == Some(a) && a <= |s| && FirstInLine(s, a, Closer(kind, s)) == Some(k)
  {
    a := LabelStart(kind, s, i).value;
    k := FirstInLine(s, a, Closer(kind, s)).value;
  }

  lemma MatchAtValue(kind: Kind, s: string, i: nat, a: nat, k: nat)
    requires LabelStart(kind, s, i) == Some(a) && a <= |s| && FirstInLine(s, a, Closer(kind, s)) == Some(k)
    ensures k + CloseLength(kind) <= |s|
    ensures MatchAt(kind, s, i) == Some(Section(kind, Lower(s[a..k]), i, s[i..k + CloseLength(kind)]))
  {
  }

  lemma FirstCloseIsLazy(kind: Kind, s: string, i: nat, a: nat, k: nat)
    requires LabelStart(kind, s, i) == Some(a) && a <= |s| && FirstInLine(s, a, Closer(kind, s)) == Some(k)
    ensures LazyMatch(kind, s, i, a, k)
  {
    var p := Closer(kind, s);
    assert p(k);
    assert forall t :: a <= t < k ==> !p(t);
  }

  /** `MatchAt` finds no match exactly when no closing tag is reachable on the line after the opening tag. */
  lemma NoMatchIffNoClose(kind: Kind, s: string, i: nat)
    ensures MatchAt(kind, s, i).None? <==>
      LabelStart(kind, s, i).None? ||
      forall k :: LabelStart(kind, s, i).value <= k <= |s| && LineFree(s, LabelStart(kind, s, i).value, k) ==> !CloseAt(kind, s, k)
  {
    if LabelStart(kind, s, i).Some? {
      var a := LabelStart(kind, s, i).value;
      var p := Closer(kind, s);
      match FirstInLine(s, a, p)
      case None =>
      case Some(k) =>
        assert p(k);
    }
  }

  /** The end offset of a section in the text it was found in. */
  function End(m: Section): nat
  {
    m.start + |m.markup|
  }

  /** `f` is a matcher for a text of length `n`: a match found at `i` starts at `i` and ends within the text. */
  ghost predicate IsMatcher(f: nat -> Option<Section>, n: nat)
  {
    forall i: nat :: f(i).Some? ==> f(i).value.start == i && i < End(f(i).value) <= n
  }

  /**
   * `while ((match = pattern.exec(example)) !== null)` from offset `pos`,
   * for any matcher `f`: the leftmost match, then the scan resumes where
   * that match ended.
   */
  function ScanWith(f: nat -> Option<Section>, n: nat, pos: nat): (r: seq<Section>)
    requires pos <= n && IsMatcher(f, n)
    decreases n - pos
    ensures forall j :: 0 <= j < |r| ==> pos <= r[j].start && f(r[j].start) == Some(r[j])
  {
    match f(pos)
    case Some(m) =>
      var rest := ScanWith(f, n, End(m));
      assert forall j :: 1 <= j < |[m] + rest| ==> ([m] + rest)[j] == rest[j - 1];
      [m] + rest
    case None =>
      if pos == n then []
      else ScanWith(f, n, pos + 1)
  }

  /** The sections end within `n`, do not overlap and come in text order. */
  ghost predicate Ordered(r: seq<Section>, n: nat)
  {
    (forall j :: 0 <= j < |r| ==> End(r[j]) <= n)
    && forall j :: 0 <= j < |r| - 1 ==> End(r[j]) <= r[j + 1].start
  }

  /** Offset `t` lies inside one of the sections. */
  ghost predicate Covers(r: seq<Section>, t: nat)
  {
    exists j :: 0 <= j < |r| && r[j].start <= t < End(r[j])
  }

  /** Reported matches do not overlap and come in text order. */
  lemma {:induction false} ScanIsOrdered(f: nat -> Option<Section>, n: nat, pos: nat)
    requires pos <= n && IsMatcher(f, n)
    decreases n - pos
    ensures Ordered(ScanWith(f, n, pos), n)
  {
    match f(pos)
    case Some(m) =>
      ScanIsOrdered(f, n, End(m));
      var rest := ScanWith(f, n, End(m));
      assert ScanWith(f, n, pos) == [m] + rest;
      OrderedCons(m, rest, n);
    case None =>
      if pos < n {
        ScanIsOrdered(f, n, pos + 1);
      }
  }

  lemma OrderedCons(m: Section, rest: seq<Section>, n: nat)
    requires Ordered(rest, n) && End(m) <= n && (|rest| > 0 ==> End(m) <= rest[0].start)
    ensures Ordered([m] + rest, n)
  {
    var r := [m] + rest;
    assert forall j :: 1 <= j < |r| ==> r[j] == rest[j - 1];
  }

  /**
   * Nothing is skipped: every offset at or after `pos` where the matcher
   * succeeds lies within one of the reported matches.
   */
  lemma {:induction false} ScanIsComplete(f: nat -> Option<Section>, n: nat, pos: nat, t: nat)
    requires pos <= t <= n && IsMatcher(f, n) && f(t).Some?
    decreases n - pos
    ensures Covers(ScanWith(f, n, pos), t)
  {
    var r := ScanWith(f, n, pos);
    match f(pos)
    case Some(m) =>
      var rest := ScanWith(f, n, End(m));
      assert r == [m] + rest;
      if t < End(m) {
        assert r[0].start <= t < End(r[0]);
      } else {
        ScanIsComplete(f, n, End(m), t);
        var j :| 0 <= j < |rest| && rest[j].start <= t < End(rest[j]);
        assert r[j + 1] == rest[j];
      }
    case None =>
      assert t != pos;
      assert r == ScanWith(f, n, pos + 1);
      ScanIsComplete(f, n, pos + 1, t);
  }

  /** The first section a scan reports is the leftmost match at or after `pos`. */
  lemma ScanFindsLeftmost(f: nat -> Option<Section>, n: nat, pos: nat)
    requires pos <= n && IsMatcher(f, n) && |ScanWith(f, n, pos)| > 0
    ensures forall t: nat :: pos <= t < ScanWith(f, n, pos)[0].start ==> f(t).None?
  {
    var r := ScanWith(f, n, pos);
    ScanIsOrdered(f, n, pos);
    forall t: nat | pos <= t < r[0].start ensures f(t).None? {
      if f(t).Some? {
        ScanIsComplete(f, n, pos, t);
        var j :| 0 <= j < |r| && r[j].start <= t < End(r[j]);
        OrderedStarts(r, j);
      }
    }
  }

  /** The matcher of `kind`'s pattern over `s`. */
  function Matcher(kind: Kind, s: string): (f: nat -> Option<Section>)
    ensures IsMatcher(f, |s|)
    ensures forall i: nat :: f(i) == MatchAt(kind, s, i)
  {
    (i: nat) => MatchAt(kind, s, i)
  }

  /** Every match of `kind`'s pattern in `s`, left to right. */
  function Scan(kind: Kind, s: string): (r: seq<Section>)
    ensures forall j :: 0 <= j < |r| ==> r[j].kind == kind && MatchAt(kind, s, r[j].start) == Some(r[j])
  {
    ScanWith(Matcher(kind, s), |s|, 0)
  }

  /** In a scan result no section starts before the first one. */
  lemma {:induction false} OrderedStarts(r: seq<Section>, j: nat)
    requires j < |r|
    requires forall i :: 0 <= i < |r| - 1 ==> End(r[i]) <= r[i + 1].start
    ensures r[0].start <= r[j].start
  {
    if j > 0 {
      OrderedStarts(r, j - 1);
    }
  }

  /** The order of the three patterns in `headerPatterns`. */
  function Rank(kind: Kind): nat
  {
    match kind
    case Heading => 0
    case Strong => 1
    case Bold => 2
  }

  /** Every match of the three patterns: all headings first, then all `<strong>`, then all `<b>`. */
  function AllSections(example: string): (r: seq<Section>)
    ensures AllMatch(example, r)
  {
    var h, g, b := Scan(Heading, example), Scan(Strong, example), Scan(Bold, example);
    MatchesJoin(example, h, g);
    MatchesJoin(example, h + g, b);
    h + g + b
  }

  /** Every section of `r` is a match of its kind where it starts. */
  predicate AllMatch(example: string, r: seq<Section>)
  {
    forall j :: 0 <= j < |r| ==> MatchAt(r[j].kind, example, r[j].start) == Some(r[j])
  }

  lemma MatchesJoin(example: string, a: seq<Section>, b: seq<Section>)
    requires AllMatch(example, a) && AllMatch(example, b)
    ensures AllMatch(example, a + b)
  {
    forall j | 0 <= j < |a + b| ensures MatchAt((a + b)[j].kind, example, (a + b)[j].start) == Some((a + b)[j]) {
      if j >= |a| {
        assert (a + b)[j] == b[j - |a|];
      }
    }
  }

  /**
   * The scan of one pattern over the example reports non-overlapping
   * matches in text order, and every offset where the pattern matches lies
   * inside a reported match.
   */
  lemma ScanReportsEveryMatch(kind: Kind, s: string, t: nat)
    requires t <= |s| && MatchAt(kind, s, t).Some?
    ensures Ordered(Scan(kind, s), |s|) && Covers(Scan(kind, s), t)
  {
    var f := Matcher(kind, s);
    assert f(t) == MatchAt(kind, s, t);
    ScanIsOrdered(f, |s|, 0);
    ScanIsComplete(f, |s|, 0, t);
  }

  lemma ScanKinds(kind: Kind, s: string)
    ensures forall j :: 0 <= j < |Scan(kind, s)| ==> Scan(kind, s)[j].kind == kind
  {
  }

  /** The combined list holds every heading before every `<strong>` and every `<strong>` before every `<b>`. */
  lemma AllSectionsInPatternOrder(example: string)
    ensures var r := AllSections(example);
      forall j, j' :: 0 <= j < j' < |r| ==> Rank(r[j].kind) <= Rank(r[j'].kind)
  {
    ScanKinds(Heading, example);
    ScanKinds(Strong, example);
    ScanKinds(Bold, example);
    KindsInOrder(Scan(Heading, example), Scan(Strong, example), Scan(Bold, example));
  }

  lemma KindsInOrder(h: seq<Section>, g: seq<Section>, b: seq<Section>)
    requires forall j :: 0 <= j < |h| ==> h[j].kind == Heading
    requires forall j :: 0 <= j < |g| ==> g[j].kind == Strong
    requires forall j :: 0 <= j < |b| ==> b[j].kind == Bold
    ensures var r := h + g + b;
      forall j, j' :: 0 <= j < j' < |r| ==> Rank(r[j].kind) <= Rank(r[j'].kind)
  {
    var r := h + g + b;
    assert forall j :: 0 <= j < |h| ==> r[j] == h[j];
    assert forall j :: |h| <= j < |h| + |g| ==> r[j] == g[j - |h|];
    assert forall j :: |h| + |g| <= j < |r| ==> r[j] == b[j - |h| - |g|];
  }

  /** `potentialSections`: the lower-cased inner texts, in scan order, duplicates kept. */
  function Labels(sections: seq<Section>): (r: seq<string>)
    ensures |r| == |sections|
    ensures forall j :: 0 <= j < |r| ==> r[j] == sections[j].title
  {
    seq(|sections|, j requires 0 <= j < |sections| => sections[j].title)
  }

  /** The label list of the combined scan is the heading labels, then the strong labels, then the bold labels. */
  lemma LabelsInPatternOrder(example: string)
    ensures Labels(AllSections(example)) ==
      Labels(Scan(Heading, example)) + Labels(Scan(Strong, example)) + Labels(Scan(Bold, example))
  {
  }
}

=== FILE: seqs.dfy ===
/** Generic sequence operations: order-preserving filtering and the subsequence relation. */
module Seqs {

  /** `a` can be obtained from `b` by deleting elements (greedy left-to-right matching). */
  predicate Subsequence<T(==)>(a: seq<T>, b: seq<T>)
    decreases |b|
  {
    if |a| == 0 then true
    else if |b| == 0 then false
    else if a[0] == b[0] then Subsequence(a[1..], b[1..])
    else Subsequence(a, b[1..])
  }

  /** `Array.prototype.filter`: the elements satisfying `f`, in their original order. */
  function Filter<T>(s: seq<T>, f: T -> bool): (r: seq<T>)
    ensures |r| <= |s|
    ensures forall i :: 0 <= i < |r| ==> f(r[i]) && r[i] in s
    ensures forall x :: x in s && f(x) ==> x in r
    ensures (forall i :: 0 <= i < |s| ==> f(s[i])) ==> r == s
    ensures (forall i :: 0 <= i < |s| ==> !f(s[i])) ==> r == []
  {
    if |s| == 0 then []
    else
      if f(s[0]) then [s[0]] + Filter(s[1..], f)
      else Filter(s[1..], f)
  }

  /** Filtering keeps every satisfying element as often as it occurs and drops the others entirely. */
  lemma {:induction false} FilterCounts<T>(s: seq<T>, f: T -> bool)
    ensures forall x :: x in s ==> multiset(Filter(s, f))[x] == if f(x) then multiset(s)[x] else 0
  {
    if |s| > 0 {
      FilterCounts(s[1..], f);
      assert s == [s[0]] + s[1..];
      assert multiset(s) == multiset{s[0]} + multiset(s[1..]);
      var r := Filter(s, f);
      var t := Filter(s[1..], f);
      assert multiset(r) == (if f(s[0]) then multiset{s[0]} else multiset{}) + multiset(t);
      forall x | x in s
        ensures multiset(r)[x] == if f(x) then multiset(s)[x] else 0
      {
        if x !in s[1..] {
          assert multiset(s[1..])[x] == 0;
          assert x !in t;
          assert multiset(t)[x] == 0;
        }
      }
    }
  }

  lemma {:induction false} FilterAppend<T>(a: seq<T>, b: seq<T>, f: T -> bool)
    ensures Filter(a + b, f) == Filter(a, f) + Filter(b, f)
  {
    if |a| == 0 {
      assert a + b == b;
    } else {
      assert (a + b)[1..] == a[1..] + b;
      FilterAppend(a[1..], b, f);
    }
  }

  /** Filtering keeps the survivors in their original relative order. */
  lemma {:induction false} FilterIsSubsequence<T>(s: seq<T>, f: T -> bool)
    ensures Subsequence(Filter(s, f), s)
  {
    if |s| == 0 {
    } else if f(s[0]) {
      FilterIsSubsequence(s[1..], f);
    } else {
      FilterIsSubsequence(s[1..], f);
      SubsequenceCons(Filter(s, f), s[1..], s[0]);
      assert [s[0]] + s[1..] == s;
    }
  }

  lemma {:induction false} SubsequenceRefl<T>(a: seq<T>)
    ensures Subsequence(a, a)
  {
    if |a| > 0 {
      SubsequenceRefl(a[1..]);
    }
  }

  /** Putting one more element in front of the larger sequence keeps the relation. */
  lemma {:induction false} SubsequenceCons<T>(a: seq<T>, b: seq<T>, x: T)
    requires Subsequence(a, b)
    ensures Subsequence(a, [x] + b)
    decreases |b|, 1
  {
    var xb := [x] + b;
    assert xb[1..] == b;
    if |a| == 0 {
    } else if a[0] == x {
      SubsequenceDropHead(a, b);
    }
  }

  /** Deleting the first element of the smaller sequence keeps the relation. */
  lemma {:induction false} SubsequenceDropHead<T>(a: seq<T>, b: seq<T>)
    requires |a| > 0 && Subsequence(a, b)
    ensures Subsequence(a[1..], b)
    decreases |b|, 0
  {
    if a[0] == b[0] {
      SubsequenceCons(a[1..], b[1..], b[0]);
      assert [b[0]] + b[1..] == b;
    } else {
      SubsequenceDropHead(a, b[1..]);
      SubsequenceCons(a[1..], b[1..], b[0]);
      assert [b[0]] + b[1..] == b;
    }
  }

  lemma {:induction false} SubsequenceTrans<T>(a: seq<T>, b: seq<T>, c: seq<T>)
    requires Subsequence(a, b) && Subsequence(b, c)
    ensures Subsequence(a, c)
    decreases |c|
  {
    if |a| == 0 {
    } else if |b| == 0 {
    } else if b[0] == c[0] {
      if a[0] == b[0] {
        SubsequenceTrans(a[1..], b[1..], c[1..]);
      } else {
        SubsequenceTrans(a, b[1..], c[1..]);
        SubsequenceCons(a, c[1..], c[0]);
        assert [c[0]] + c[1..] == c;
      }
    } else {
      SubsequenceTrans(a, b, c[1..]);
      SubsequenceCons(a, c[1..], c[0]);
      assert [c[0]] + c[1..] == c;
    }
  }

  /** Prefixing both sides with the same sequence keeps the relation. */
  lemma {:induction false} SubsequencePrefix<T>(x: seq<T>, a: seq<T>, b: seq<T>)
    requires Subsequence(a, b)
    ensures Subsequence(x + a, x + b)
  {
    if |x| > 0 {
      SubsequencePrefix(x[1..], a, b);
      assert (x + a)[1..] == x[1..] + a;
      assert (x + b)[1..] == x[1..] + b;
      assert (x + a)[0] == (x + b)[0];
    } else {
      assert x + a == a && x + b == b;
    }
  }

  /** Inserting `y` anywhere leaves the original as a subsequence. */
  lemma InsertionIsSupersequence<T>(x: seq<T>, y: seq<T>, z: seq<T>)
    ensures Subsequence(x + z, x + y + z)
  {
    InsertFront(y, z);
    SubsequencePrefix(x, z, y + z);
    assert x + y + z == x + (y + z);
  }

  lemma {:induction false} InsertFront<T>(y: seq<T>, z: seq<T>)
    ensures Subsequence(z, y + z)
  {
    if |y| == 0 {
      SubsequenceRefl(z);
      assert y + z == z;
    } else {
      InsertFront(y[1..], z);
      SubsequenceCons(z, y[1..] + z, y[0]);
      assert [y[0]] + (y[1..] + z) == y + z;
    }
  }
}

=== FILE: status_report.dfy ===
/**
 * The format-example status generator of `scripts/status.js`: the
 * date-range filter, the grouping by category, and
 * `generateStatusFromExample`, which fills the sections of a free-form
 * example with bullet lists of entries.
 */
module StatusReport {
  import opened Wrappers
  import opened Seqs
  import opened Text
  import opened Entries
  import opened Categorizer
  import opened Placeholders
  import opened Sections

  // ------------------------------------------------------------ synonyms

  /** The `mappings` table of `categoryToSynonyms`. */
  const SynonymTable: seq<(string, seq<string>)> := [
    ("meeting", ["meeting", "meetings", "call", "calls", "discussion", "discussions", "sync", "syncs"]),
    ("launch", ["launch", "launches", "release", "releases", "ship", "shipping", "deployment", "deployments"]),
    ("progress", ["progress", "in progress", "ongoing", "working on", "current", "development", "implemented"]),
    ("blocker", ["blocker", "blockers", "issue", "issues", "problem", "problems", "challenge", "challenges", "impediment"]),
    ("general", ["general", "update", "updates", "status", "summary", "overview"]),
    ("other", ["other", "miscellaneous", "misc", "note", "notes"])
  ]

  /** The row of the table whose key is `key`, searching from row `from`. */
  function SynonymRow(key: string, from: nat): (r: Option<nat>)
    requires from <= |SynonymTable|
    decreases |SynonymTable| - from
    ensures r.Some? ==> from <= r.value < |SynonymTable| && SynonymTable[r.value].0 == key
    ensures r.None? ==> forall k :: from <= k < |SynonymTable| ==> SynonymTable[k].0 != key
  {
    if from == |SynonymTable| then None
    else if SynonymTable[from].0 == key then Some(from)
    else SynonymRow(key, from + 1)
  }

  /**
   * `categoryToSynonyms`: the table row of the lower-cased category, or the
   * lower-cased category alone when it is not a key.
   */
  function Synonyms(category: string): (r: seq<string>)
    ensures |r| > 0 && r[0] == Lower(category)
    ensures forall k :: 0 <= k < |SynonymTable| && SynonymTable[k].0 == Lower(category) ==> r == SynonymTable[k].1
    ensures (forall k :: 0 <= k < |SynonymTable| ==> SynonymTable[k].0 != Lower(category)) ==> r == [Lower(category)]
  {
    assert forall k :: 0 <= k < |SynonymTable| ==> |SynonymTable[k].1| > 0 && SynonymTable[k].1[0] == SynonymTable[k].0;
    assert forall k, k' :: 0 <= k < k' < |SynonymTable| ==> SynonymTable[k].0 != SynonymTable[k'].0;
    match SynonymRow(Lower(category), 0)
    case Some(k) => SynonymTable[k].1
    case None => [Lower(category)]
  }

  /** The lookup ignores the category's case. */
  lemma SynonymsIgnoreCase()
    ensures Synonyms("Meeting") == Synonyms("meeting") == SynonymTable[0].1
    ensures Synonyms("achievement") == ["achievement"]
  {
    var m := Lower("Meeting");
    assert m == "meeting" by {
      assert |m| == 7;
      assert m[0] == 'm';
    }
    var a := Lower("achievement");
    assert a == "achievement";
    assert forall k :: 0 <= k < |SynonymTable| ==> SynonymTable[k].0 != "achievement";
  }

  // ------------------------------------------------------ matched section

  predicate ContainsAny(text: string, words: seq<string>)
  {
    exists k :: 0 <= k < |words| && Contains(text, words[k])
  }

  /** A candidate the search accepts: it contains a synonym and is not the (falsy) empty string. */
  predicate Qualifies(candidate: string, synonyms: seq<string>)
  {
    candidate != "" && ContainsAny(candidate, synonyms)
  }

  /** The index of the first qualifying candidate at or after `from`. */
  function FirstQualifying(candidates: seq<string>, synonyms: seq<string>, from: nat): (r: Option<nat>)
    requires from <= |candidates|
    decreases |candidates| - from
    ensures r.Some? ==> from <= r.value < |candidates| && Qualifies(candidates[r.value], synonyms)
    ensures r.Some? ==> forall j :: from <= j < r.value ==> !Qualifies(candidates[j], synonyms)
    ensures r.None? <==> forall j :: from <= j < |candidates| ==> !Qualifies(candidates[j], synonyms)
  {
    if from == |candidates| then None
    else if Qualifies(candidates[from], synonyms) then Some(from)
    else FirstQualifying(candidates, synonyms, from + 1)
  }

  /** The section label a category is matched to, if any. */
  function MatchedSection(candidates: seq<string>, synonyms: seq<string>): (r: Option<string>)
    ensures r.Some? <==> exists j :: 0 <= j < |candidates| && Qualifies(candidates[j], synonyms)
    ensures r.Some? ==> r.value != "" && ContainsAny(r.value, synonyms)
  {
    match FirstQualifying(candidates, synonyms, 0)
    case Some(j) => Some(candidates[j])
    case None => None
  }

  /**
   * The nested `for` loops with their two `break`s. `matchedSection` may
   * end up as the empty string, which the caller's `if (matchedSection)`
   * treats like `null`.
   */
  method MatchSection(candidates: seq<string>, synonyms: seq<string>) returns (matched: Option<string>)
    ensures Truthy(matched) <==> FirstQualifying(candidates, synonyms, 0).Some?
    ensures Truthy(matched) ==> matched.value == candidates[FirstQualifying(candidates, synonyms, 0).value]
  {
    matched := None;
    var i := 0;
    while i < |candidates|
      invariant 0 <= i <= |candidates|
      invariant forall i' :: 0 <= i' < i ==> !Qualifies(candidates[i'], synonyms)
      invariant !Truthy(matched)
    {
      var section := candidates[i];
      var j := 0;
      while j < |synonyms|
        invariant 0 <= j <= |synonyms|
        invariant forall j' :: 0 <= j' < j ==> !Contains(section, synonyms[j'])
        invariant !Truthy(matched)
      {
        if Contains(section, synonyms[j]) {
          matched := Some(section);
          break;
        }
        j := j + 1;
      }
      if Truthy(matched) {
        break;
      }
      i := i + 1;
    }
  }

  /** Candidate order dominates synonym order: an earlier candidate wins with any synonym. */
  lemma CandidateOrderWins(candidates: seq<string>, synonyms: seq<string>, j: nat)
    requires j < |candidates| && Qualifies(candidates[j], synonyms)
    requires forall i :: 0 <= i < j ==> !Qualifies(candidates[i], synonyms)
    ensures MatchedSection(candidates, synonyms) == Some(candidates[j])
  {
    var r := FirstQualifying(candidates, synonyms, 0);
    assert r.Some? && r.value == j;
  }

  // ------------------------------------------------------- bullet lists

  /** `<ul>` + one `<li>` per entry + `</ul>`. */
  function BulletList(entries: seq<Entry>): (r: string)
    ensures StartsWith(r, "<ul>")
    ensures |r| == |ListItems(entries)| + 9
    ensures r[..4] == "<ul>" && r[4..|r| - 5] == ListItems(entries) && r[|r| - 5..] == "</ul>"
  {
    "<ul>" + ListItems(entries) + "</ul>"
  }

  /** The text after a header in the original example already begins (after blanks) with a list. */
  predicate AlreadyListed(example: string, m: Section)
    requires End(m) <= |example|
  {
    StartsWith(Trim(example[End(m)..]), "<ul>")
  }

  /** A header occurrence that receives the list: its label is the matched one and no list follows it. */
  predicate Receives(example: string, m: Section, matched: string)
    requires End(m) <= |example|
  {
    m.title == matched && !AlreadyListed(example, m)
  }

  ghost predicate Within(sections: seq<Section>, example: string)
  {
    forall j :: 0 <= j < |sections| ==> End(sections[j]) <= |example|
  }

  /**
   * The second pass over every header of the example: each occurrence
   * that receives the list gets it inserted right after the first
   * occurrence of its markup in the current result.
   */
  function InsertLists(example: string, result: string, sections: seq<Section>, matched: string, bullet: string): (r: string)
    requires Within(sections, example)
    decreases |sections|
    ensures Subsequence(result, r)
    ensures |r| >= |result|
    ensures (forall j :: 0 <= j < |sections| ==> !Receives(example, sections[j], matched)) ==> r == result
  {
    if |sections| == 0 then
      SubsequenceRefl(result);
      result
    else
      var m := sections[0];
      var next := if Receives(example, m, matched) then InsertAfterFirst(result, m.markup, bullet) else result;
      SubsequenceRefl(result);
      var r := InsertLists(example, next, sections[1..], matched, bullet);
      SubsequenceTrans(result, next, r);
      r
  }

  /** A receiving header whose markup still occurs in the result gets the list right behind its first occurrence. */
  lemma FirstReceiverGetsList(example: string, result: string, m: Section, matched: string, bullet: string, p: nat)
    requires End(m) <= |example| && Receives(example, m, matched)
    requires IsFirstOccurrence(result, m.markup, p)
    ensures InsertLists(example, result, [m], matched, bullet) == result[..p + |m.markup|] + bullet + result[p + |m.markup|..]
  {
    var next := InsertAfterFirst(result, m.markup, bullet);
    assert next == result[..p + |m.markup|] + bullet + result[p + |m.markup|..];
    assert [m][1..] == [];
    assert InsertLists(example, result, [m], matched, bullet) == InsertLists(example, next, [], matched, bullet);
  }

  /** The markups of the header occurrences that receive the list, in scan order. */
  function ReceiverMarkups(example: string, sections: seq<Section>, matched: string): (r: seq<string>)
    requires Within(sections, example)
    ensures |r| <= |sections|
    ensures r == [] <==> forall j :: 0 <= j < |sections| ==> !Receives(example, sections[j], matched)
  {
    if |sections| == 0 then []
    else
      var rest := ReceiverMarkups(example, sections[1..], matched);
      assert forall j :: 1 <= j < |sections| ==> sections[j] == sections[1..][j - 1];
      if Receives(example, sections[0], matched) then [sections[0].markup] + rest else rest
  }

  /** Inserting the list behind the first occurrence of each markup in turn. */
  function InsertEach(result: string, markups: seq<string>, bullet: string): string
    decreases |markups|
  {
    if |markups| == 0 then result
    else InsertEach(InsertAfterFirst(result, markups[0], bullet), markups[1..], bullet)
  }

  /** The second pass inserts the list once per receiving occurrence, in scan order. */
  lemma {:induction false} InsertListsIsInsertEach(example: string, result: string, sections: seq<Section>, matched: string, bullet: string)
    requires Within(sections, example)
    ensures InsertLists(example, result, sections, matched, bullet) ==
      InsertEach(result, ReceiverMarkups(example, sections, matched), bullet)
    decreases |sections|
  {
    if |sections| > 0 {
      var m := sections[0];
      var next := if Receives(example, m, matched) then InsertAfterFirst(result, m.markup, bullet) else result;
      InsertListsHead(example, result, sections, matched, bullet);
      InsertListsIsInsertEach(example, next, sections[1..], matched, bullet);
      var rest := ReceiverMarkups(example, sections[1..], matched);
      if Receives(example, m, matched) {
        assert ([m.markup] + rest)[1..] == rest;
      }
    }
  }

  /**
   * When exactly one header occurrence of the example receives the list,
   * the list lands right behind the first occurrence of that header's
   * markup in the current result, and nowhere else.
   */
  lemma OnlyReceiverGetsList(example: string, result: string, sections: seq<Section>, matched: string, bullet: string, markup: string, p: nat)
    requires Within(sections, example) && ReceiverMarkups(example, sections, matched) == [markup]
    requires IsFirstOccurrence(result, markup, p)
    ensures InsertLists(example, result, sections, matched, bullet) == result[..p + |markup|] + bullet + result[p + |markup|..]
  {
    InsertListsIsInsertEach(example, result, sections, matched, bullet);
    assert InsertEach(result, [markup], bullet) == InsertAfterFirst(result, markup, bullet);
    InsertAfterFirstAt(result, markup, bullet, p);
  }

  /** One header of the second pass. */
  lemma InsertListsHead(example: string, result: string, sections: seq<Section>, matched: string, bullet: string)
    requires Within(sections, example) && |sections| > 0
    ensures Within(sections[1..], example)
    ensures InsertLists(example, result, sections, matched, bullet) ==
      InsertLists(example, if Receives(example, sections[0], matched) then InsertAfterFirst(result, sections[0].markup, bullet) else result,
        sections[1..], matched, bullet)
  {
  }

  lemma InsertAfterFirstAt(s: string, m: string, b: string, p: nat)
    requires IsFirstOccurrence(s, m, p)
    ensures InsertAfterFirst(s, m, b) == s[..p + |m|] + b + s[p + |m|..]
  {
  }

  // ----------------------------------------------------------- category

  /** What an unmatched category appends: `<h3>Category</h3><ul>…</ul>`. */
  function Appendix(category: string, entries: seq<Entry>): (r: string)
    ensures StartsWith(r, "<h3>" + Capitalize(category) + "</h3>")
    ensures var n := |category| + 9;
      |r| == n + |ListItems(entries)| + 9
      && r[..n] == "<h3>" + Capitalize(category) + "</h3>" && r[n..] == "<ul>" + ListItems(entries) + "</ul>"
  {
    var head := "<h3>" + Capitalize(category) + "</h3>";
    PrefixStarts(head, BulletList(entries));
    assert (head + BulletList(entries))[|head|..] == BulletList(entries);
    head + BulletList(entries)
  }

  lemma PrefixStarts(head: string, tail: string)
    ensures StartsWith(head + tail, head)
  {
    assert (head + tail)[..|head|] == head;
  }

  /** One iteration of `Object.keys(groupedEntries).forEach`. */
  function CategoryStep(example: string, sections: seq<Section>, result: string, category: string, entries: seq<Entry>): (r: string)
    requires Within(sections, example)
    ensures Subsequence(result, r)
    ensures |entries| == 0 ==> r == result
    ensures |entries| > 0 && MatchedSection(Labels(sections), Synonyms(category)).None? ==>
      r == result + ("<h3>" + Capitalize(category) + "</h3>") + ("<ul>" + ListItems(entries) + "</ul>")
    ensures (MatchedSection(Labels(sections), Synonyms(category)).Some? &&
      forall j :: 0 <= j < |sections| ==> !Receives(example, sections[j], MatchedSection(Labels(sections), Synonyms(category)).value)) ==>
      r == result
  {
    if |entries| == 0 then
      SubsequenceRefl(result);
      result
    else
      match MatchedSection(Labels(sections), Synonyms(category))
      case Some(m) => InsertLists(example, result, sections, m, BulletList(entries))
      case None =>
        SubsequenceRefl(result);
        InsertionIsSupersequence(result, Appendix(category, entries), "");
        assert result + Appendix(category, entries) + "" == result + Appendix(category, entries);
        assert result + "" == result;
        AppendixSpelled(result, category, entries);
        result + Appendix(category, entries)
  }

  lemma AppendixSpelled(result: string, category: string, entries: seq<Entry>)
    ensures result + Appendix(category, entries) ==
      result + ("<h3>" + Capitalize(category) + "</h3>") + ("<ul>" + ListItems(entries) + "</ul>")
  {
    var h := "<h3>" + Capitalize(category) + "</h3>";
    var b := "<ul>" + ListItems(entries) + "</ul>";
    assert Appendix(category, entries) == h + b;
    ConcatAssoc(result, h, b);
  }

  /**
   * A category that matches a section fills the one header occurrence
   * that receives its list: the list goes right behind the first
   * occurrence of that header's markup in the result so far.
   */
  lemma MatchedCategoryFillsReceiver(example: string, sections: seq<Section>, result: string, category: string, entries: seq<Entry>, markup: string, p: nat)
    requires Within(sections, example) && |entries| > 0
    requires MatchedSection(Labels(sections), Synonyms(category)).Some?
    requires ReceiverMarkups(example, sections, MatchedSection(Labels(sections), Synonyms(category)).value) == [markup]
    requires IsFirstOccurrence(result, markup, p)
    ensures CategoryStep(example, sections, result, category, entries) ==
      result[..p + |markup|] + "<ul>" + ListItems(entries) + "</ul>" + result[p + |markup|..]
  {
    var m := MatchedSection(Labels(sections), Synonyms(category)).value;
    StepWhenMatched(example, sections, result, category, entries);
    OnlyReceiverGetsList(example, result, sections, m, BulletList(entries), markup, p);
    SpliceList(result, p + |markup|, entries);
  }

  lemma StepWhenMatched(example: string, sections: seq<Section>, result: string, category: string, entries: seq<Entry>)
    requires Within(sections, example) && |entries| > 0
    requires MatchedSection(Labels(sections), Synonyms(category)).Some?
    ensures CategoryStep(example, sections, result, category, entries) ==
      InsertLists(example, result, sections, MatchedSection(Labels(sections), Synonyms(category)).value, BulletList(entries))
  {
  }

  lemma SpliceList(result: string, k: nat, entries: seq<Entry>)
    requires k <= |result|
    ensures result[..k] + BulletList(entries) + result[k..] == result[..k] + "<ul>" + ListItems(entries) + "</ul>" + result[k..]
  {
  }

  // ------------------------------------------------------------- grouping

  /** The entries of one category, in their original order. */
  datatype Group = Group(category: string, entries: seq<Entry>)

  function FindGroup(groups: seq<Group>, c: string): (r: Option<nat>)
    ensures r.Some? ==> r.value < |groups| && groups[r.value].category == c
    ensures r.None? ==> forall k :: 0 <= k < |groups| ==> groups[k].category != c
  {
    if |groups| == 0 then None
    else if groups[|groups| - 1].category == c then Some(|groups| - 1)
    else FindGroup(groups[..|groups| - 1], c)
  }

  /** `if (!groupedEntries[c]) groupedEntries[c] = []; groupedEntries[c].push(entry)`. */
  function AddToGroups(groups: seq<Group>, e: Entry): (r: seq<Group>)
    ensures |groups| <= |r| <= |groups| + 1
    ensures (forall k :: 0 <= k < |groups| ==> |groups[k].entries| > 0) ==> forall k :: 0 <= k < |r| ==> |r[k].entries| > 0
  {
    match FindGroup(groups, e.category)
    case Some(k) => groups[k := groups[k].(entries := groups[k].entries + [e])]
    case None => groups + [Group(e.category, [e])]
  }

  /** `filteredEntries.forEach(...)` building `groupedEntries`. */
  function GroupEntries(entries: seq<Entry>): (r: seq<Group>)
    ensures |r| <= |entries|
    ensures |entries| > 0 ==> |r| > 0
    ensures forall k :: 0 <= k < |r| ==> |r[k].entries| > 0
  {
    if |entries| == 0 then []
    else AddToGroups(GroupEntries(entries[..|entries| - 1]), entries[|entries| - 1])
  }

  /** The position where category `c` first appears in `s`; `|s|` when it does not. */
  function FirstAppearance(s: seq<Entry>, c: string): (r: nat)
    ensures r <= |s|
    ensures r < |s| ==> s[r].category == c
    ensures forall i :: 0 <= i < r ==> s[i].category != c
  {
    if |s| == 0 then 0
    else if s[0].category == c then 0
    else 1 + FirstAppearance(s[1..], c)
  }

  lemma {:induction false} FirstAppearanceAppend(s: seq<Entry>, e: Entry, c: string)
    ensures FirstAppearance(s + [e], c) ==
      if FirstAppearance(s, c) < |s| then FirstAppearance(s, c)
      else if e.category == c then |s| else |s| + 1
  {
    if |s| > 0 {
      assert (s + [e])[1..] == s[1..] + [e];
      FirstAppearanceAppend(s[1..], e, c);
    } else {
      assert (s + [e])[1..] == [];
    }
  }

  /** Each category has at most one group. */
  ghost predicate DistinctKeys(groups: seq<Group>)
  {
    forall i, j :: 0 <= i < j < |groups| ==> groups[i].category != groups[j].category
  }

  /** Each group holds exactly its category's entries of `s`, in order, and at least one. */
  ghost predicate GroupsAreFilters(groups: seq<Group>, s: seq<Entry>)
  {
    forall k :: 0 <= k < |groups| ==>
      groups[k].entries == Filter(s, CategoryIs(groups[k].category)) && |groups[k].entries| > 0
  }

  /** Every entry's category has a group. */
  ghost predicate CoversCategories(groups: seq<Group>, s: seq<Entry>)
  {
    forall i :: 0 <= i < |s| ==> HasGroup(groups, s[i].category)
  }

  ghost predicate HasGroup(groups: seq<Group>, c: string)
  {
    exists k :: 0 <= k < |groups| && groups[k].category == c
  }

  /** Groups are ordered by the first appearance of their category. */
  ghost predicate InAppearanceOrder(groups: seq<Group>, s: seq<Entry>)
  {
    forall i, j :: 0 <= i < j < |groups| ==>
      FirstAppearance(s, groups[i].category) < FirstAppearance(s, groups[j].category)
  }

  /** The declarative meaning of the `groupedEntries` object. */
  ghost predicate IsGrouping(groups: seq<Group>, s: seq<Entry>)
  {
    DistinctKeys(groups) && GroupsAreFilters(groups, s) && CoversCategories(groups, s) && InAppearanceOrder(groups, s)
  }

  /**
   * Grouping keeps each category's entries in their original order, makes
   * one non-empty group per category that occurs, and orders the groups by
   * the first appearance of their category.
   */
  lemma {:induction false} GroupEntriesIsGrouping(s: seq<Entry>)
    ensures IsGrouping(GroupEntries(s), s)
  {
    if |s| > 0 {
      var init := s[..|s| - 1];
      var e := s[|s| - 1];
      assert s == init + [e];
      GroupEntriesIsGrouping(init);
      AddKeepsGrouping(GroupEntries(init), init, e);
    }
  }

  /** A category that already has a group appeared before the end of `s`. */
  lemma GroupedAppears(groups: seq<Group>, s: seq<Entry>, k: nat)
    requires GroupsAreFilters(groups, s) && k < |groups|
    ensures FirstAppearance(s, groups[k].category) < |s|
  {
    var c := groups[k].category;
    var x := groups[k].entries[0];
    assert CategoryIs(c)(x) && x in s;
    var i :| 0 <= i < |s| && s[i] == x;
    assert s[i].category == c;
  }

  lemma AddKeepsGrouping(groups: seq<Group>, s: seq<Entry>, e: Entry)
    requires IsGrouping(groups, s)
    ensures IsGrouping(AddToGroups(groups, e), s + [e])
  {
    match FindGroup(groups, e.category)
    case Some(k) => AddToExisting(groups, s, e, k);
    case None => AddNew(groups, s, e);
  }

  lemma AddToExisting(groups: seq<Group>, s: seq<Entry>, e: Entry, k: nat)
    requires IsGrouping(groups, s)
    requires k < |groups| && groups[k].category == e.category
    ensures IsGrouping(groups[k := groups[k].(entries := groups[k].entries + [e])], s + [e])
  {
    ExistingDistinct(groups, e, k);
    ExistingFilters(groups, s, e, k);
    ExistingCovers(groups, s, e, k);
    ExistingOrder(groups, s, e, k);
  }

  lemma ExistingDistinct(groups: seq<Group>, e: Entry, k: nat)
    requires DistinctKeys(groups)
    requires k < |groups| && groups[k].category == e.category
    ensures DistinctKeys(groups[k := groups[k].(entries := groups[k].entries + [e])])
  {
    var r := groups[k := groups[k].(entries := groups[k].entries + [e])];
    assert forall j :: 0 <= j < |r| ==> r[j].category == groups[j].category;
  }

  lemma ExistingOrder(groups: seq<Group>, s: seq<Entry>, e: Entry, k: nat)
    requires GroupsAreFilters(groups, s) && InAppearanceOrder(groups, s)
    requires k < |groups| && groups[k].category == e.category
    ensures InAppearanceOrder(groups[k := groups[k].(entries := groups[k].entries + [e])], s + [e])
  {
    var r := groups[k := groups[k].(entries := groups[k].entries + [e])];
    assert forall j :: 0 <= j < |r| ==> r[j].category == groups[j].category;
    KeptOrder(groups, r, s, e);
  }

  lemma ExistingFilters(groups: seq<Group>, s: seq<Entry>, e: Entry, k: nat)
    requires DistinctKeys(groups) && GroupsAreFilters(groups, s)
    requires k < |groups| && groups[k].category == e.category
    ensures GroupsAreFilters(groups[k := groups[k].(entries := groups[k].entries + [e])], s + [e])
  {
    var r := groups[k := groups[k].(entries := groups[k].entries + [e])];
    forall j | 0 <= j < |r|
      ensures r[j].entries == Filter(s + [e], CategoryIs(r[j].category)) && |r[j].entries| > 0
    {
      FilterPush(s, e, r[j].category);
      if j != k {
        assert groups[j].category != groups[k].category;
      }
    }
  }

  lemma ExistingCovers(groups: seq<Group>, s: seq<Entry>, e: Entry, k: nat)
    requires CoversCategories(groups, s)
    requires k < |groups| && groups[k].category == e.category
    ensures CoversCategories(groups[k := groups[k].(entries := groups[k].entries + [e])], s + [e])
  {
    var r := groups[k := groups[k].(entries := groups[k].entries + [e])];
    var s' := s + [e];
    forall i | 0 <= i < |s'| ensures HasGroup(r, s'[i].category) {
      if i < |s| {
        assert s'[i] == s[i];
        var j :| 0 <= j < |groups| && groups[j].category == s[i].category;
        assert r[j].category == s[i].category;
      } else {
        assert r[k].category == s'[i].category;
      }
    }
    assert CoversCategories(r, s');
  }

  /** Groups whose categories already appeared keep their relative order when one more entry is logged. */
  lemma KeptOrder(groups: seq<Group>, r: seq<Group>, s: seq<Entry>, e: Entry)
    requires GroupsAreFilters(groups, s) && InAppearanceOrder(groups, s)
    requires |groups| <= |r| && forall j :: 0 <= j < |groups| ==> r[j].category == groups[j].category
    ensures forall i, j :: 0 <= i < j < |groups| ==>
      FirstAppearance(s + [e], r[i].category) < FirstAppearance(s + [e], r[j].category)
    ensures forall j :: 0 <= j < |groups| ==> FirstAppearance(s + [e], r[j].category) < |s|
  {
    forall j | 0 <= j < |groups| ensures FirstAppearance(s + [e], r[j].category) == FirstAppearance(s, groups[j].category) < |s| {
      GroupedAppears(groups, s, j);
      FirstAppearanceAppend(s, e, groups[j].category);
    }
  }

  lemma AddNew(groups: seq<Group>, s: seq<Entry>, e: Entry)
    requires IsGrouping(groups, s)
    requires forall k :: 0 <= k < |groups| ==> groups[k].category != e.category
    ensures IsGrouping(groups + [Group(e.category, [e])], s + [e])
  {
    var r := groups + [Group(e.category, [e])];
    var s' := s + [e];
    assert forall j :: 0 <= j < |groups| ==> r[j] == groups[j];
    NewFilters(groups, s, e);
    NewCovers(groups, s, e);
    KeptOrder(groups, r, s, e);
    NewAppearsLast(groups, s, e);
    forall i, j | 0 <= i < j < |r|
      ensures r[i].category != r[j].category && FirstAppearance(s', r[i].category) < FirstAppearance(s', r[j].category)
    {
      if j == |groups| {
        assert r[j].category == e.category;
      }
    }
    assert DistinctKeys(r);
    assert InAppearanceOrder(r, s');
  }

  lemma NewAbsent(groups: seq<Group>, s: seq<Entry>, e: Entry)
    requires CoversCategories(groups, s)
    requires forall k :: 0 <= k < |groups| ==> groups[k].category != e.category
    ensures forall i :: 0 <= i < |s| ==> s[i].category != e.category
  {
    forall i | 0 <= i < |s| ensures s[i].category != e.category {
      var j :| 0 <= j < |groups| && groups[j].category == s[i].category;
    }
  }

  lemma NewFilters(groups: seq<Group>, s: seq<Entry>, e: Entry)
    requires GroupsAreFilters(groups, s) && CoversCategories(groups, s)
    requires forall k :: 0 <= k < |groups| ==> groups[k].category != e.category
    ensures GroupsAreFilters(groups + [Group(e.category, [e])], s + [e])
  {
    var c := e.category;
    var r := groups + [Group(c, [e])];
    NewAbsent(groups, s, e);
    assert Filter(s, CategoryIs(c)) == [] by {
      assert forall i :: 0 <= i < |s| ==> !CategoryIs(c)(s[i]);
    }
    forall j | 0 <= j < |r|
      ensures r[j].entries == Filter(s + [e], CategoryIs(r[j].category)) && |r[j].entries| > 0
    {
      FilterPush(s, e, r[j].category);
      if j < |groups| {
        assert r[j] == groups[j];
      }
    }
  }

  lemma NewCovers(groups: seq<Group>, s: seq<Entry>, e: Entry)
    requires CoversCategories(groups, s)
    ensures CoversCategories(groups + [Group(e.category, [e])], s + [e])
  {
    var r := groups + [Group(e.category, [e])];
    var s' := s + [e];
    forall i | 0 <= i < |s'| ensures HasGroup(r, s'[i].category) {
      if i < |s| {
        assert s'[i] == s[i];
        var j :| 0 <= j < |groups| && groups[j].category == s[i].category;
        assert r[j].category == s[i].category;
      } else {
        assert r[|groups|].category == s'[i].category;
      }
    }
    assert CoversCategories(r, s');
  }

  lemma NewAppearsLast(groups: seq<Group>, s: seq<Entry>, e: Entry)
    requires CoversCategories(groups, s)
    requires forall k :: 0 <= k < |groups| ==> groups[k].category != e.category
    ensures FirstAppearance(s + [e], e.category) == |s|
  {
    NewAbsent(groups, s, e);
    FirstAppearanceAppend(s, e, e.category);
  }

  // ------------------------------------------------------------ generate

  /** Folds `CategoryStep` over the groups in order. */
  function FillSections(example: string, sections: seq<Section>, result: string, groups: seq<Group>): (r: string)
    requires Within(sections, example)
    decreases |groups|
    ensures Subsequence(result, r)
    ensures (forall k :: 0 <= k < |groups| ==> |groups[k].entries| == 0) ==> r == result
  {
    if |groups| == 0 then
      SubsequenceRefl(result);
      result
    else
      var next := CategoryStep(example, sections, result, groups[0].category, groups[0].entries);
      var r := FillSections(example, sections, next, groups[1..]);
      SubsequenceTrans(result, next, r);
      r
  }

  lemma AllSectionsWithin(example: string)
    ensures Within(AllSections(example), example)
  {
    ScanWithin(Heading, example);
    ScanWithin(Strong, example);
    ScanWithin(Bold, example);
    ConcatWithin(Scan(Heading, example), Scan(Strong, example), Scan(Bold, example), example);
  }

  lemma ScanWithin(kind: Kind, s: string)
    ensures Within(Scan(kind, s), s)
  {
  }

  lemma ConcatWithin(h: seq<Section>, g: seq<Section>, b: seq<Section>, s: string)
    requires Within(h, s) && Within(g, s) && Within(b, s)
    ensures Within(h + g + b, s)
  {
    var r := h + g + b;
    assert forall j :: 0 <= j < |h| ==> r[j] == h[j];
    assert forall j :: |h| <= j < |h| + |g| ==> r[j] == g[j - |h|];
    assert forall j :: |h| + |g| <= j < |r| ==> r[j] == b[j - |h| - |g|];
  }

  /**
   * `generateStatusFromExample`: the date placeholders are replaced, the
   * headers are read from the original example, and each group either
   * fills its matched section or is appended at the end. The generator
   * only inserts text into the placeholder-substituted example.
   */
  function Generate(example: string, groups: seq<Group>, dateRange: string): (r: string)
    ensures Subsequence(ReplaceDatePlaceholders(example, dateRange), r)
    ensures (forall k :: 0 <= k < |groups| ==> |groups[k].entries| == 0) ==> r == ReplaceDatePlaceholders(example, dateRange)
  {
    AllSectionsWithin(example);
    FillSections(example, AllSections(example), ReplaceDatePlaceholders(example, dateRange), groups)
  }

  /** What the unmatched groups append, in group order; empty groups append nothing. */
  function Appendices(groups: seq<Group>): string
  {
    if |groups| == 0 then ""
    else (if |groups[0].entries| == 0 then "" else Appendix(groups[0].category, groups[0].entries)) + Appendices(groups[1..])
  }

  lemma NoCandidatesNoMatch(synonyms: seq<string>)
    ensures MatchedSection([], synonyms).None?
  {
  }

  /** Groups none of whose categories matches a header are appended, in order, after the result. */
  lemma {:induction false} UnmatchedAppendsAll(example: string, sections: seq<Section>, result: string, groups: seq<Group>)
    requires Within(sections, example)
    requires forall k :: 0 <= k < |groups| ==> MatchedSection(Labels(sections), Synonyms(groups[k].category)).None?
    ensures FillSections(example, sections, result, groups) == result + Appendices(groups)
    decreases |groups|
  {
    if |groups| == 0 {
      assert result + "" == result;
    } else {
      var g := groups[0];
      var piece := if |g.entries| == 0 then "" else Appendix(g.category, g.entries);
      var rest := Appendices(groups[1..]);
      assert FillSections(example, sections, result, groups) == FillSections(example, sections, CategoryStep(example, sections, result, g.category, g.entries), groups[1..]);
      StepUnmatched(example, sections, result, g.category, g.entries);
      assert forall k :: 0 <= k < |groups[1..]| ==> groups[1..][k] == groups[k + 1];
      UnmatchedAppendsAll(example, sections, result + piece, groups[1..]);
      assert Appendices(groups) == piece + rest;
      ConcatAssoc(result, piece, rest);
    }
  }

  lemma ConcatAssoc(a: string, b: string, c: string)
    ensures (a + b) + c == a + (b + c)
  {
  }

  lemma StepUnmatched(example: string, sections: seq<Section>, result: string, category: string, entries: seq<Entry>)
    requires Within(sections, example) && MatchedSection(Labels(sections), Synonyms(category)).None?
    ensures CategoryStep(example, sections, result, category, entries) ==
      result + (if |entries| == 0 then "" else Appendix(category, entries))
  {
    if |entries| == 0 {
      assert result + "" == result;
    } else {
      AppendixSpelled(result, category, entries);
    }
  }

  /** With no header in the example every group is appended, in order, after the substituted example. */
  lemma NoHeadersAppendsAll(example: string, result: string, groups: seq<Group>)
    ensures FillSections(example, [], result, groups) == result + Appendices(groups)
  {
    assert Labels([]) == [];
    forall k | 0 <= k < |groups| ensures MatchedSection(Labels([]), Synonyms(groups[k].category)).None? {
      NoCandidatesNoMatch(Synonyms(groups[k].category));
    }
    UnmatchedAppendsAll(example, [], result, groups);
  }

  /** An example without headers gets every non-empty group appended as an `<h3>` section. */
  lemma GenerateWithoutHeaders(example: string, groups: seq<Group>, dateRange: string)
    requires AllSections(example) == []
    ensures Generate(example, groups, dateRange) == ReplaceDatePlaceholders(example, dateRange) + Appendices(groups)
  {
    NoHeadersAppendsAll(example, ReplaceDatePlaceholders(example, dateRange), groups);
  }

  /** When no category matches a header of the example, every non-empty group is appended as an `<h3>` section. */
  lemma GenerateUnmatchedAppends(example: string, groups: seq<Group>, dateRange: string)
    requires forall k :: 0 <= k < |groups| ==> MatchedSection(Labels(AllSections(example)), Synonyms(groups[k].category)).None?
    ensures Generate(example, groups, dateRange) == ReplaceDatePlaceholders(example, dateRange) + Appendices(groups)
  {
    UnmatchedHeadersAppendAll(example, groups, dateRange);
  }

  lemma UnmatchedHeadersAppendAll(example: string, groups: seq<Group>, dateRange: string)
    requires forall k :: 0 <= k < |groups| ==> MatchedSection(Labels(AllSections(example)), Synonyms(groups[k].category)).None?
    ensures Within(AllSections(example), example)
    ensures FillSections(example, AllSections(example), ReplaceDatePlaceholders(example, dateRange), groups) ==
      ReplaceDatePlaceholders(example, dateRange) + Appendices(groups)
  {
    AllSectionsWithin(example);
    UnmatchedAppendsAll(example, AllSections(example), ReplaceDatePlaceholders(example, dateRange), groups);
  }

  /**
   * One group whose category matches a header with exactly one receiving
   * occurrence: its list lands right behind the first occurrence of that
   * header's markup in the substituted example, and nothing is appended.
   */
  lemma GenerateFillsMatchedHeader(example: string, g: Group, dateRange: string, markup: string, p: nat)
    requires |g.entries| > 0
    requires MatchedSection(Labels(AllSections(example)), Synonyms(g.category)).Some?
    requires Within(AllSections(example), example)
    requires ReceiverMarkups(example, AllSections(example), MatchedSection(Labels(AllSections(example)), Synonyms(g.category)).value) == [markup]
    requires IsFirstOccurrence(ReplaceDatePlaceholders(example, dateRange), markup, p)
    ensures var s := ReplaceDatePlaceholders(example, dateRange);
      Generate(example, [g], dateRange) == s[..p + |markup|] + "<ul>" + ListItems(g.entries) + "</ul>" + s[p + |markup|..]
  {
    var s := ReplaceDatePlaceholders(example, dateRange);
    var sections := AllSections(example);
    var step := CategoryStep(example, sections, s, g.category, g.entries);
    MatchedCategoryFillsReceiver(example, sections, s, g.category, g.entries, markup, p);
    assert FillSections(example, sections, s, [g]) == FillSections(example, sections, step, []);
  }


  // ------------------------------------------------------------- handler

  datatype StatusError = DateRangeMissing | ExampleMissing

  /** The markup shown when the date range holds no entry. */
  const NoEntriesMessage := "<p class=\"empty-message\">No entries found in the selected date range.</p>"

  /**
   * The generate button: both dates and a non-blank example are required;
   * an empty date range shows a fixed message; otherwise the entries in
   * range are grouped and the example is filled.
   */
  function GenerateStatus(startDate: string, endDate: string, example: string, entries: seq<Entry>, dateRange: string): (r: Result<string, StatusError>)
    ensures r == Err(DateRangeMissing) <==> startDate == "" || endDate == ""
    ensures r == Err(ExampleMissing) <==> startDate != "" && endDate != "" && Trim(example) == ""
    ensures startDate != "" && endDate != "" && Trim(example) != "" && (forall e :: e in entries ==> !InRange(e, startDate, endDate)) ==>
      r == Ok(NoEntriesMessage)
    ensures startDate != "" && endDate != "" && Trim(example) != "" && (exists e :: e in entries && InRange(e, startDate, endDate)) ==>
      r == Ok(Generate(example, GroupEntries(Filter(entries, InRangeOf(startDate, endDate))), dateRange))
    ensures r.Ok? && r.value != NoEntriesMessage ==> Subsequence(ReplaceDatePlaceholders(example, dateRange), r.value)
  {
    if startDate == "" || endDate == "" then Err(DateRangeMissing)
    else if Trim(example) == "" then Err(ExampleMissing)
    else
      var inRange := Filter(entries, InRangeOf(startDate, endDate));
      if |inRange| == 0 then
        assert forall e :: e in entries ==> !InRange(e, startDate, endDate) by {
          forall e | e in entries ensures !InRange(e, startDate, endDate) {
            assert InRangeOf(startDate, endDate)(e) == InRange(e, startDate, endDate);
          }
        }
        Ok(NoEntriesMessage)
      else
        var out := Generate(example, GroupEntries(inRange), dateRange);
        assert inRange[0] in entries && InRange(inRange[0], startDate, endDate);
        Ok(out)
  }

  /**
   * An entry "Paid $&" goes under the header `<h3>Notes</h3>`, where
   * `Substitution.DollarInEntryRepeatsHeader` shows it: it hits no keyword, so
   * it is categorised `other`, and the label `notes` of `<h3>Notes</h3>`
   * contains the `other` synonym `notes`, so that header receives the list.
   */
  lemma PaidEntryGoesUnderNotes()
    ensures Categorize("Paid $&") == "other"
    ensures Lower("Notes") == "notes"
    ensures MatchedSection(["notes"], Synonyms("other")) == Some("notes")
  {
    var t := Lower("Paid $&");
    assert t == "paid $&" by {
      assert forall i :: 0 <= i < 7 ==> t[i] == LowerChar("Paid $&"[i]);
    }
    RowMissesPaid(0);
    RowMissesPaid(1);
    RowMissesPaid(2);
    RowMissesPaid(3);
    assert Lower("Notes") == "notes" by {
      assert forall i :: 0 <= i < 5 ==> Lower("Notes")[i] == LowerChar("Notes"[i]);
    }
    assert Synonyms("other")[4] == "notes";
    assert OccursAt("notes", "notes", 0);
    assert Qualifies("notes", Synonyms("other"));
  }

  /** No keyword of row `k` occurs in `paid $&`: each has one of its first three characters outside it. */
  lemma RowMissesPaid(k: nat)
    requires k < |KeywordTable|
    ensures !RowHits("paid $&", k)
  {
    var words := KeywordTable[k].1;
    forall i | 0 <= i < |words| ensures !Contains("paid $&", words[i]) {
      var w := words[i];
      var j := if !InPaid(w[0]) then 0 else if !InPaid(w[1]) then 1 else 2;
      assert !InPaid(w[j]);
      NoCharNoContains("paid $&", w, j);
    }
  }

  /** The characters of `paid $&`. */
  predicate InPaid(c: char)
    ensures !InPaid(c) ==> c !in "paid $&"
  {
    c == 'p' || c == 'a' || c == 'i' || c == 'd' || c == ' ' || c == '$' || c == '&'
  }

  /** A word holding a character the text lacks does not occur in it. */
  lemma NoCharNoContains(t: string, w: string, j: nat)
    requires j < |w| && w[j] !in t
    ensures !Contains(t, w)
  {
  }
}

=== FILE: substitution.dfy ===
/**
 * The replacement-pattern expansion `String.prototype.replace` performs
 * on its replacement string (GetSubstitution, section 22.1.3.19.1 of
 * ECMA-262), for a string pattern, which has no capture groups. The
 * status generator passes header markup plus entry text as the
 * replacement, so a `$` in an entry is interpreted rather than copied.
 */
module Substitution {
  import opened Wrappers
  import opened Text

  /**
   * Expands `$$`, `$&`, `` $` `` and `$'` in `rep`; every other character,
   * including a `$` followed by anything else, is copied.
   */
  function Expand(rep: string, matched: string, before: string, after: string): (r: string)
    decreases |rep|
    ensures '$' !in rep ==> r == rep
  {
    if |rep| == 0 then ""
    else if rep[0] == '$' && |rep| >= 2 && rep[1] == '$' then "$" + Expand(rep[2..], matched, before, after)
    else if rep[0] == '$' && |rep| >= 2 && rep[1] == '&' then matched + Expand(rep[2..], matched, before, after)
    else if rep[0] == '$' && |rep| >= 2 && rep[1] == '`' then before + Expand(rep[2..], matched, before, after)
    else if rep[0] == '$' && |rep| >= 2 && rep[1] == '\'' then after + Expand(rep[2..], matched, before, after)
    else
      assert '$' !in rep ==> '$' !in rep[1..];
      [rep[0]] + Expand(rep[1..], matched, before, after)
  }

  /** Text without a `$` passes through the expansion unchanged, whatever follows it. */
  lemma {:induction false} ExpandLiteralPrefix(x: string, rest: string, matched: string, before: string, after: string)
    requires '$' !in x
    ensures Expand(x + rest, matched, before, after) == x + Expand(rest, matched, before, after)
    decreases |x|
  {
    if |x| > 0 {
      assert (x + rest)[0] == x[0] && (x + rest)[1..] == x[1..] + rest;
      ExpandLiteralPrefix(x[1..], rest, matched, before, after);
      assert x == [x[0]] + x[1..];
    } else {
      assert x + rest == rest;
    }
  }

  /** `$&` stands for the matched text. */
  lemma ExpandMatched(rest: string, matched: string, before: string, after: string)
    ensures Expand("$&" + rest, matched, before, after) == matched + Expand(rest, matched, before, after)
  {
    assert ("$&" + rest)[2..] == rest;
  }

  /** `s.replace(pat, rep)` with a string pattern, as the engine performs it. */
  function ReplaceFirstExpanding(s: string, pat: string, rep: string): (r: string)
    ensures !Contains(s, pat) ==> r == s
    ensures '$' !in rep ==> r == ReplaceFirst(s, pat, rep)
  {
    match IndexOf(s, pat, 0)
    case None => s
    case Some(p) => s[..p] + Expand(rep, pat, s[..p], s[p + |pat|..]) + s[p + |pat|..]
  }

  /**
   * The status generator's `result.replace(markup, markup + list)` as
   * written: an entry "Paid $&" under the header `<h3>Notes</h3>` repeats
   * the header inside the list item instead of showing `$&`.
   */
  lemma DollarInEntryRepeatsHeader()
    ensures ReplaceFirstExpanding("<h3>Notes</h3>", "<h3>Notes</h3>", "<h3>Notes</h3>" + ("<ul><li>Paid " + "$&" + "</li></ul>"))
      == "<h3>Notes</h3>" + "<ul><li>Paid " + "<h3>Notes</h3>" + "</li></ul>"
    ensures InsertAfterFirst("<h3>Notes</h3>", "<h3>Notes</h3>", "<ul><li>Paid " + "$&" + "</li></ul>")
      == "<h3>Notes</h3>" + ("<ul><li>Paid " + "$&" + "</li></ul>")
  {
    var h := "<h3>Notes</h3>";
    WholeTextIsFirstOccurrence(h);
    ExpandEntry(h, "<ul><li>Paid ", "</li></ul>");
  }

  /** A text occurs in itself first at 0, and nothing lies before or after. */
  lemma WholeTextIsFirstOccurrence(h: string)
    ensures IndexOf(h, h, 0) == Some(0) && IsFirstOccurrence(h, h, 0)
    ensures h[..0] == [] && h[|h|..] == []
  {
    assert OccursAt(h, h, 0);
  }

  /** Header, list opening, `$&`, list closing: the `$&` becomes the header. */
  lemma ExpandEntry(h: string, x: string, tail: string)
    requires '$' !in h && '$' !in x && '$' !in tail
    ensures Expand(h + (x + "$&" + tail), h, [], []) == h + x + h + tail
  {
    var hx := h + x;
    assert '$' !in hx;
    assert h + (x + "$&" + tail) == hx + ("$&" + tail);
    ExpandLiteralPrefix(hx, "$&" + tail, h, [], []);
    ExpandMatched(tail, h, [], []);
    assert Expand(tail, h, [], []) == tail;
    assert hx + (h + tail) == h + x + h + tail;
  }
}

=== FILE: template_report.dfy ===
/**
 * The template-based status generator of `scripts/templates.js`: the
 * five fixed category buckets, `replaceContentPlaceholders` with its
 * heading pass and emoji-line fallback, and the generate handler.
 */
module TemplateReport {
  import opened Wrappers
  import opened Seqs
  import opened Text
  import opened Entries
  import opened Templates
  import opened Placeholders
  import opened Sections

  // -------------------------------------------------------------- buckets

  /** The keys of `groupedEntries`, which `categoryLabels` visits in the same order. */
  const CategoryOrder: seq<string> := ["achievement", "blocker", "progress", "meeting", "other"]

  /** The `categoryLabels` table, row `k` belonging to `CategoryOrder[k]`. */
  const CategoryLabels: seq<seq<string>> := [
    ["achievements", "completed", "accomplished", "done"],
    ["blockers", "issues", "problems", "challenges"],
    ["progress", "in progress", "ongoing", "working on"],
    ["meetings", "calls", "discussions", "syncs"],
    ["other", "miscellaneous", "notes"]
  ]

  /** `groupedEntries[entry.category]` is undefined: the `push` throws and the handler stops. */
  datatype GroupError = UnknownCategory(category: string)

  function BucketOf(c: string): (r: Option<nat>)
    ensures r.Some? ==> r.value < 5 && CategoryOrder[r.value] == c
    ensures r.None? <==> c !in CategoryOrder
  {
    if c == "achievement" then Some(0)
    else if c == "blocker" then Some(1)
    else if c == "progress" then Some(2)
    else if c == "meeting" then Some(3)
    else if c == "other" then Some(4)
    else None
  }

  predicate Bucketed(e: Entry)
  {
    e.category in CategoryOrder
  }

  /** Bucket `k` holds exactly the entries of category `CategoryOrder[k]`, in order. */
  ghost predicate AreBuckets(b: seq<seq<Entry>>, entries: seq<Entry>)
  {
    BucketsBy(b, entries, CategoryOrder)
  }

  ghost predicate BucketsBy(b: seq<seq<Entry>>, entries: seq<Entry>, cats: seq<string>)
  {
    |b| == |cats| && forall k :: 0 <= k < |cats| ==> b[k] == Filter(entries, CategoryIs(cats[k]))
  }

  /** `filteredEntries.forEach(entry => groupedEntries[entry.category].push(entry))`. */
  function GroupFive(entries: seq<Entry>): (r: Result<seq<seq<Entry>>, GroupError>)
    ensures r.Ok? ==> |r.value| == 5
    ensures r.Err? <==> FirstUnbucketed(entries) < |entries|
    ensures r.Err? && FirstUnbucketed(entries) < |entries| ==> r.error.category == entries[FirstUnbucketed(entries)].category
  {
    if |entries| == 0 then Ok([[], [], [], [], []])
    else
      var init := entries[..|entries| - 1];
      var e := entries[|entries| - 1];
      match GroupFive(init)
      case Err(x) =>
        FirstUnbucketedAppend(init, e);
        assert init + [e] == entries;
        assert entries[FirstUnbucketed(init)] == init[FirstUnbucketed(init)];
        Err(x)
      case Ok(b) =>
        FirstUnbucketedAppend(init, e);
        assert init + [e] == entries;
        match BucketOf(e.category)
        case None => Err(UnknownCategory(e.category))
        case Some(k) => Ok(b[k := b[k] + [e]])
  }

  /** The position of the first entry outside the five buckets; `|s|` when there is none. */
  function FirstUnbucketed(s: seq<Entry>): (r: nat)
    ensures r <= |s|
    ensures r < |s| ==> !Bucketed(s[r])
    ensures forall i :: 0 <= i < r ==> Bucketed(s[i])
  {
    if |s| == 0 then 0
    else if !Bucketed(s[0]) then 0
    else 1 + FirstUnbucketed(s[1..])
  }

  lemma {:induction false} FirstUnbucketedAppend(s: seq<Entry>, e: Entry)
    ensures FirstUnbucketed(s + [e]) ==
      if FirstUnbucketed(s) < |s| then FirstUnbucketed(s) else if Bucketed(e) then |s| + 1 else |s|
  {
    if |s| > 0 {
      assert (s + [e])[1..] == s[1..] + [e];
      FirstUnbucketedAppend(s[1..], e);
    } else {
      assert (s + [e])[1..] == [];
    }
  }

  /**
   * Grouping succeeds exactly when every entry has one of the five
   * categories, and then each bucket holds its category's entries in order.
   */
  lemma {:induction false} GroupFiveIsBuckets(entries: seq<Entry>)
    ensures GroupFive(entries).Ok? <==> forall i :: 0 <= i < |entries| ==> Bucketed(entries[i])
    ensures GroupFive(entries).Ok? ==> AreBuckets(GroupFive(entries).value, entries)
  {
    var f := FirstUnbucketed(entries);
    assert f < |entries| ==> !Bucketed(entries[f]);
    if |entries| > 0 {
      var init := entries[..|entries| - 1];
      var e := entries[|entries| - 1];
      assert init + [e] == entries;
      GroupFiveIsBuckets(init);
      if GroupFive(entries).Ok? {
        var b := GroupFive(init).value;
        var k := BucketOf(e.category).value;
        PushKeepsBuckets(b, init, e, k);
      }
    }
  }

  lemma PushKeepsBuckets(b: seq<seq<Entry>>, s: seq<Entry>, e: Entry, k: nat)
    requires AreBuckets(b, s) && k < 5 && CategoryOrder[k] == e.category
    ensures AreBuckets(b[k := b[k] + [e]], s + [e])
  {
    CategoriesDistinct();
    PushBy(b, s, e, k, CategoryOrder);
  }

  /** The five bucket keys differ already in their first letters. */
  lemma CategoriesDistinct()
    ensures forall i, j :: 0 <= i < j < |CategoryOrder| ==> CategoryOrder[i] != CategoryOrder[j]
  {
    forall i, j | 0 <= i < j < |CategoryOrder|
      ensures CategoryOrder[i] != CategoryOrder[j]
    {
      assert CategoryOrder[i][0] != CategoryOrder[j][0];
    }
  }

  lemma PushBy(b: seq<seq<Entry>>, s: seq<Entry>, e: Entry, k: nat, cats: seq<string>)
    requires BucketsBy(b, s, cats) && k < |cats| && cats[k] == e.category
    requires forall i, j :: 0 <= i < j < |cats| ==> cats[i] != cats[j]
    ensures BucketsBy(b[k := b[k] + [e]], s + [e], cats)
  {
    forall j | 0 <= j < |cats|
      ensures b[k := b[k] + [e]][j] == Filter(s + [e], CategoryIs(cats[j]))
    {
      FilterPush(s, e, cats[j]);
      if j < k {
        assert cats[j] != cats[k];
      } else if k < j {
        assert cats[k] != cats[j];
      }
    }
  }

  // ------------------------------------------------------- lazy label scan

  /** `label` matched case-insensitively at a position. */
  function LabelIn(s: string, word: string): (f: nat -> bool)
    ensures forall p: nat :: f(p) == CiAt(s, p, word)
  {
    (p: nat) => CiAt(s, p, word)
  }

  /**
   * `.*?LABEL.*?STOP` from `a`: the first occurrence of `label` on the
   * line, then the first `stop` on the line after it; the position of
   * that stop.
   */
  function LabelThen(s: string, word: string, a: nat, stop: nat -> bool): (r: Option<nat>)
    requires a <= |s|
    ensures r.Some? ==> a + |word| <= r.value <= |s| && stop(r.value)
  {
    match FirstInLine(s, a, LabelIn(s, word))
    case None => None
    case Some(p) =>
      assert CiAt(s, p, word);
      FirstInLine(s, p + |word|, stop)
  }

  /** The regular expression `.*?LABEL.*?` followed by `stop` can end at `k`. */
  ghost predicate LabelThenStop(s: string, word: string, a: nat, stop: nat -> bool, k: nat)
    requires a <= k <= |s|
  {
    stop(k) && LineFree(s, a, k) && exists p :: a <= p && p + |word| <= k && CiAt(s, p, word)
  }

  predicate OneLine(word: string)
  {
    forall j :: 0 <= j < |word| ==> !IsLineTerminator(word[j])
  }

  /** Text equal to a one-line label up to case contains no line terminator. */
  lemma LabelKeepsLine(s: string, p: nat, word: string)
    requires OneLine(word) && CiAt(s, p, word)
    ensures LineFree(s, p, p + |word|)
  {
    forall t | p <= t < p + |word| ensures !IsLineTerminator(s[t]) {
      assert s[p..][..|word|][t - p] == s[t];
      assert Lower(s[p..][..|word|])[t - p] == LowerChar(s[t]);
    }
  }

  /** What `LabelThen` finds is a match of the pattern. */
  lemma LabelThenSound(s: string, word: string, a: nat, stop: nat -> bool)
    requires a <= |s| && OneLine(word) && LabelThen(s, word, a, stop).Some?
    ensures LabelThenStop(s, word, a, stop, LabelThen(s, word, a, stop).value)
  {
    var p := FirstInLine(s, a, LabelIn(s, word)).value;
    var k := LabelThen(s, word, a, stop).value;
    assert CiAt(s, p, word);
    LabelKeepsLine(s, p, word);
    assert LineFree(s, p + |word|, k);
  }

  /**
   * Every match of the pattern from `a` is found, and what is found ends
   * no later: the lazy quantifiers give the shortest match.
   */
  lemma LabelThenComplete(s: string, word: string, a: nat, stop: nat -> bool, k: nat)
    requires a <= k <= |s| && LabelThenStop(s, word, a, stop, k)
    ensures LabelThen(s, word, a, stop).Some? && LabelThen(s, word, a, stop).value <= k
  {
    var p :| a <= p && p + |word| <= k && CiAt(s, p, word);
    var f := LabelIn(s, word);
    assert f(p) && LineFree(s, a, p);
    var p0 := FirstInLine(s, a, f).value;
    assert p0 <= p;
    assert LineFree(s, p0 + |word|, k);
  }

  /** The leftmost position at or after `from` where `f` reports a match, with what it reports. */
  function Leftmost(f: nat -> Option<nat>, n: nat, from: nat): (r: Option<(nat, nat)>)
    requires from <= n
    decreases n - from
    ensures r.Some? ==> from <= r.value.0 <= n && f(r.value.0) == Some(r.value.1)
    ensures r.Some? ==> forall t :: from <= t < r.value.0 ==> f(t).None?
    ensures r.None? ==> forall t :: from <= t <= n ==> f(t).None?
  {
    if f(from).Some? then Some((from, f(from).value))
    else if from == n then None
    else Leftmost(f, n, from + 1)
  }

  /** The block inserted for a category: a newline and the bulleted list. */
  function ListBlock(entries: seq<Entry>): string
  {
    "\n<ul>" + ListItems(entries) + "</ul>"
  }

  // ---------------------------------------------------------- heading pass

  /**
   * `(<h[1-6][^>]*>.*?LABEL.*?<\/h[1-6]>)` with the `i` flag tried at `i`:
   * the end of the match.
   */
  function HeadingEnd(s: string, word: string, i: nat): (r: Option<nat>)
    ensures r.Some? ==> i < r.value <= |s|
  {
    match LabelStart(Heading, s, i)
    case None => None
    case Some(a) =>
      match LabelThen(s, word, a, Closer(Heading, s))
      case None => None
      case Some(k) =>
        assert CloseAt(Heading, s, k);
        Some(k + 5)
  }

  function HeadingMatcher(s: string, word: string): (f: nat -> Option<nat>)
    ensures forall i: nat :: f(i) == HeadingEnd(s, word, i)
  {
    (i: nat) => HeadingEnd(s, word, i)
  }

  /** `regex.exec(content)`: the leftmost heading holding `label`, as (start, end). */
  function FindHeading(s: string, word: string): (r: Option<(nat, nat)>)
    ensures r.Some? ==> r.value.0 < r.value.1 <= |s|
  {
    Leftmost(HeadingMatcher(s, word), |s|, 0)
  }

  /** The heading pattern matches at `i` exactly when its tag opens there and a closing tag follows the label on the same line. */
  lemma HeadingEndIsMatch(s: string, word: string, i: nat)
    requires OneLine(word)
    ensures HeadingEnd(s, word, i).Some? <==>
      LabelStart(Heading, s, i).Some? &&
      exists k :: LabelStart(Heading, s, i).value <= k <= |s| && LabelThenStop(s, word, LabelStart(Heading, s, i).value, Closer(Heading, s), k)
  {
    match LabelStart(Heading, s, i)
    case None =>
    case Some(a) =>
      var c := Closer(Heading, s);
      if LabelThen(s, word, a, c).Some? {
        LabelThenSound(s, word, a, c);
      } else {
        forall k | a <= k <= |s| ensures !LabelThenStop(s, word, a, c, k) {
          if LabelThenStop(s, word, a, c, k) {
            LabelThenComplete(s, word, a, c, k);
          }
        }
      }
  }

  /** The first label of `labels[from..]` that `found` accepts: `for (const label of labels) { if (…) break; }`. */
  function FirstLabel(labels: seq<string>, found: string -> bool, from: nat): (r: Option<nat>)
    requires from <= |labels|
    decreases |labels| - from
    ensures r.Some? ==> from <= r.value < |labels| && found(labels[r.value])
    ensures r.Some? ==> forall j :: from <= j < r.value ==> !found(labels[j])
    ensures r.None? <==> forall j :: from <= j < |labels| ==> !found(labels[j])
  {
    if from == |labels| then None
    else if found(labels[from]) then Some(from)
    else FirstLabel(labels, found, from + 1)
  }

  /** `regex.test(content)` for the heading pattern of a label. */
  function HeadingFound(s: string): (f: string -> bool)
    ensures forall w :: f(w) == FindHeading(s, w).Some?
  {
    (w: string) => FindHeading(s, w).Some?
  }

  /**
   * The heading pass: the first label, in list order, with a matching
   * heading gets the list inserted right after its leftmost match.
   */
  function HeadingPass(s: string, labels: seq<string>, block: string): (r: Option<string>)
    ensures r.None? <==> forall j :: 0 <= j < |labels| ==> FindHeading(s, labels[j]).None?
    ensures r.Some? ==> Subsequence(s, r.value) && |r.value| == |s| + |block|
  {
    match FirstLabel(labels, HeadingFound(s), 0)
    case None => None
    case Some(j) => Some(InsertAt(s, FindHeading(s, labels[j]).value.1, block))
  }

  /** Where the heading pass puts the list. */
  lemma HeadingPassInsertsAfterMatch(s: string, labels: seq<string>, block: string, j: nat)
    requires j < |labels| && FindHeading(s, labels[j]).Some?
    requires forall i :: 0 <= i < j ==> FindHeading(s, labels[i]).None?
    ensures HeadingPass(s, labels, block) == Some(InsertAt(s, FindHeading(s, labels[j]).value.1, block))
  {
    assert FirstLabel(labels, HeadingFound(s), 0) == Some(j);
  }

  // ------------------------------------------------------------- emoji pass

  /** `<br`, `<\/` or `<div`, ignoring case. */
  predicate TerminatorAt(s: string, k: nat)
  {
    CiAt(s, k, "<br") || CiAt(s, k, "</") || CiAt(s, k, "<div")
  }

  function Terminator(s: string): (f: nat -> bool)
    ensures forall k: nat :: f(k) == TerminatorAt(s, k)
  {
    (k: nat) => TerminatorAt(s, k)
  }

  /** The length of the terminator the alternation matches at `k`. */
  function TerminatorLength(s: string, k: nat): (n: nat)
    requires TerminatorAt(s, k)
    ensures 2 <= n <= 4 && k + n <= |s|
  {
    if CiAt(s, k, "<br") then 3 else if CiAt(s, k, "</") then 2 else 4
  }

  /**
   * `([MARKERS].*?LABEL.*?)(?:<br|<\/|<div)` with the `i` flag tried at
   * `i`: the end of the first group, where the terminator starts. The
   * marker class is the parameter `marker`.
   */
  function EmojiStop(s: string, word: string, i: nat, marker: char -> bool): (r: Option<nat>)
    ensures r.Some? ==> i < r.value <= |s| && TerminatorAt(s, r.value)
  {
    if i < |s| && marker(s[i]) then LabelThen(s, word, i + 1, Terminator(s)) else None
  }

  function EmojiMatcher(s: string, word: string, marker: char -> bool): (f: nat -> Option<nat>)
    ensures forall i: nat :: f(i) == EmojiStop(s, word, i, marker)
  {
    (i: nat) => EmojiStop(s, word, i, marker)
  }

  /** `emojiRegex.exec(content)`: the leftmost marker line holding `label`, as (start, end of the first group). */
  function FindEmojiLine(s: string, word: string, marker: char -> bool): (r: Option<(nat, nat)>)
    ensures r.Some? ==> r.value.0 < r.value.1 <= |s| && TerminatorAt(s, r.value.1)
  {
    Leftmost(EmojiMatcher(s, word, marker), |s|, 0)
  }

  /** `emojiRegex.test(content)` for a label. */
  function EmojiFound(s: string, marker: char -> bool): (f: string -> bool)
    ensures forall w :: f(w) == FindEmojiLine(s, w, marker).Some?
  {
    (w: string) => FindEmojiLine(s, w, marker).Some?
  }

  /**
   * Where the emoji pass acts: the end `k` of the first group of the
   * first label, in list order, that has a marker line, and the length
   * `n` of the terminator found there.
   */
  function EmojiSite(s: string, labels: seq<string>, marker: char -> bool): (r: Option<(nat, nat)>)
    ensures r.None? <==> forall j :: 0 <= j < |labels| ==> FindEmojiLine(s, labels[j], marker).None?
    ensures r.Some? ==> TerminatorAt(s, r.value.0) && r.value.1 == TerminatorLength(s, r.value.0)
  {
    match FirstLabel(labels, EmojiFound(s, marker), 0)
    case None => None
    case Some(j) =>
      var k := FindEmojiLine(s, labels[j], marker).value.1;
      Some((k, TerminatorLength(s, k)))
  }

  /**
   * The emoji pass as written: the whole match, terminator included, is
   * replaced by the first group and the list, so the terminator is lost.
   */
  function EmojiPassAsWritten(s: string, labels: seq<string>, block: string, marker: char -> bool): (r: Option<string>)
    ensures r.None? <==> forall j :: 0 <= j < |labels| ==> FindEmojiLine(s, labels[j], marker).None?
  {
    match EmojiSite(s, labels, marker)
    case None => None
    case Some((k, n)) => Some(Splice(s, k, n, block))
  }

  /** `s` with the `n` characters at `k` replaced by `block`. */
  function Splice(s: string, k: nat, n: nat, block: string): (r: string)
    requires k + n <= |s|
    ensures |r| == |s| - n + |block|
    ensures r[..k] == s[..k] && r[k..k + |block|] == block && r[k + |block|..] == s[k + n..]
  {
    s[..k] + block + s[k + n..]
  }

  /**
   * The emoji pass as intended: the list goes in front of the terminator,
   * which is kept.
   */
  function EmojiPass(s: string, labels: seq<string>, block: string, marker: char -> bool): (r: Option<string>)
    ensures r.None? <==> forall j :: 0 <= j < |labels| ==> FindEmojiLine(s, labels[j], marker).None?
    ensures r.Some? ==> Subsequence(s, r.value) && |r.value| == |s| + |block|
  {
    match EmojiSite(s, labels, marker)
    case None => None
    case Some((k, _)) => Some(InsertAt(s, k, block))
  }

  /**
   * Whenever the emoji pass applies, the text as written is the intended
   * text with the terminator cut out, so it is shorter by 2 to 4 characters.
   */
  lemma AsWrittenEmojiPassDropsTerminator(s: string, labels: seq<string>, block: string, marker: char -> bool)
    ensures EmojiPassAsWritten(s, labels, block, marker).Some? <==> EmojiPass(s, labels, block, marker).Some?
    ensures EmojiSite(s, labels, marker).Some? ==>
      var k := EmojiSite(s, labels, marker).value.0;
      var n := EmojiSite(s, labels, marker).value.1;
      var w := EmojiPassAsWritten(s, labels, block, marker).value;
      var c := EmojiPass(s, labels, block, marker).value;
      w == c[..k + |block|] + c[k + |block| + n..] && |w| == |c| - n && w != c
  {
    PassesAgree(s, labels, block, marker);
    if EmojiSite(s, labels, marker).Some? {
      DropsTerminatorAtSite(s, labels, block, marker);
    }
  }

  /** Both passes apply under the same condition: some label has a marker line. */
  lemma PassesAgree(s: string, labels: seq<string>, block: string, marker: char -> bool)
    ensures EmojiPassAsWritten(s, labels, block, marker).Some? <==> EmojiSite(s, labels, marker).Some?
    ensures EmojiPass(s, labels, block, marker).Some? <==> EmojiSite(s, labels, marker).Some?
  {
  }

  lemma DropsTerminatorAtSite(s: string, labels: seq<string>, block: string, marker: char -> bool)
    requires EmojiSite(s, labels, marker).Some?
    ensures var k := EmojiSite(s, labels, marker).value.0;
      var n := EmojiSite(s, labels, marker).value.1;
      var w := EmojiPassAsWritten(s, labels, block, marker).value;
      var c := EmojiPass(s, labels, block, marker).value;
      EmojiPassAsWritten(s, labels, block, marker).Some? && EmojiPass(s, labels, block, marker).Some?
      && w == c[..k + |block|] + c[k + |block| + n..] && |w| == |c| - n && w != c
  {
    var k := EmojiSite(s, labels, marker).value.0;
    var n := EmojiSite(s, labels, marker).value.1;
    PassAtSite(s, labels, block, marker, k, n);
    PassAsWrittenAtSite(s, labels, block, marker, k, n);
    CutAfterInsert(s, k, block, n);
  }

  lemma PassAtSite(s: string, labels: seq<string>, block: string, marker: char -> bool, k: nat, n: nat)
    requires EmojiSite(s, labels, marker) == Some((k, n))
    ensures k + n <= |s| && 0 < n
    ensures EmojiPass(s, labels, block, marker) == Some(InsertAt(s, k, block))
  {
  }

  lemma PassAsWrittenAtSite(s: string, labels: seq<string>, block: string, marker: char -> bool, k: nat, n: nat)
    requires EmojiSite(s, labels, marker) == Some((k, n)) && k + n <= |s|
    ensures EmojiPassAsWritten(s, labels, block, marker) == Some(Splice(s, k, n, block))
  {
  }

  /** Cutting `n` characters after an insertion at `k` is replacing them by the inserted text. */
  lemma CutAfterInsert(s: string, k: nat, block: string, n: nat)
    requires 0 < n && k + n <= |s|
    ensures var c := InsertAt(s, k, block);
      var w := Splice(s, k, n, block);
      w == c[..k + |block|] + c[k + |block| + n..] && |w| == |c| - n && w != c
  {
    var c := InsertAt(s, k, block);
    var w := Splice(s, k, n, block);
    assert c[..k + |block|] == s[..k] + block;
    assert c[k + |block| + n..] == s[k + n..];
    assert w == s[..k] + block + s[k + n..];
    assert |w| < |c|;
  }


  /**
   * The emoji line opening with a character `m` of the marker class, with
   * `done` before `<br>`: as written, `<br` disappears.
   */
  lemma EmojiLineExample(m: char, block: string, marker: char -> bool)
    requires marker(m)
    ensures var s := [m] + " Done<br>";
      EmojiPassAsWritten(s, ["done"], block, marker) == Some([m] + " Done" + block + ">")
      && EmojiPass(s, ["done"], block, marker) == Some([m] + " Done" + block + "<br>")
  {
    var s := [m] + " Done<br>";
    EmojiLineShape(m);
    MarkerLineFound(s, "done", marker);
    assert TerminatorLength(s, 6) == 3;
    SingleLabelSite(s, "done", marker, 6, 3);
  }

  lemma EmojiLineShape(m: char)
    ensures var s := [m] + " Done<br>";
      |s| == 10 && s[0] == m && s[1] == ' ' && s[..6] == [m] + " Done" && s[6..] == "<br>" && s[9..] == ">"
      && CiAt(s, 2, "done") && !CiAt(s, 1, "done") && CiAt(s, 6, "<br")
  {
    var s := [m] + " Done<br>";
    assert s[2..][..4] == "Done" && Lower("Done") == "done";
    assert s[1..][..4] == " Don" && Lower(" Don")[0] == ' ';
    assert s[6..][..3] == "<br" && Lower("<br") == "<br";
  }

  /**
   * A line that opens with the marker, one more character, then the
   * label and a terminator: the emoji pattern matches from the marker to
   * the terminator.
   */
  lemma MarkerLineFound(s: string, word: string, marker: char -> bool)
    requires 2 + |word| <= |s| && marker(s[0]) && !IsLineTerminator(s[1])
    requires !CiAt(s, 1, word) && CiAt(s, 2, word) && TerminatorAt(s, 2 + |word|)
    ensures FindEmojiLine(s, word, marker) == Some((0, 2 + |word|))
  {
    assert FirstInLine(s, 1, LabelIn(s, word)) == Some(2);
    assert FirstInLine(s, 2 + |word|, Terminator(s)) == Some(2 + |word|);
  }

  /** With a single label whose emoji line is found, the pass acts at the end of its first group. */
  lemma SingleLabelSite(s: string, word: string, marker: char -> bool, k: nat, n: nat)
    requires FindEmojiLine(s, word, marker).Some? && FindEmojiLine(s, word, marker).value.1 == k
    requires TerminatorAt(s, k) && TerminatorLength(s, k) == n
    ensures EmojiSite(s, [word], marker) == Some((k, n))
  {
    assert FirstLabel([word], EmojiFound(s, marker), 0) == Some(0);
  }

  // ------------------------------------------------------------ placeholders

  /**
   * What the emoji pass does with the terminator (`<br`, `</`, `<div`) that
   * ends a marker line: `DropTerminator` is the replacement as written,
   * which consumes it; `KeepTerminator` is the intended insertion in front
   * of it.
   */
  datatype TerminatorMode = DropTerminator | KeepTerminator

  /** The emoji pass in the given mode: it applies exactly at the emoji site, replacing or keeping the terminator. */
  function EmojiStep(mode: TerminatorMode, s: string, labels: seq<string>, block: string, marker: char -> bool): (r: Option<string>)
    ensures r.None? <==> EmojiSite(s, labels, marker).None?
    ensures r.Some? ==> EmojiSite(s, labels, marker).value.0 + EmojiSite(s, labels, marker).value.1 <= |s|
    ensures r.Some? && mode == DropTerminator ==>
      r.value == Splice(s, EmojiSite(s, labels, marker).value.0, EmojiSite(s, labels, marker).value.1, block)
    ensures r.Some? && mode == KeepTerminator ==> r.value == InsertAt(s, EmojiSite(s, labels, marker).value.0, block)
  {
    PassesAtSite(s, labels, block, marker);
    if mode == DropTerminator then EmojiPassAsWritten(s, labels, block, marker) else EmojiPass(s, labels, block, marker)
  }

  lemma PassesAtSite(s: string, labels: seq<string>, block: string, marker: char -> bool)
    ensures EmojiSite(s, labels, marker).Some? ==>
      var k := EmojiSite(s, labels, marker).value.0;
      var n := EmojiSite(s, labels, marker).value.1;
      k + n <= |s| && EmojiPass(s, labels, block, marker) == Some(InsertAt(s, k, block))
      && EmojiPassAsWritten(s, labels, block, marker) == Some(Splice(s, k, n, block))
  {
    if EmojiSite(s, labels, marker).Some? {
      var (k, n) := EmojiSite(s, labels, marker).value;
      PassAtSite(s, labels, block, marker, k, n);
      PassAsWrittenAtSite(s, labels, block, marker, k, n);
    }
  }

  /**
   * One category of `replaceContentPlaceholders`: the heading pass, then
   * the emoji pass; with neither, the entries are dropped. Only with the
   * terminator kept is the content preserved as a subsequence; as written
   * the list replaces the terminator.
   */
  function FillCategory(s: string, labels: seq<string>, entries: seq<Entry>, marker: char -> bool, mode: TerminatorMode): (r: string)
    ensures mode == KeepTerminator ==> Subsequence(s, r)
    ensures HeadingPass(s, labels, ListBlock(entries)).Some? ==> Subsequence(s, r)
    ensures |entries| == 0 ==> r == s
    ensures (forall j :: 0 <= j < |labels| ==> FindHeading(s, labels[j]).None? && FindEmojiLine(s, labels[j], marker).None?) ==> r == s
    ensures |entries| > 0 && (forall j :: 0 <= j < |labels| ==> FindHeading(s, labels[j]).None?) && EmojiSite(s, labels, marker).Some? ==>
      |r| == |s| + |ListBlock(entries)| - (if mode == DropTerminator then EmojiSite(s, labels, marker).value.1 else 0)
  {
    if |entries| == 0 then
      SubsequenceRefl(s);
      s
    else
      match HeadingPass(s, labels, ListBlock(entries))
      case Some(r) => r
      case None =>
        match EmojiStep(mode, s, labels, ListBlock(entries), marker)
        case Some(r) =>
          EmojiPassKeepsContent(s, labels, ListBlock(entries), marker);
          r
        case None =>
          SubsequenceRefl(s);
          s
  }

  lemma EmojiPassKeepsContent(s: string, labels: seq<string>, block: string, marker: char -> bool)
    requires EmojiStep(KeepTerminator, s, labels, block, marker).Some?
    ensures Subsequence(s, EmojiStep(KeepTerminator, s, labels, block, marker).value)
  {
    assert EmojiStep(KeepTerminator, s, labels, block, marker) == EmojiPass(s, labels, block, marker);
  }

  /** The emoji pass is consulted only when no label has a heading match. */
  lemma HeadingPassFirst(s: string, labels: seq<string>, entries: seq<Entry>, marker: char -> bool, mode: TerminatorMode, j: nat)
    requires |entries| > 0 && j < |labels| && FindHeading(s, labels[j]).Some?
    ensures FillCategory(s, labels, entries, marker, mode) == HeadingPass(s, labels, ListBlock(entries)).value
  {
  }

  /**
   * The code as written and the intended fill agree except where the
   * emoji pass applies; there the written one lacks exactly the `n`
   * terminator characters that follow the inserted list.
   */
  lemma FillCategoryDropsTerminator(s: string, labels: seq<string>, entries: seq<Entry>, marker: char -> bool)
    ensures var w := FillCategory(s, labels, entries, marker, DropTerminator);
      var c := FillCategory(s, labels, entries, marker, KeepTerminator);
      (w == c) <==> !(|entries| > 0 && HeadingPass(s, labels, ListBlock(entries)).None? && EmojiSite(s, labels, marker).Some?)
    ensures |entries| > 0 && HeadingPass(s, labels, ListBlock(entries)).None? && EmojiSite(s, labels, marker).Some? ==>
      var w := FillCategory(s, labels, entries, marker, DropTerminator);
      var c := FillCategory(s, labels, entries, marker, KeepTerminator);
      var k := EmojiSite(s, labels, marker).value.0 + |ListBlock(entries)|;
      var n := EmojiSite(s, labels, marker).value.1;
      w == c[..k] + c[k + n..]
  {
    if |entries| > 0 && HeadingPass(s, labels, ListBlock(entries)).None? && EmojiSite(s, labels, marker).Some? {
      FillCutAtEmojiSite(s, labels, entries, marker);
    } else {
      FillModesAgree(s, labels, entries, marker);
    }
  }

  lemma FillCutAtEmojiSite(s: string, labels: seq<string>, entries: seq<Entry>, marker: char -> bool)
    requires |entries| > 0 && HeadingPass(s, labels, ListBlock(entries)).None? && EmojiSite(s, labels, marker).Some?
    ensures var w := FillCategory(s, labels, entries, marker, DropTerminator);
      var c := FillCategory(s, labels, entries, marker, KeepTerminator);
      var k := EmojiSite(s, labels, marker).value.0 + |ListBlock(entries)|;
      var n := EmojiSite(s, labels, marker).value.1;
      w == c[..k] + c[k + n..] && w != c
  {
    FillAtEmojiSite(s, labels, entries, marker);
    DropsTerminatorAtSite(s, labels, ListBlock(entries), marker);
  }

  lemma FillAtEmojiSite(s: string, labels: seq<string>, entries: seq<Entry>, marker: char -> bool)
    requires |entries| > 0 && HeadingPass(s, labels, ListBlock(entries)).None? && EmojiSite(s, labels, marker).Some?
    ensures FillCategory(s, labels, entries, marker, DropTerminator) == EmojiPassAsWritten(s, labels, ListBlock(entries), marker).value
    ensures FillCategory(s, labels, entries, marker, KeepTerminator) == EmojiPass(s, labels, ListBlock(entries), marker).value
  {
    PassesAtSite(s, labels, ListBlock(entries), marker);
  }


  lemma FillModesAgree(s: string, labels: seq<string>, entries: seq<Entry>, marker: char -> bool)
    requires !(|entries| > 0 && HeadingPass(s, labels, ListBlock(entries)).None? && EmojiSite(s, labels, marker).Some?)
    ensures FillCategory(s, labels, entries, marker, DropTerminator) == FillCategory(s, labels, entries, marker, KeepTerminator)
  {
    if |entries| > 0 && HeadingPass(s, labels, ListBlock(entries)).None? {
      assert EmojiStep(DropTerminator, s, labels, ListBlock(entries), marker).None?;
      assert EmojiStep(KeepTerminator, s, labels, ListBlock(entries), marker).None?;
    }
  }


  /** Text without `<h` anywhere has no heading match for any label. */
  lemma NoHeadingTag(s: string, word: string)
    requires forall i :: 0 <= i < |s| - 1 ==> !(s[i] == '<' && LowerChar(s[i + 1]) == 'h')
    ensures FindHeading(s, word).None?
  {
    forall t: nat | t <= |s|
      ensures HeadingEnd(s, word, t).None?
    {
      assert !HeadingOpenAt(s, t);
    }
  }

  /**
   * A bucket whose label sits on the marker line `Done<br>`: as written
   * the list ends the line with a stray `>`, as intended `<br>` stays.
   */
  lemma EmojiLineFill(m: char, e: Entry, marker: char -> bool)
    requires marker(m)
    ensures var s := [m] + " Done<br>";
      FillCategory(s, ["done"], [e], marker, DropTerminator) == [m] + " Done" + ListBlock([e]) + ">"
      && FillCategory(s, ["done"], [e], marker, KeepTerminator) == [m] + " Done" + ListBlock([e]) + "<br>"
  {
    var s := [m] + " Done<br>";
    EmojiLineShape(m);
    assert LowerChar(' ') != 'h' && LowerChar('b') != 'h';
    NoHeadingTag(s, "done");
    EmojiLineExample(m, ListBlock([e]), marker);
  }

  /**
   * The marker class of templates.js:424 as the file spells it: the UTF-8
   * bytes of the intended emoji read back as Mac Roman, so it holds
   * U+F8FF, `ü`, `ì`, `ã`, `é`, `Ø`, `‚`, `ú`, `Ö`, `ö`, `†`, `Ô`, `∏`,
   * `è`, `Ä` and `ó`, and none of the emoji themselves.
   */
  predicate AsWrittenMarker(c: char)
  {
    c == '\U{F8FF}' || c == '\U{FC}' || c == '\U{EC}' || c == '\U{E3}' || c == '\U{E9}' || c == '\U{D8}'
    || c == '\U{201A}' || c == '\U{FA}' || c == '\U{D6}' || c == '\U{F6}' || c == '\U{2020}' || c == '\U{D4}'
    || c == '\U{220F}' || c == '\U{E8}' || c == '\U{C4}' || c == '\U{F3}'
  }

  /**
   * With the class as written, a line opening with `ü` (one of its
   * characters) loses its `<br` terminator, while a line opening with the
   * check-mark emoji U+2705 is no marker line at all, so a `done` bucket
   * whose only place is that line is dropped.
   */
  lemma AsWrittenMarkerLines(e: Entry)
    ensures FillCategory(['\U{FC}'] + " Done<br>", ["done"], [e], AsWrittenMarker, DropTerminator)
      == ['\U{FC}'] + " Done" + ListBlock([e]) + ">"
    ensures FillCategory(['\U{2705}'] + " Done<br>", ["done"], [e], AsWrittenMarker, DropTerminator)
      == ['\U{2705}'] + " Done<br>"
  {
    EmojiLineFill('\U{FC}', e, AsWrittenMarker);
    CheckMarkNotFound(e);
  }

  lemma CheckMarkNotFound(e: Entry)
    ensures FillCategory(['\U{2705}'] + " Done<br>", ["done"], [e], AsWrittenMarker, DropTerminator)
      == ['\U{2705}'] + " Done<br>"
  {
    var s := ['\U{2705}'] + " Done<br>";
    EmojiLineShape('\U{2705}');
    assert LowerChar(' ') != 'h' && LowerChar('b') != 'h';
    NoHeadingTag(s, "done");
    NoMarkerInLine('\U{2705}');
    NoMarkerNoLine(s, "done", AsWrittenMarker);
  }

  lemma NoMarkerInLine(m: char)
    requires !AsWrittenMarker(m)
    ensures forall i :: 0 <= i < |[m] + " Done<br>"| ==> !AsWrittenMarker(([m] + " Done<br>")[i])
  {
  }

  /** Text without a character of the marker class has no marker line. */
  lemma NoMarkerNoLine(s: string, word: string, marker: char -> bool)
    requires forall i :: 0 <= i < |s| ==> !marker(s[i])
    ensures FindEmojiLine(s, word, marker).None?
  {
    forall t: nat | t <= |s|
      ensures EmojiStop(s, word, t, marker).None?
    {
    }
  }

  /** Folds `FillCategory` over the buckets from `k` on, in `CategoryOrder`. */
  function FillBuckets(s: string, buckets: seq<seq<Entry>>, k: nat, marker: char -> bool, mode: TerminatorMode): (r: string)
    requires |buckets| == 5 && k <= 5
    decreases 5 - k
    ensures mode == KeepTerminator ==> Subsequence(s, r)
    ensures (forall j :: k <= j < 5 ==> |buckets[j]| == 0) ==> r == s
  {
    if k == 5 then
      SubsequenceRefl(s);
      s
    else
      var next := FillCategory(s, CategoryLabels[k], buckets[k], marker, mode);
      var r := FillBuckets(next, buckets, k + 1, marker, mode);
      if mode == KeepTerminator then SubsequenceTrans(s, next, r); r else r
  }

  /**
   * `replaceContentPlaceholders`: every literal `{date_range}` becomes the
   * date range, then each non-empty bucket fills its section.
   */
  function ReplaceContentPlaceholders(content: string, buckets: seq<seq<Entry>>, dateRange: string, marker: char -> bool, mode: TerminatorMode): (r: string)
    requires |buckets| == 5
    ensures mode == KeepTerminator ==> Subsequence(ReplaceToken(DateRangeExact, content, dateRange), r)
    ensures (forall j :: 0 <= j < 5 ==> |buckets[j]| == 0) ==> r == ReplaceToken(DateRangeExact, content, dateRange)
  {
    FillBuckets(ReplaceToken(DateRangeExact, content, dateRange), buckets, 0, marker, mode)
  }

  /** With a brace-free date range of at least 11 characters no `{date_range}` survives the literal replace. */
  lemma NoDateRangeLeft(content: string, dateRange: string)
    requires '{' !in dateRange && '}' !in dateRange && |dateRange| >= 11
    ensures NoToken(DateRangeExact, ReplaceToken(DateRangeExact, content, dateRange))
  {
    NoTokenAfterReplace(DateRangeExact, DateRangeExact, content, dateRange);
  }

  // ---------------------------------------------------------------- handler

  datatype GenerateError = NoTemplateSelected | DateRangeMissing | TemplateMissing | BadCategory(category: string)

  /**
   * The generate button: a template must be selected, both dates given
   * and the template found; the entries in range are bucketed and the
   * template content filled by the code as written.
   */
  function GenerateFromTemplate(templateId: string, startDate: string, endDate: string, templates: seq<Template>,
                                entries: seq<Entry>, dateRange: string, marker: char -> bool): (r: Result<string, GenerateError>)
    ensures r == Err(NoTemplateSelected) <==> templateId == ""
    ensures r == Err(DateRangeMissing) <==> templateId != "" && (startDate == "" || endDate == "")
    ensures r == Err(TemplateMissing) <==> templateId != "" && startDate != "" && endDate != "" && !HasTemplate(templates, templateId)
    ensures r.Err? && r.error.BadCategory? <==>
      (templateId != "" && startDate != "" && endDate != "" && HasTemplate(templates, templateId)
       && exists e :: e in entries && InRange(e, startDate, endDate) && !Bucketed(e))
    ensures r.Ok? ==>
      exists b :: (AreBuckets(b, Filter(entries, InRangeOf(startDate, endDate)))
        && r.value == ReplaceContentPlaceholders(FindTemplate(templates, templateId).value.content, b, dateRange, marker, DropTerminator))
  {
    if templateId == "" then Err(NoTemplateSelected)
    else if startDate == "" || endDate == "" then Err(DateRangeMissing)
    else match FindTemplate(templates, templateId)
      case None => Err(TemplateMissing)
      case Some(t) =>
        var inRange := Filter(entries, InRangeOf(startDate, endDate));
        GroupFiveIsBuckets(inRange);
        InRangeBucketed(entries, startDate, endDate);
        match GroupFive(inRange)
        case Err(UnknownCategory(c)) => Err(BadCategory(c))
        case Ok(b) => Ok(ReplaceContentPlaceholders(t.content, b, dateRange, marker, DropTerminator))
  }

  /** Every in-range entry has a bucket exactly when no entry in range lacks one. */
  lemma InRangeBucketed(entries: seq<Entry>, startDate: string, endDate: string)
    ensures (forall i :: 0 <= i < |Filter(entries, InRangeOf(startDate, endDate))| ==> Bucketed(Filter(entries, InRangeOf(startDate, endDate))[i]))
      <==> !exists e :: e in entries && InRange(e, startDate, endDate) && !Bucketed(e)
  {
    var inRange := Filter(entries, InRangeOf(startDate, endDate));
    if forall i :: 0 <= i < |inRange| ==> Bucketed(inRange[i]) {
      forall e | e in entries && InRange(e, startDate, endDate)
        ensures Bucketed(e)
      {
        assert InRangeOf(startDate, endDate)(e);
        var i :| 0 <= i < |inRange| && inRange[i] == e;
      }
    } else {
      var i :| 0 <= i < |inRange| && !Bucketed(inRange[i]);
      assert inRange[i] in entries && InRangeOf(startDate, endDate)(inRange[i]);
    }
  }
}

=== FILE: templates.dfy ===
/**
 * Status templates and their list operations in `scripts/templates.js`:
 * save, update and delete over the template store, modelled as a
 * sequence in storage order, and the validation of the save button.
 */
module Templates {
  import opened Wrappers
  import opened Seqs
  import opened Text
  import opened Entries

  /** A stored template; `created` and `updated` are ISO time texts. */
  datatype Template = Template(id: string, name: string, content: string, created: string, updated: string)

  /** Why saving a template was refused (the `alert` the handler shows). */
  datatype TemplateError = NameMissing | ContentMissing | TemplateNotFound

  /**
   * `saveTemplate`: the template goes last and the earlier ones keep their
   * order, so looking up a fresh id finds it and an existing id finds the
   * template that already had it.
   */
  function SaveTemplate(templates: seq<Template>, t: Template): (r: seq<Template>)
    ensures |r| == |templates| + 1 && r[..|templates|] == templates && r[|templates|] == t
    ensures FindTemplate(r, t.id) == if HasTemplate(templates, t.id) then FindTemplate(templates, t.id) else Some(t)
  {
    TemplateIndexAppend(templates, t);
    templates + [t]
  }

  lemma {:induction false} TemplateIndexAppend(templates: seq<Template>, t: Template)
    ensures TemplateIndex(templates + [t], t.id) == if HasTemplate(templates, t.id) then TemplateIndex(templates, t.id) else Some(|templates|)
    decreases |templates|
  {
    if |templates| > 0 {
      assert (templates + [t])[1..] == templates[1..] + [t];
      TemplateIndexAppend(templates[1..], t);
      if templates[0].id != t.id {
        assert HasTemplate(templates, t.id) ==> HasTemplate(templates[1..], t.id) by {
          if HasTemplate(templates, t.id) {
            var k :| 0 <= k < |templates| && templates[k].id == t.id;
            assert templates[1..][k - 1].id == t.id;
          }
        }
        assert HasTemplate(templates[1..], t.id) ==> HasTemplate(templates, t.id) by {
          if HasTemplate(templates[1..], t.id) {
            var k :| 0 <= k < |templates[1..]| && templates[1..][k].id == t.id;
            assert templates[k + 1].id == t.id;
          }
        }
      } else {
        assert HasTemplate(templates, t.id) by { assert templates[0].id == t.id; }
      }
    } else {
      assert !HasTemplate(templates, t.id);
      assert (templates + [t])[0] == t;
    }
  }

  ghost predicate HasTemplate(templates: seq<Template>, id: string)
  {
    exists k :: 0 <= k < |templates| && templates[k].id == id
  }

  /** `templates.findIndex(t => t.id === id)`. */
  function TemplateIndex(templates: seq<Template>, id: string): (r: Option<nat>)
    ensures r.Some? ==> r.value < |templates| && templates[r.value].id == id
    ensures r.Some? ==> forall k :: 0 <= k < r.value ==> templates[k].id != id
    ensures r.None? <==> !HasTemplate(templates, id)
  {
    if |templates| == 0 then None
    else if templates[0].id == id then Some(0)
    else match TemplateIndex(templates[1..], id)
      case None => None
      case Some(k) => Some(k + 1)
  }

  /** `templates.find(t => t.id === id)`. */
  function FindTemplate(templates: seq<Template>, id: string): (r: Option<Template>)
    ensures r.None? <==> !HasTemplate(templates, id)
    ensures r.Some? ==> r.value.id == id && r.value in templates
    ensures r.Some? ==> exists k :: 0 <= k < |templates| && templates[k] == r.value && forall j :: 0 <= j < k ==> templates[j].id != id
  {
    match TemplateIndex(templates, id)
    case None => None
    case Some(k) => Some(templates[k])
  }

  /**
   * `updateTemplate`: the first template with `id` gets the new name,
   * content and update time; a missing id is refused.
   */
  function UpdateTemplate(templates: seq<Template>, id: string, name: string, content: string, now: string): (r: Result<seq<Template>, TemplateError>)
    ensures r.Err? <==> !HasTemplate(templates, id)
    ensures r.Err? ==> r.error == TemplateNotFound
    ensures r.Ok? ==> |r.value| == |templates|
    ensures r.Ok? ==> exists k :: (0 <= k < |templates| && templates[k].id == id
      && (forall j :: 0 <= j < k ==> templates[j].id != id)
      && r.value[k] == templates[k].(name := name, content := content, updated := now)
      && forall j :: 0 <= j < |templates| && j != k ==> r.value[j] == templates[j])
  {
    match TemplateIndex(templates, id)
    case None => Err(TemplateNotFound)
    case Some(k) => Ok(templates[k := templates[k].(name := name, content := content, updated := now)])
  }

  /** After an update, looking the id up yields the edited template, with its creation time kept. */
  lemma {:induction false} UpdateThenFind(templates: seq<Template>, id: string, name: string, content: string, now: string)
    requires HasTemplate(templates, id)
    ensures UpdateTemplate(templates, id, name, content, now).Ok?
    ensures var t := FindTemplate(UpdateTemplate(templates, id, name, content, now).value, id);
      t.Some? && t.value.name == name && t.value.content == content && t.value.updated == now
      && t.value.created == FindTemplate(templates, id).value.created
  {
    var k := TemplateIndex(templates, id).value;
    var r := templates[k := templates[k].(name := name, content := content, updated := now)];
    IndexAfterUpdate(templates, r, id, k);
  }

  lemma IndexAfterUpdate(templates: seq<Template>, r: seq<Template>, id: string, k: nat)
    requires k < |templates| == |r| && templates[k].id == id && r[k].id == id
    requires forall j :: 0 <= j < |templates| && j != k ==> r[j] == templates[j]
    requires forall j :: 0 <= j < k ==> templates[j].id != id
    ensures TemplateIndex(r, id) == Some(k)
  {
    assert forall j :: 0 <= j < k ==> r[j] == templates[j];
  }

  function TemplateIdIsNot(id: string): Template -> bool
  {
    (t: Template) => t.id != id
  }

  /** `templates.filter(t => t.id !== id)`. */
  function DeleteTemplate(templates: seq<Template>, id: string): (r: seq<Template>)
    ensures forall k :: 0 <= k < |r| ==> r[k].id != id
    ensures forall t :: t in templates && t.id != id ==> t in r
    ensures forall t :: t in templates ==> multiset(r)[t] == if t.id != id then multiset(templates)[t] else 0
    ensures Subsequence(r, templates)
    ensures !HasTemplate(templates, id) ==> r == templates
  {
    FilterIsSubsequence(templates, TemplateIdIsNot(id));
    FilterCounts(templates, TemplateIdIsNot(id));
    Filter(templates, TemplateIdIsNot(id))
  }

  /** Deleting a template just saved under a fresh id gives back the earlier list. */
  lemma SaveThenDeleteTemplate(templates: seq<Template>, t: Template)
    requires !HasTemplate(templates, t.id)
    ensures DeleteTemplate(SaveTemplate(templates, t), t.id) == templates
  {
    FilterAppend(templates, [t], TemplateIdIsNot(t.id));
    assert Filter([t], TemplateIdIsNot(t.id)) == [];
  }

  /**
   * The save button: the name is trimmed and must not be empty, the
   * content must not be blank (it is stored untrimmed); with a template
   * being edited (`data-id` set) it is updated, otherwise a new template
   * stamped `now` for both times is appended.
   */
  function SubmitTemplate(templates: seq<Template>, editing: Option<string>, name: string, content: string, freshId: string, now: string): (r: Result<seq<Template>, TemplateError>)
    ensures r == Err(NameMissing) <==> Trim(name) == ""
    ensures r == Err(ContentMissing) <==> Trim(name) != "" && Trim(content) == ""
    ensures Trim(name) != "" && Trim(content) != "" && Truthy(editing) ==>
      r == UpdateTemplate(templates, editing.value, Trim(name), content, now)
    ensures Trim(name) != "" && Trim(content) != "" && !Truthy(editing) ==>
      r == Ok(SaveTemplate(templates, Template(freshId, Trim(name), content, now, now)))
  {
    var trimmed := Trim(name);
    if trimmed == "" then Err(NameMissing)
    else if Trim(content) == "" then Err(ContentMissing)
    else if Truthy(editing) then UpdateTemplate(templates, editing.value, trimmed, content, now)
    else Ok(SaveTemplate(templates, Template(freshId, trimmed, content, now, now)))
  }
}

=== FILE: text.dfy ===
/**
 * Text primitives with the JavaScript meaning the application relies on:
 * ASCII case mapping, the `\s`/`trim()` whitespace set, substring search,
 * first-occurrence replacement, the `<div>` stripping applied to entry
 * content, and the lazy "shortest match on one line" scan behind `.*?`.
 */
module Text {
  import opened Wrappers
  import opened Seqs

  // ---------------------------------------------------------------- case

  /** `toLowerCase` restricted to ASCII letters; every other character maps to itself. */
  function LowerChar(c: char): (r: char)
    ensures 'A' <= c <= 'Z' ==> 'a' <= r <= 'z' && r as int == c as int + 32
    ensures !('A' <= c <= 'Z') ==> r == c
  {
    if 'A' <= c <= 'Z' then (c as int + 32) as char else c
  }

  /** `toUpperCase` restricted to ASCII letters. */
  function UpperChar(c: char): (r: char)
    ensures 'a' <= c <= 'z' ==> 'A' <= r <= 'Z' && r as int == c as int - 32
    ensures !('a' <= c <= 'z') ==> r == c
  {
    if 'a' <= c <= 'z' then (c as int - 32) as char else c
  }

  function Lower(s: string): (r: string)
    ensures |r| == |s|
    ensures forall i :: 0 <= i < |s| ==> r[i] == LowerChar(s[i])
  {
    seq(|s|, i requires 0 <= i < |s| => LowerChar(s[i]))
  }

  lemma LowerIdempotent(s: string)
    ensures Lower(Lower(s)) == Lower(s)
  {
  }

  lemma LowerAppend(a: string, b: string)
    ensures Lower(a + b) == Lower(a) + Lower(b)
  {
  }

  /** `s.charAt(0).toUpperCase() + s.slice(1)`; the empty string stays empty. */
  function Capitalize(s: string): (r: string)
    ensures |r| == |s|
    ensures |s| > 0 ==> r[0] == UpperChar(s[0]) && r[1..] == s[1..]
  {
    if |s| == 0 then "" else [UpperChar(s[0])] + s[1..]
  }

  // ---------------------------------------------------------- whitespace

  /** The four characters the regular-expression `.` refuses to match. */
  predicate IsLineTerminator(c: char)
  {
    c == '\n' || c == '\r' || c == '\U{2028}' || c == '\U{2029}'
  }

  /** ECMAScript WhiteSpace and LineTerminator: the class `\s` and what `trim()` removes. */
  predicate IsSpace(c: char)
  {
    || c == '\t' || c == '\U{000B}' || c == '\U{000C}' || c == ' '
    || c == '\U{00A0}' || c == '\U{FEFF}' || c == '\U{1680}'
    || ('\U{2000}' <= c <= '\U{200A}')
    || c == '\U{202F}' || c == '\U{205F}' || c == '\U{3000}'
    || IsLineTerminator(c)
  }

  function TrimStart(s: string): (r: string)
    ensures |r| <= |s| && r == s[|s| - |r|..]
    ensures forall i :: 0 <= i < |s| - |r| ==> IsSpace(s[i])
    ensures |r| > 0 ==> !IsSpace(r[0])
  {
    if |s| > 0 && IsSpace(s[0]) then TrimStart(s[1..]) else s
  }

  function TrimEnd(s: string): (r: string)
    ensures |r| <= |s| && r == s[..|r|]
    ensures forall i :: |r| <= i < |s| ==> IsSpace(s[i])
    ensures |r| > 0 ==> !IsSpace(r[|r| - 1])
  {
    if |s| > 0 && IsSpace(s[|s| - 1]) then TrimEnd(s[..|s| - 1]) else s
  }

  /** `r` is `s` from offset `k` on, with only whitespace cut off on either side. */
  predicate CutFrom(s: string, r: string, k: int)
  {
    0 <= k <= |s| - |r| && r == s[k..k + |r|]
    && (forall i :: 0 <= i < k ==> IsSpace(s[i])) && (forall i :: k + |r| <= i < |s| ==> IsSpace(s[i]))
  }

  /**
   * `trim()`: the result is a slice of `s` with only whitespace cut off on
   * either side, and it neither starts nor ends with whitespace.
   */
  function Trim(s: string): (r: string)
    ensures exists k :: CutFrom(s, r, k)
    ensures |r| > 0 ==> !IsSpace(r[0]) && !IsSpace(r[|r| - 1])
  {
    TrimCut(s);
    TrimEnd(TrimStart(s))
  }

  lemma TrimCut(s: string)
    ensures CutFrom(s, TrimEnd(TrimStart(s)), |s| - |TrimStart(s)|)
    ensures |TrimEnd(TrimStart(s))| > 0 ==> TrimEnd(TrimStart(s))[0] == TrimStart(s)[0]
  {
    TrimCutSlice(s);
    TrimFirst(TrimStart(s));
  }

  lemma TrimCutSlice(s: string)
    ensures CutFrom(s, TrimEnd(TrimStart(s)), |s| - |TrimStart(s)|)
  {
    var t := TrimStart(s);
    CutOfCut(s, t, TrimEnd(t), |s| - |t|);
  }

  lemma TrimFirst(t: string)
    ensures |TrimEnd(t)| > 0 ==> TrimEnd(t)[0] == t[0]
  {
  }

  /** Cutting leading whitespace, then trailing whitespace, cuts a slice with whitespace around it. */
  lemma CutOfCut(s: string, t: string, r: string, k: nat)
    requires k <= |s| && t == s[k..] && |r| <= |t| && r == t[..|r|]
    requires forall i :: 0 <= i < k ==> IsSpace(s[i])
    requires forall i :: |r| <= i < |t| ==> IsSpace(t[i])
    ensures CutFrom(s, r, k)
  {
    assert r == s[k..k + |r|];
    forall i | k + |r| <= i < |s| ensures IsSpace(s[i]) {
      assert s[i] == t[i - k];
    }
  }


  /** Text that neither starts nor ends with whitespace is its own trim. */
  lemma TrimUntouched(s: string)
    requires |s| > 0 ==> !IsSpace(s[0]) && !IsSpace(s[|s| - 1])
    ensures Trim(s) == s
  {
  }

  /** `!s.trim()`: the string is empty or consists of whitespace only. */
  lemma BlankIffAllSpace(s: string)
    ensures Trim(s) == "" <==> forall i :: 0 <= i < |s| ==> IsSpace(s[i])
  {
    var t := TrimStart(s);
    if |t| > 0 {
      assert t[0] == s[|s| - |t|];
      assert !IsSpace(t[0]);
    }
  }

  // -------------------------------------------------------------- search

  predicate StartsWith(s: string, p: string)
  {
    |p| <= |s| && s[..|p|] == p
  }

  /** Case-insensitive prefix test against a lower-case ASCII word (the regex `i` flag). */
  predicate StartsWithCi(s: string, word: string)
  {
    |word| <= |s| && Lower(s[..|word|]) == word
  }

  predicate OccursAt(s: string, sub: string, i: int)
  {
    0 <= i && i + |sub| <= |s| && s[i..i + |sub|] == sub
  }

  /** `s.includes(sub)`. */
  predicate Contains(s: string, sub: string)
    ensures Contains(s, sub) ==> |sub| <= |s|
    ensures |sub| == 0 ==> Contains(s, sub)
  {
    assert |sub| == 0 ==> OccursAt(s, sub, 0);
    exists i :: 0 <= i <= |s| - |sub| && OccursAt(s, sub, i)
  }

  ghost predicate IsFirstOccurrence(s: string, sub: string, p: int)
  {
    OccursAt(s, sub, p) && forall q :: 0 <= q < p ==> !OccursAt(s, sub, q)
  }

  /** `s.indexOf(sub, from)` for `from <= |s|`: the least position at or after `from` where `sub` occurs. */
  function IndexOf(s: string, sub: string, from: nat): (r: Option<nat>)
    requires from <= |s|
    decreases |s| - from
    ensures r.Some? ==> from <= r.value && OccursAt(s, sub, r.value)
    ensures r.Some? ==> forall q :: from <= q < r.value ==> !OccursAt(s, sub, q)
    ensures r.None? ==> forall q :: from <= q ==> !OccursAt(s, sub, q)
  {
    if OccursAt(s, sub, from) then Some(from)
    else if from + |sub| >= |s| then None
    else IndexOf(s, sub, from + 1)
  }

  /** `includes` and `indexOf` agree: the text occurs exactly when `indexOf` finds it. */
  lemma ContainsIffIndexOf(s: string, sub: string)
    ensures Contains(s, sub) <==> IndexOf(s, sub, 0).Some?
  {
    if IndexOf(s, sub, 0).Some? {
      assert OccursAt(s, sub, IndexOf(s, sub, 0).value);
    }
  }

  /**
   * `s.replace(pat, rep)` with a string pattern and a replacement taken
   * literally: the first occurrence of `pat`, if any, becomes `rep`.
   */
  function ReplaceFirst(s: string, pat: string, rep: string): (r: string)
    ensures !Contains(s, pat) ==> r == s
    ensures forall p :: IsFirstOccurrence(s, pat, p) ==> r == s[..p] + rep + s[p + |pat|..]
  {
    match IndexOf(s, pat, 0)
    case None => s
    case Some(p) =>
      assert forall q :: IsFirstOccurrence(s, pat, q) ==> q == p;
      s[..p] + rep + s[p + |pat|..]
  }

  /**
   * `s.replace(m, m + b)`: the text `b` is inserted right after the first
   * occurrence of `m`; nothing happens when `m` does not occur.
   */
  function InsertAfterFirst(s: string, m: string, b: string): (r: string)
    ensures r == ReplaceFirst(s, m, m + b)
    ensures !Contains(s, m) ==> r == s
    ensures forall p :: IsFirstOccurrence(s, m, p) ==> r == s[..p + |m|] + b + s[p + |m|..]
    ensures Subsequence(s, r)
  {
    match IndexOf(s, m, 0)
    case None =>
      SubsequenceRefl(s);
      s
    case Some(p) =>
      InsertAfterIndex(s, m, b, p);
      InsertAt(s, p + |m|, b)
  }

  /** At the position `indexOf` reports, `replace(m, m + b)` inserts `b` behind `m`, and no other first occurrence exists. */
  lemma InsertAfterIndex(s: string, m: string, b: string, p: nat)
    requires IndexOf(s, m, 0) == Some(p)
    ensures p + |m| <= |s| && Contains(s, m)
    ensures forall q :: IsFirstOccurrence(s, m, q) ==> q == p
    ensures ReplaceFirst(s, m, m + b) == s[..p + |m|] + b + s[p + |m|..]
  {
    assert OccursAt(s, m, p);
    FirstOccurrenceUnique(s, m, p);
    InsertAfterOccurrence(s, m, b, p);
  }

  lemma FirstOccurrenceUnique(s: string, m: string, p: nat)
    requires IsFirstOccurrence(s, m, p)
    ensures forall q :: IsFirstOccurrence(s, m, q) ==> q == p
  {
  }

  /** Replacing an occurrence of `m` by `m + b` is inserting `b` after it. */
  lemma InsertAfterOccurrence(s: string, m: string, b: string, p: nat)
    requires OccursAt(s, m, p)
    ensures s[..p] + (m + b) + s[p + |m|..] == s[..p + |m|] + b + s[p + |m|..]
  {
    assert s[..p + |m|] == s[..p] + m;
  }

  /** Text inserted at a known position; the original survives as a subsequence. */
  function InsertAt(s: string, at: nat, t: string): (r: string)
    requires at <= |s|
    ensures |r| == |s| + |t|
    ensures r[..at] == s[..at] && r[at..at + |t|] == t && r[at + |t|..] == s[at..]
    ensures Subsequence(s, r)
  {
    InsertionIsSupersequence(s[..at], t, s[at..]);
    assert s[..at] + s[at..] == s;
    s[..at] + t + s[at..]
  }

  // ----------------------------------------------------- `<div>` removal

  predicate DivTagAt(s: string, i: int)
  {
    0 <= i <= |s| && (StartsWith(s[i..], "<div>") || StartsWith(s[i..], "</div>"))
  }

  /**
   * `s.replace(/<\/?div>/g, '')`: one left-to-right pass deleting every
   * `<div>` and `</div>` (case-sensitive) found by the scan.
   */
  function StripDivTags(s: string): (r: string)
    decreases |s|
    ensures Subsequence(r, s)
    ensures r == s <==> forall i :: !DivTagAt(s, i)
    ensures |r| <= |s|
  {
    if StartsWith(s, "<div>") then
      var t := StripDivTags(s[5..]);
      assert DivTagAt(s, 0);
      DropPrefixKeepsSubsequence(t, s, 5);
      t
    else if StartsWith(s, "</div>") then
      var t := StripDivTags(s[6..]);
      assert DivTagAt(s, 0);
      DropPrefixKeepsSubsequence(t, s, 6);
      t
    else if |s| == 0 then
      assert forall i :: DivTagAt(s, i) ==> i == 0;
      ""
    else
      var t := StripDivTags(s[1..]);
      assert [s[0]] + s[1..] == s;
      SubsequencePrefix([s[0]], t, s[1..]);
      assert forall i :: 1 <= i <= |s| ==> (DivTagAt(s, i) <==> DivTagAt(s[1..], i - 1)) by {
        forall i | 1 <= i <= |s| ensures s[i..] == s[1..][i - 1..] { }
      }
      assert !DivTagAt(s, 0);
      assert (forall i :: !DivTagAt(s, i)) <==> (forall j :: !DivTagAt(s[1..], j)) by {
        if forall j :: !DivTagAt(s[1..], j) {
          forall i ensures !DivTagAt(s, i) {
            if 1 <= i <= |s| {
              assert !DivTagAt(s[1..], i - 1);
            }
          }
        }
        if forall i :: !DivTagAt(s, i) {
          forall j ensures !DivTagAt(s[1..], j) {
            if 0 <= j <= |s[1..]| {
              assert !DivTagAt(s, j + 1);
            }
          }
        }
      }
      assert ([s[0]] + t == s) <==> (t == s[1..]) by {
        if [s[0]] + t == s {
          assert t == ([s[0]] + t)[1..];
        }
      }
      [s[0]] + t
  }

  lemma DropPrefixKeepsSubsequence(t: string, s: string, k: nat)
    requires k <= |s| && Subsequence(t, s[k..])
    ensures Subsequence(t, s)
  {
    InsertFront(s[..k], s[k..]);
    assert s[..k] + s[k..] == s;
    SubsequenceTrans(t, s[k..], s);
  }

  // ------------------------------------------------------- comparison

  /**
   * JavaScript `a < b` on two strings: the first differing character
   * decides, and a proper prefix is smaller.
   */
  predicate StringLess(a: string, b: string)
    decreases |a|
  {
    if |a| == 0 then |b| > 0
    else if |b| == 0 then false
    else if a[0] != b[0] then a[0] < b[0]
    else StringLess(a[1..], b[1..])
  }

  /** String `<` is irreflexive and total: of two different strings one is smaller. */
  lemma {:induction false} StringLessTotal(a: string, b: string)
    ensures !StringLess(a, a)
    ensures a != b ==> StringLess(a, b) || StringLess(b, a)
    decreases |a|
  {
    if |a| > 0 {
      StringLessTotal(a[1..], a[1..]);
      if |b| > 0 && a[0] == b[0] {
        StringLessTotal(a[1..], b[1..]);
        assert a != b ==> a[1..] != b[1..] by {
          if a[1..] == b[1..] {
            assert a == [a[0]] + a[1..] && b == [b[0]] + b[1..];
          }
        }
      }
    }
  }

  /** JavaScript `a <= b` on two strings. */
  predicate StringLeq(a: string, b: string)
  {
    a == b || StringLess(a, b)
  }

  /**
   * Comparing two concatenations whose first parts have equal lengths:
   * the first parts decide unless they are equal.
   */
  lemma {:induction false} StringLessAppend(a: string, x: string, b: string, y: string)
    requires |a| == |b|
    ensures StringLess(a + x, b + y) <==> StringLess(a, b) || (a == b && StringLess(x, y))
    decreases |a|
  {
    if |a| == 0 {
      assert a + x == x && b + y == y;
    } else {
      assert (a + x)[0] == a[0] && (b + y)[0] == b[0];
      assert (a + x)[1..] == a[1..] + x && (b + y)[1..] == b[1..] + y;
      StringLessAppend(a[1..], x, b[1..], y);
      assert a == b <==> a[0] == b[0] && a[1..] == b[1..] by {
        if a[0] == b[0] && a[1..] == b[1..] {
          assert a == [a[0]] + a[1..] && b == [b[0]] + b[1..];
        }
      }
    }
  }

  // ------------------------------------------------------- lazy scanning

  /** No line terminator among `s[a..b]`: the span a regular-expression `.*` may cover. */
  ghost predicate LineFree(s: string, a: int, b: int)
    requires 0 <= a && b <= |s|
  {
    forall t :: a <= t < b ==> !IsLineTerminator(s[t])
  }

  /**
   * The position a lazy `.*?` starting at `from` stops at: the least `k`
   * with `p(k)` such that no line terminator lies in `s[from..k]`.
   */
  function FirstInLine(s: string, from: nat, p: nat -> bool): (r: Option<nat>)
    requires from <= |s|
    decreases |s| - from
    ensures r.Some? ==> from <= r.value <= |s| && p(r.value) && LineFree(s, from, r.value)
    ensures r.Some? ==> forall t :: from <= t < r.value ==> !p(t)
    ensures r.None? ==> forall t :: from <= t <= |s| && LineFree(s, from, t) ==> !p(t)
  {
    if p(from) then Some(from)
    else if from < |s| && !IsLineTerminator(s[from]) then FirstInLine(s, from + 1, p)
    else None
  }
}

=== FILE: wrappers.dfy ===
/** Failure-carrying result types shared by the whole model. */
module Wrappers {

  /** A value that may be absent: JavaScript's `null`/`undefined` or a search that found nothing. */
  datatype Option<+T> = None | Some(value: T)

  /** The outcome of an operation that either produces a value or is refused with an error. */
  datatype Result<+T, +E> = Ok(value: T) | Err(error: E)
}
